=== FILE: README.md ===
# DIGITAL-FLUX marketplace core, modelled in Dafny

DIGITAL-FLUX is a marketplace for digital products (courses, events,
services, downloads) sold in XAF through the Flutterwave gateway. This
project models the marketplace's core in Dafny:

- **Shared helpers.** The commission split and the slug generator of
  `lib/utils.ts`.
- **Payments.** The payment initialisation route. The Flutterwave webhook,
  which verifies the signature, completes the transaction and pays the
  seller out.
- **Catalogue.** Product creation and listing, the search route, and the
  browse grid, which all rank owner products first.
- **Uploads.** The S3 key and URL helpers, and the signed-upload route.
- **Access control.** The route-protection middleware and the admin
  approval route.
- **Client-side state.** The product moderation buttons, the admin panel's
  filters, the hide-on-scroll header and the language switch.

The store is the class `Database.Db`. Its fields hold the users, products,
boost scores, transactions and payouts tables as sequences, and a row's id
is its index. Each route is:

- a function from a snapshot of the tables and the request to the new
  tables and the response;
- a `Post`/`Get` method that performs it on the store and is proved equal
  to that function.

Calls the route cannot see are parameters: the session, the gateway's
answers, SHA-256, `Date.now()` and the environment variables. A call that
can throw is an `Outcome` (`Ok(value)` or `Threw`). An unset environment
variable is `None`, printed as `undefined` in a template string. Amounts are
exact `real`s.

## Model

| member | source | states |
|---|---|---|
| Common.OrElse | app/api/upload/route.ts:43 | `a \|\| b` on an optional string: the first when it is present and non-empty, the second otherwise |
| Common.EnvText | lib/s3.ts:28-30 | an environment value in a template string is its text, or `undefined` when unset |
| Common.Filter | app/panel-admin/page.tsx:140-152 | `filter` keeps exactly the elements the predicate accepts, and only elements of the input |
| Common.FilterConcat | app/panel-admin/page.tsx:140-152 | filtering keeps order: filtering a concatenation is concatenating the filters |
| Common.FilterKeepsAll | app/panel-admin/page.tsx:140-144 | when every element passes, the filter returns the whole array |
| Common.FilterSame | app/panel-admin/page.tsx:140-144 | two predicates that agree on every element filter alike |
| Strings.Lower | lib/utils.ts:39 | `toLowerCase` maps every ASCII capital to its small letter and keeps every other character, length preserved |
| Strings.Split | components/language-switcher.tsx:13-16 | `split(sep)` yields at least one piece |
| Strings.SplitAfterPiece | components/language-switcher.tsx:14-16 | a leading piece without the separator splits off as the first piece |
| Strings.SplitJoin | components/language-switcher.tsx:13-14 | splitting pairs joined by `"; "` gives back the pairs when none holds `;` |
| Strings.NatToString | app/api/webhooks/flutterwave/route.ts:87 | `${n}`: non-empty decimal digits that denote `n`, with a leading `0` only for zero, so distinct numbers render differently |
| Utils.CalculateCommission | lib/utils.ts:15-35 | commission plus seller amount is the amount; the owner rate applies to owners, the pro rate to other pro sellers, the default rate otherwise |
| Utils.SelectRate | lib/utils.ts:23-29 | the rate is one of the three: the owner rate for owners, the pro rate for other pro sellers, the default otherwise |
| Utils.TrimShape | lib/utils.ts:40 | `trim` never lengthens the text, leaves no space at either end, and keeps a text already without one |
| Utils.CommissionBounds | lib/utils.ts:23-32 | with a rate in [0, 1] and a non-negative amount, both parts are between 0 and the amount |
| Utils.OwnerSaleKeepsEverything | lib/utils.ts:19-26 | with the default owner rate 0 the owner keeps the whole amount |
| Utils.ProRateIsCheaper | lib/utils.ts:20-28 | with the default rates a pro seller pays less commission than a plain seller |
| Utils.GenerateSlug | lib/utils.ts:37-44 | the slug is lower-case letters, digits and single dashes, with no dash at either end (its letters and digits: `SlugKeepsLettersAndDigits`) |
| Utils.SlugKeepsLettersAndDigits | lib/utils.ts:37-44 | the slug of any title holds every ASCII letter and digit of the lower-cased title, each exactly as often as the title does |
| Utils.CollapseSeparators | lib/utils.ts:42 | runs of whitespace, `_` and `-` become one dash: the result is empty only for an empty input, starts with a dash exactly when the input starts with a separator, holds only dashes and characters of the input, and never two dashes in a row |
| Utils.CollapseKeepsOthers | lib/utils.ts:42 | every character that is not a separator occurs in the collapsed text exactly as often as in the input |
| Utils.RemoveDisallowed | lib/utils.ts:41 | removing the characters outside `[\w\s-]` leaves only word characters, whitespace and dashes, all taken from the input, and keeps every one of them as often as it occurs |
| Utils.RemoveDisallowedKeepsSlugChars | lib/utils.ts:41 | a text made of slug characters passes the removal unchanged |
| Utils.CollapseKeepsSlug | lib/utils.ts:42 | a text of slug characters without a double dash passes the collapsing unchanged |
| Utils.SlugIsFixpoint | lib/utils.ts:37-44 | a slug is its own slug |
| Utils.SlugIdempotent | lib/utils.ts:37-44 | generating the slug of a slug changes nothing |
| Flutterwave.HexLower | lib/flutterwave.ts:105 | the `hex` digest is two lower-case hexadecimal digits per byte |
| Flutterwave.HexRoundTrip | lib/flutterwave.ts:102-105 | decoding the lower-case hex text of a digest gives the digest back |
| Flutterwave.HexDecodeRoundTrip | lib/flutterwave.ts:105-106 | an even-length lower-case hex text is the hex of what it decodes to |
| Flutterwave.HexSpells | lib/flutterwave.ts:105-106 | a text equals the hex of a digest exactly when it has twice its length, holds only lower-case hex digits and decodes to it |
| Flutterwave.VerifyWebhookHash | lib/flutterwave.ts:100-107 | a hash is accepted exactly when it is the lower-case hex of SHA-256 of the payload followed by the secret: twice the digest's length, lower-case hex digits only, decoding to the digest |
| Flutterwave.UpperCaseDigestRejected | lib/flutterwave.ts:106 | the comparison is exact: the upper-case hex of the right digest is refused when the digest's hex holds a letter |
| Flutterwave.AcceptedHashIsUnique | lib/flutterwave.ts:106 | at most one header value is accepted for a given payload and secret |
| Database.ParseType | app/api/products/route.ts:12 | the product type enum is read back from its name, and only the five names parse |
| Database.ParseStatus | app/api/products/route.ts:39-44 | the moderation status is read back from its name, and only the three names parse |
| Database.FindByRef | app/api/webhooks/flutterwave/route.ts:34-48 | `findFirst` by Flutterwave reference: the first row with that reference, or none when no row has it |
| PaymentsInitialize.NetworkOf | app/api/payments/initialize/route.ts:146 | the mobile-money network is MTN exactly for the MTN method |
| PaymentsInitialize.IsOwner | app/api/payments/initialize/route.ts:73 | `sellerProfile?.isOwner \|\| false`: a seller without a profile is not an owner |
| PaymentsInitialize.IsPro | app/api/payments/initialize/route.ts:74 | a seller is pro only with an active PRO subscription, never without one |
| PaymentsInitialize.FullName | app/api/payments/initialize/route.ts:155 | `user.name \|\| user.email \|\| 'Customer'`: never empty, the name when set, the email when there is no name |
| Database.HasCompletedPurchase | app/api/payments/initialize/route.ts:57-70 | without a COMPLETED transaction nothing counts as a purchase |
| PaymentsInitialize.NewTransaction | app/api/payments/initialize/route.ts:72-95 | the stored transaction is PENDING, for the buyer, the product and its seller, at the product's price, under the generated reference and the requested method; the commission uses the owner rate for an owner seller, the pro rate for another seller with an active PRO plan, the default rate otherwise |
| PaymentsInitialize.Initialize | app/api/payments/initialize/route.ts:15-175 | 401 without a session, 500 for a body that is not JSON, 400 with the issue list for a body the schema refuses, 404 for an unknown product, 500 for a product whose seller row is missing, 400 for an unapproved or already completed purchase; an admitted request appends one PENDING row whatever follows; then 404 for an unknown buyer, 400 for mobile money without a phone, 500 when the gateway call throws; the card and mobile-money starts happen exactly when the gateway answers; a charge is in XAF for the price under the stored reference |
| PaymentsInitialize.InitializeKeepsLedger | app/api/payments/initialize/route.ts:82-95 | every stored transaction keeps commission plus seller amount equal to its amount |
| PaymentsInitialize.PendingAttemptDoesNotBlock | app/api/payments/initialize/route.ts:57-70 | only a COMPLETED purchase blocks: a second attempt after a pending one is admitted again |
| PaymentsInitialize.Post | app/api/payments/initialize/route.ts:15-175 | the route on the store performs `Initialize` |
| FlutterwaveWebhook.FindTx | app/api/webhooks/flutterwave/route.ts:34-40 | the lookup by `tx_ref`; a missing reference drops the filter and finds the first row |
| FlutterwaveWebhook.TransferFor | app/api/webhooks/flutterwave/route.ts:81-89 | the payout sends the seller amount in XAF to the seller's mobile-money number, on MTN or ORANGE |
| FlutterwaveWebhook.Settle | app/api/webhooks/flutterwave/route.ts:50-105 | a successful charge completes the transaction and, for a seller with mobile money, appends one payout that is PROCESSING exactly when the transfer call returned |
| FlutterwaveWebhook.Webhook | app/api/webhooks/flutterwave/route.ts:6-126 | 401 without or with a wrong signature and nothing changes; only the status and gateway id of the transaction the event's reference finds can change, to COMPLETED only for a confirmed `successful` event and to FAILED only for a `failed` event, with the event id; 500 exactly for a signed request whose processing throws (a body that is not JSON, no `data`, a missing seller or product row, no `id`, a confirmation call that throws), and then nothing changes; at most one payout is added, for a now COMPLETED transaction and its seller amount; a completion needs a payload reporting `successful`, the gateway's `successful`, and records the event id as the Flutterwave id |
| FlutterwaveWebhook.OtherEventsIgnored | app/api/webhooks/flutterwave/route.ts:29-118 | a signed event other than `charge.completed` is answered "Webhook processed" and changes nothing |
| FlutterwaveWebhook.UnknownReferenceAnswered | app/api/webhooks/flutterwave/route.ts:46-48 | a `charge.completed` event whose reference finds no transaction is answered 200 "Transaction not found" and changes nothing |
| FlutterwaveWebhook.UnconfirmedSuccessChangesNothing | app/api/webhooks/flutterwave/route.ts:50-54 | a `successful` event the verification does not confirm changes nothing and is answered "Webhook processed" |
| FlutterwaveWebhook.ConfirmedSuccessCompletes | app/api/webhooks/flutterwave/route.ts:50-105 | a confirmed `successful` event gives exactly what `Settle` gives: the referenced transaction COMPLETED with the event id, every other row kept, and the payout for a payable seller; answered "Webhook processed" |
| FlutterwaveWebhook.CanBePaid | app/api/webhooks/flutterwave/route.ts:65-67 | a payout needs a seller profile with a non-empty mobile-money number |
| FlutterwaveWebhook.WebhookKeepsLedger | app/api/webhooks/flutterwave/route.ts:50-105 | the webhook keeps every transaction's split and every payout matching its transaction |
| FlutterwaveWebhook.VerifiedAmountIgnored | app/api/webhooks/flutterwave/route.ts:50-62 | the verified amount and currency do not influence the outcome |
| FlutterwaveWebhook.RedeliveryPaysTwice | app/api/webhooks/flutterwave/route.ts:50-105 | a redelivered successful event records a second payout for the same transaction |
| FlutterwaveWebhook.FindByRefKeptByStatusChange | app/api/webhooks/flutterwave/route.ts:34-62 | a status change does not change which row a reference finds |
| FlutterwaveWebhook.FailedOverridesCompleted | app/api/webhooks/flutterwave/route.ts:107-115 | a `failed` event marks even a COMPLETED, paid-out transaction FAILED with the event id; every other row is kept and its payout stays recorded |
| FlutterwaveWebhook.FailedEventFails | app/api/webhooks/flutterwave/route.ts:107-115 | a `failed` event marks the referenced transaction FAILED with the event id whatever its status, changes nothing else and asks no payout |
| FlutterwaveWebhook.HandleFound | app/api/webhooks/flutterwave/route.ts:50-125 | for the transaction found, only that row can change: FAILED with the event id for a `failed` event, COMPLETED with it for a confirmed `successful` one; 500 with nothing changed exactly for a missing seller or product row, a missing `id` or a confirmation call that throws; at most one payout, for the now COMPLETED row |
| FlutterwaveWebhook.HandleFoundOnStore | app/api/webhooks/flutterwave/route.ts:50-118 | the writes for the transaction found perform `HandleFound` on the store |
| FlutterwaveWebhook.SettleOnStore | app/api/webhooks/flutterwave/route.ts:54-105 | the confirmed-payment writes on the store perform `Settle` |
| FlutterwaveWebhook.Post | app/api/webhooks/flutterwave/route.ts:6-126 | the route on the store performs `Webhook` |
| Sorting.InsertionSort | app/api/search/route.ts:65-80 | the sort returns as many rows as it is given |
| Sorting.SortPermutes | app/api/search/route.ts:65 | sorting permutes the rows |
| Sorting.SortIsSorted | app/api/search/route.ts:65-80 | with a comparator that ranks rows, the result is in rank order |
| Sorting.SortIsStable | app/api/search/route.ts:65-80 | rows the comparator ties keep their relative order |
| Sorting.SortInPlace | app/browse/product-grid.tsx:47-53 | `Array.prototype.sort` in place on the array: its contents become the stable sort of the old contents |
| Catalogue.Boost | app/api/search/route.ts:66-67 | `boostScore?.score \|\| 0`: the score, or 0 without a boost row |
| Catalogue.BoostOf | app/api/search/route.ts:42 | the product's boost row score, or none when it has no row |
| Catalogue.TransactionCount | app/api/search/route.ts:43-47 | `_count.transactions`: the number of the product's transactions of any status, 0 exactly when it has none |
| Catalogue.ListingOf | app/api/search/route.ts:31-48 | a listing carries the product row, its boost row's score or none exactly when it has no boost row, and the count of all its transactions |
| Catalogue.FindMany | app/api/search/route.ts:31-62 | `findMany` with `where` and `take`: the first `take` rows satisfying the filter in the order given, or all of them when fewer |
| Catalogue.RowsAreListings | app/api/search/route.ts:31-62 | the rows read in the given order are exactly the listings of the store's products |
| Catalogue.FindManyFromStore | app/api/search/route.ts:31-62 | every row returned is a store product's listing that passes the filter; short of `take`, every passing product is returned |
| Catalogue.RearrangedFromStore | app/api/search/route.ts:31-80 | any rearrangement of the fetched rows still holds only store listings that pass the filter |
| Search.BuildWhere | app/api/search/route.ts:7-28 | each filter is present exactly when its parameter is truthy, with that value |
| Search.SearchCompareRanks | app/api/search/route.ts:65-80 | the comparator orders owner boosts first, then boost, then number of sales |
| Search.SearchCompare | app/api/search/route.ts:65-80 | negative exactly when the first row has the higher boost, or the same boost and more sales; zero exactly when both agree; an owner row before a non-owner row is negative |
| Search.SearchSpec | app/api/search/route.ts:4-90 | the search fails exactly when a given product type is not one of the five names |
| Search.SearchResults | app/api/search/route.ts:7-80 | at most 100 rows, a permutation of the fetched rows, each the listing of a store product that is APPROVED and matches the text |
| Search.SearchFindsEveryMatch | app/api/search/route.ts:7-62 | short of 100 rows, every approved matching product of the store is in the result |
| Search.SearchRanking | app/api/search/route.ts:65-80 | owner products first, boosts non-increasing, sales non-increasing within a boost, ties in fetched order |
| Search.Get | app/api/search/route.ts:4-90 | the route, sorting the fetched rows in place, answers what `SearchSpec` describes (see `SearchResults` and `SearchRanking`) |
| ProductGrid.GridCompareRanks | app/browse/product-grid.tsx:47-53 | the comparator orders owner boosts first, then boost |
| ProductGrid.GridCompare | app/browse/product-grid.tsx:47-53 | negative exactly when the first row has the higher boost, zero exactly when the boosts agree; an owner row before a non-owner row is negative |
| ProductGrid.Products | app/browse/product-grid.tsx:5-54 | as many rows as were fetched, at most 50 |
| ProductGrid.ProductsRanking | app/browse/product-grid.tsx:5-53 | at most 50 rows, each the listing of an APPROVED store product matching the search, a permutation of the fetched rows, owner products first, boosts non-increasing, ties in fetched order |
| ProductGrid.GridShowsEveryMatch | app/browse/product-grid.tsx:5-44 | short of 50 rows, every approved product matching the search is shown |
| ProductGrid.TiedMeansEqualBoost | app/browse/product-grid.tsx:47-53 | the rows the comparator ties with a row all have that row's boost |
| ProductGrid.Featured | app/browse/product-grid.tsx:100 | the featured badge shows exactly on the owner tier, a boost of at least 1000 |
| ProductGrid.GetProducts | app/browse/product-grid.tsx:5-54 | the grid's query, sorting the fetched rows in place, returns what `Products` describes (see `ProductsRanking`) |
| Products.NewProduct | app/api/products/route.ts:125-166 | the new row carries the request's fields, its slug, the seller, status APPROVED for an admin and PENDING otherwise, and only the metadata of its own type |
| Products.NewBoost | app/api/products/route.ts:169-179 | an owner's product gets the owner boost and the owner's id, any other gets 0 |
| Products.Create | app/api/products/route.ts:100-192 | 401 for a non-seller, 500 for a body that is not JSON, 400 with the issue list for a body the schema refuses, 400 for a taken slug, 500 for a seller id without a user row, each changing nothing; a creation appends one product and one boost row, anything else changes nothing |
| Products.CreateKeepsSlugsUnique | app/api/products/route.ts:114-124 | creations keep slugs unique |
| Products.SameSlugRefused | app/api/products/route.ts:114-124 | a second product whose title gives the same slug is refused |
| Products.Post | app/api/products/route.ts:100-192 | the route on the store performs `Create` |
| Products.BuildWhere | app/api/products/route.ts:36-54 | the status defaults to APPROVED; each other filter is present exactly when its parameter is truthy |
| Products.List | app/api/products/route.ts:34-98 | the listing fails exactly when the status (APPROVED by default) or a given type is not a known name |
| Products.ListShowsRequested | app/api/products/route.ts:34-98 | at most 50 rows, each the listing of a store product with the requested status (APPROVED by default), type, category and seller; short of 50, every such product is listed |
| S3.Sanitize | lib/s3.ts:34 | the replacement works on UTF-16 code units: the result is as long as the name in code units, holds only key characters and `_` |
| S3.SanitizeInPlace | lib/s3.ts:34 | for a name without astral characters every character outside `[a-zA-Z0-9.-]` becomes `_` in place, the others are kept |
| S3.AstralCharacterGivesTwoUnderscores | lib/s3.ts:34 | an emoji, two code units, becomes `__` |
| S3.KeyTextUnchanged | lib/s3.ts:34 | a name of key characters is kept as it is |
| S3.SanitizedCharacters | lib/s3.ts:34 | a sanitized name holds only key characters and `_`, and no `/` |
| S3.SanitizeIdempotent | lib/s3.ts:34 | sanitizing twice is sanitizing once |
| S3.GenerateS3Key | lib/s3.ts:32-36 | the key lies under `uploads/` |
| S3.KeySegments | lib/s3.ts:35 | the key's path segments are `uploads`, the user, the product and `timestamp-name` |
| S3.GetFileUrl | lib/s3.ts:28-30 | the URL is an `https://` URL |
| S3.FileUrlEndsWithKey | lib/s3.ts:28-30 | the URL ends with the key |
| S3.UnsetRegionInUrl | lib/s3.ts:28-30 | an unset region is printed as `undefined` in the host |
| Upload.Before | app/api/upload/route.ts:22 | the text before the first `/`: a prefix without `/`, followed by `/` when shorter |
| Upload.FamilyIsFirstPiece | app/api/upload/route.ts:22 | that prefix is `type.split('/')[0]` |
| Upload.FamilyAt | app/api/upload/route.ts:7-15 | the families of the allowed list are application, image and video |
| Upload.MimeAllowedByFamily | app/api/upload/route.ts:7-24 | a content type passes exactly when it starts with `application`, `image` or `video` |
| Upload.FamilyExamples | app/api/upload/route.ts:22 | `image/gif` passes although it is not listed; `text/plain` does not |
| Upload.MimeAllowed | app/api/upload/route.ts:22 | every listed content type is accepted |
| Upload.Valid | app/api/upload/route.ts:17-26 | a body whose product id is present but not a string fails the schema |
| Upload.UploadSpec | app/api/upload/route.ts:28-67 | 401 without a session, 500 for a body that is not JSON with nothing signed, 400 for an invalid body, including a product id that is not a string; 500 when the signer throws, after the sign request was sent; a valid request signs the generated key for an hour with its content type and answers the signed URL, the key and the public URL |
| Upload.DefaultProductFolder | app/api/upload/route.ts:43-44 | without a product id the key's product segment is `temp` |
| Middleware.EveryPathAuthorizedAsWritten | middleware.ts:18-31 | as written, every path starting with `/` counts as public, so every request is authorized |
| Middleware.DashboardOpenAsWritten | middleware.ts:18-38 | as written, `/dashboard` without a token goes through; with `/` matched exactly it is sent to sign-in |
| Middleware.ProtectedNeedsToken | middleware.ts:25-30 | a path that is not public is authorized exactly when there is a token |
| Middleware.PublicPathNarrows | middleware.ts:20-23 | every path public with `/` matched exactly is public as written |
| Middleware.DashboardIsProtected | middleware.ts:20-23 | `/dashboard` is not public once `/` is matched exactly |
| Middleware.AdministratorIsPublic | middleware.ts:20-23 | the prefix test makes `/administrator` public through `/admin` |
| Middleware.SellerGuard | middleware.ts:9-14 | a path under `/seller` without a SELLER or ADMIN role is redirected to `/dashboard`, anything else goes through |
| Middleware.SellersIsGuarded | middleware.ts:10 | the prefix test also guards `/sellers` |
| Middleware.Guard | middleware.ts:4-38 | a path outside the matcher goes through; sign-in is asked only without a token |
| Middleware.GuardDecides | middleware.ts:4-38 | on a matched path, no token means sign-in and a token means the seller rule decides |
| Middleware.MatchedIsProtected | middleware.ts:20-37 | every matched path is protected once `/` is matched exactly |
| Middleware.IsPublicPathAsWritten | middleware.ts:20-23 | as written, every path starting with `/` is public |
| Middleware.AuthorizedAsWritten | middleware.ts:18-31 | as written, a request with a token or a path starting with `/` is authorized |
| Middleware.GuardAsWritten | middleware.ts:4-38 | as written, a path outside the matcher goes through and sign-in is never asked |
| AdminApprove.Target | app/api/admin/products/approve/route.ts:8 | only APPROVED and REJECTED are accepted, read as the status they name |
| AdminApprove.SetStatus | app/api/admin/products/approve/route.ts:12-15 | the named row gets the new status and every other row is kept |
| AdminApprove.Approve | app/api/admin/products/approve/route.ts:4-21 | 400 for a missing id or an unknown status, 500 for a body that is not JSON or an unknown product; otherwise the status is set and the row returned; a failure changes nothing |
| AdminApprove.ApproveIdempotent | app/api/admin/products/approve/route.ts:12-17 | sending the same request twice answers the same and changes nothing more |
| AdminApprove.ApproveOnlyChangesStatus | app/api/admin/products/approve/route.ts:12-15 | only the status field of the named product can change |
| AdminApprove.AnyStatusCanBeReplaced | app/api/admin/products/approve/route.ts:8-17 | any product can be moved to either outcome, whatever its current status |
| AdminApprove.Post | app/api/admin/products/approve/route.ts:4-21 | the route on the store performs `Approve` |
| ProductActions.OfferedTargets | app/admin/products/product-actions.tsx:36-73 | PENDING offers approve and reject, APPROVED offers reject, REJECTED offers approve, anything else nothing |
| ProductActions.OfferedTargetsMove | app/admin/products/product-actions.tsx:36-73 | a button never offers the current status nor PENDING |
| ProductActions.Row.constructor | app/admin/products/product-actions.tsx:14 | a row starts with its buttons enabled |
| ProductActions.Row.UpdateStatus | app/admin/products/product-actions.tsx:16-23 | the PATCH goes to the product's URL with the new status and the buttons are disabled while it is in flight |
| ProductActions.Row.Answered | app/admin/products/product-actions.tsx:24-33 | when the answer arrives the buttons are enabled again and the page refreshes exactly on an ok answer |
| PanelAdmin.FilteredProducts | app/panel-admin/page.tsx:140-144 | a product is listed exactly when its status matches the selector and its title mentions the search text, ignoring case; nothing when the fetch gave no array |
| PanelAdmin.FilteredUsers | app/panel-admin/page.tsx:146-152 | a user is listed exactly when the role matches and the email, or the name when set, mentions the search text |
| PanelAdmin.ProductShown | app/panel-admin/page.tsx:140-144 | a product is shown only when its status matches the selector, and always under `ALL` with no search text |
| PanelAdmin.UserShown | app/panel-admin/page.tsx:146-152 | a user is shown only when the role matches the selector; a matching role and an email mentioning the search text suffice |
| PanelAdmin.AllWithoutSearchKeepsEverything | app/panel-admin/page.tsx:140-152 | with `ALL` and no search text the lists are the fetched arrays |
| PanelAdmin.FilteredProductsKeepOrder | app/panel-admin/page.tsx:140-144 | the list keeps the fetched order |
| PanelAdmin.SearchIgnoresCase | app/panel-admin/page.tsx:142 | lower-casing the title or the search text changes nothing |
| PanelAdmin.NavShowsSelectorOnly | app/panel-admin/page.tsx:236-239 | after a navigation click the list is filtered by the selector alone |
| PanelAdmin.Panel.constructor | app/panel-admin/page.tsx:30-44 | the panel starts on the dashboard with `ALL` selectors and no search text |
| PanelAdmin.Panel.Products | app/panel-admin/page.tsx:140-144 | the products view lists no more than were fetched |
| PanelAdmin.Panel.SelectNav | app/panel-admin/page.tsx:236-239 | a navigation click switches view and clears the search text, keeping the selectors |
| PanelAdmin.Panel.OpenCard | app/panel-admin/page.tsx:276-317 | a dashboard card switches view and keeps the search text |
| PanelAdmin.Panel.SetSearch | app/panel-admin/page.tsx:465 | typing sets the search text only |
| SiteHeader.NextVisible | components/site-header.tsx:39-50 | shown near the top and when scrolling up, hidden when scrolling down past 100 pixels, unchanged otherwise |
| SiteHeader.HidesOnlyScrollingDownFar | components/site-header.tsx:44-50 | a shown header is hidden only by a downward scroll past 100 pixels |
| SiteHeader.StaysHiddenUntilUpOrTop | components/site-header.tsx:44-50 | a hidden header stays hidden exactly while the page is not near the top and not scrolling up |
| SiteHeader.Header.constructor | components/site-header.tsx:30-36 | the menu starts closed and the header shown at position 0 |
| SiteHeader.Header.HandleScroll | components/site-header.tsx:39-53 | the visibility follows `NextVisible` and the position is remembered; a hidden header was last seen at least 10 pixels down |
| SiteHeader.Header.ToggleMenu | components/site-header.tsx:32 | the menu flips, the scroll state is kept |
| SiteHeader.Header.CloseMenu | components/site-header.tsx:125 | a menu link closes the menu |
| SiteHeader.ToggleTwice | components/site-header.tsx:32 | toggling twice restores the header |
| LanguageSwitcher.FindRow | components/language-switcher.tsx:15 | `find`: the first row with the prefix, or none exactly when no row has it |
| LanguageSwitcher.CookieLang | components/language-switcher.tsx:13-16 | nothing exactly when no `; `-separated row starts with `lang=`; a value only when such a row exists |
| LanguageSwitcher.SecondPieceExists | components/language-switcher.tsx:16 | a row starting with `lang=` splits on `=` into at least two pieces |
| LanguageSwitcher.MaxAgeText | components/language-switcher.tsx:27 | one year in seconds is written `31536000` |
| LanguageSwitcher.PairRoundTrip | components/language-switcher.tsx:13-16 | the value of the first `name=` pair of a joined cookie string is read back |
| LanguageSwitcher.CookieRoundTrip | components/language-switcher.tsx:13-27 | the language a switch writes is what the mount effect reads back |
| LanguageSwitcher.OtherPairIgnored | components/language-switcher.tsx:15-16 | a single pair that is not `lang` yields nothing |
| LanguageSwitcher.CookieAssignment | components/language-switcher.tsx:27 | the cookie written is `lang=<value>; path=/; max-age=31536000` |
| LanguageSwitcher.Switcher.constructor | components/language-switcher.tsx:10 | the switch starts in English |
| LanguageSwitcher.Switcher.Mount | components/language-switcher.tsx:12-22 | the cookie's language is adopted when it is `en` or `fr`, otherwise the state is kept |
| LanguageSwitcher.Switcher.UpdateLang | components/language-switcher.tsx:24-29 | the state, the document language and the cookie take the new language, and the page refreshes |

## Left out

- Database ordering: the order the `orderBy` clauses produce is a parameter of the queries, any ordering of the product ids (`Catalogue.IsOrdering`); the database's own sort by boost and creation date is not modelled.
- Schema checks: zod's `url()` and `datetime()` checks and the text of its issues are not modelled. A schema failure is one `SchemaError` answer with an abstract issue list.
- Foreign keys: the database schema is not part of this model, so a relation is checked only where a route depends on it. `Products.Create` answers 500 for a seller id with no user row. The payment and webhook queries that `include` the seller or the product answer 500 when that row is missing. `PaymentsInitialize.Initialize` writes the PENDING transaction for any buyer id and only then reads the buyer, so an unknown buyer reaches the route's own 404 "User not found" branch with the row stored. The category reference is never checked.
- Ids: cuid ids are row indices. A query parameter naming an id is compared with the index's decimal rendering.
- Gateway and SDK internals: the Flutterwave and AWS SDK calls and the wrappers of `lib/flutterwave.ts` (lines 50-98) are oracle parameters. A wrapper logs and re-throws, which the model writes as `Threw`. `getUploadSignedUrl` is a parameter too.
- Time and randomness: SHA-256, `Date.now()` and `generateTxRef` are parameters.
- Rendering helpers: `formatCurrency` and `cn` only affect rendering and are not modelled.
- Concurrency: two requests racing on the store are not modelled. Every route is one atomic step.
- Rendering and markup are not modelled, and neither are the admin panel's login form and data fetching.
- Case mapping: `toLowerCase` and the database's case-insensitive `contains` are modelled for ASCII letters only.
- The client: `router.refresh()` and the browser's cookie jar are not modelled. The switch records the string assigned to `document.cookie`.
- The approve route checks no session, and the model gives it none.
- Middleware.Guard: the matcher `'/dashboard/:path*', '/seller/:path*'` is modelled as "the path is `/dashboard` or `/seller`, or lies under one of them".
- Sorting.SortInPlace: the engine's sort algorithm is modelled as a stable insertion sort. It produces the same result as any stable sort for a consistent comparator.

## Findings

| source | as written | input that shows it | evidently intended | confidence | as-written member | corrected member |
|---|---|---|---|---|---|---|
| middleware.ts:20-23 | `'/'` is among the public prefixes matched with `startsWith`, so every path is public and the `!!token` check on line 30 is never reached | `/dashboard` with no token is let through | `'/'` matches the home page only, so protected paths need a token | not executed | Middleware.DashboardOpenAsWritten | Middleware.GuardDecides |

=== FILE: admin_approve.dfy ===
/**
 * app/api/admin/products/approve/route.ts: set a product's moderation
 * status to APPROVED or REJECTED. The route checks the request only; it
 * does not look at the caller's session nor at the product's current
 * status.
 */
module AdminApprove {
  import opened Common
  import opened Database

  /**
   * The JSON body: `productId` is `None` when it is missing or falsy,
   * `status` is `None` when it is missing or not a string.
   */
  datatype ApproveBody = NotJson | Json(productId: Option<nat>, status: Option<string>)

  datatype ApproveResponse =
    | ApproveFailed(status: nat, error: string)
    | Updated(product: Product)   // the updated row, sent back as JSON

  datatype ApproveResult = ApproveResult(tables: Tables, response: ApproveResponse)

  /** `['APPROVED', 'REJECTED'].includes(status)`, read as the status it names. */
  function Target(status: Option<string>): (s: Option<ProductStatus>)
    ensures s.Some? <==> status == Some("APPROVED") || status == Some("REJECTED")
    ensures s.Some? ==> s.value != Pending && Some(StatusName(s.value)) == status
  {
    if status == Some("APPROVED") then Some(Approved)
    else if status == Some("REJECTED") then Some(Rejected)
    else None
  }

  /** The products table with the status of row `id` replaced. */
  function SetStatus(products: seq<Product>, id: nat, s: ProductStatus): (r: seq<Product>)
    requires id < |products|
    ensures |r| == |products|
    ensures r[id] == products[id].(status := s)
    ensures forall k :: 0 <= k < |r| && k != id ==> r[k] == products[k]
  {
    products[id := products[id].(status := s)]
  }

  /** `POST /api/admin/products/approve`. */
  function Approve(t: Tables, body: ApproveBody): (r: ApproveResult)
    ensures body.NotJson? ==> r == ApproveResult(t, ApproveFailed(500, "Failed to approve product"))
    ensures (body.Json? && (body.productId.None? || Target(body.status).None?))
            ==> r == ApproveResult(t, ApproveFailed(400, "Invalid request"))
    ensures (body.Json? && body.productId.Some? && Target(body.status).Some? && body.productId.value >= |t.products|)
            ==> r.tables == t && r.response.ApproveFailed? && r.response.status == 500
    ensures r.response.Updated? <==>
              body.Json? && body.productId.Some? && Target(body.status).Some? && body.productId.value < |t.products|
    ensures r.response.Updated? ==>
              var id := body.productId.value;
              && r.tables == t.(products := SetStatus(t.products, id, Target(body.status).value))
              && r.response.product == r.tables.products[id]
              && StatusName(r.response.product.status) == body.status.value
    ensures r.response.ApproveFailed? ==> r.tables == t
  {
    match body
    case NotJson => ApproveResult(t, ApproveFailed(500, "Failed to approve product"))
    case Json(productId, status) =>
      if productId.None? || Target(status).None? then ApproveResult(t, ApproveFailed(400, "Invalid request"))
      else if productId.value >= |t.products| then ApproveResult(t, ApproveFailed(500, "Failed to approve product"))
      else
        var products := SetStatus(t.products, productId.value, Target(status).value);
        ApproveResult(t.(products := products), Updated(products[productId.value]))
  }

  /** Sending the same request again changes nothing more and answers the same. */
  lemma ApproveIdempotent(t: Tables, body: ApproveBody)
    ensures var once := Approve(t, body);
      Approve(once.tables, body) == once
  {
    var once := Approve(t, body);
    if once.response.Updated? {
      var id := body.productId.value;
      assert SetStatus(once.tables.products, id, Target(body.status).value) == once.tables.products;
    }
  }

  /**
   * Only the moderation status of the named product changes: every other
   * row, and every other field of that one, is kept, and the other tables
   * are untouched.
   */
  lemma ApproveOnlyChangesStatus(t: Tables, body: ApproveBody)
    ensures var r := Approve(t, body).tables;
      && r.users == t.users && r.boosts == t.boosts && r.txs == t.txs && r.payouts == t.payouts
      && |r.products| == |t.products|
      && forall k :: 0 <= k < |t.products| ==> r.products[k] == t.products[k].(status := r.products[k].status)
  {
  }

  /**
   * Any status can be replaced, whatever it was: a rejected product can be
   * approved and an approved one rejected.
   */
  lemma AnyStatusCanBeReplaced(t: Tables, id: nat, target: string)
    requires id < |t.products| && (target == "APPROVED" || target == "REJECTED")
    ensures var r := Approve(t, Json(Some(id), Some(target)));
      r.response.Updated? && StatusName(r.tables.products[id].status) == target
  {
  }

  /** The route on the store: the one write is an in-place update of the status field. */
  method Post(db: Db, body: ApproveBody) returns (response: ApproveResponse)
    modifies db
    ensures var r := Approve(old(db.Snapshot()), body);
      db.Snapshot() == r.tables && response == r.response
  {
    if body.NotJson? {
      return ApproveFailed(500, "Failed to approve product");
    }
    var target := Target(body.status);
    if body.productId.None? || target.None? {
      return ApproveFailed(400, "Invalid request");
    }
    var id := body.productId.value;
    if id >= |db.products| {
      return ApproveFailed(500, "Failed to approve product");
    }
    db.products := db.products[id := db.products[id].(status := target.value)];
    response := Updated(db.products[id]);
  }
}

=== FILE: catalogue.dfy ===
/**
 * What the catalogue queries read: a product row together with its boost
 * score and its number of transactions, and the `findMany` that filters
 * rows and keeps the first `take` of them. The rows reach `findMany` in
 * the order the query's `orderBy` puts them in; that order is computed by
 * the database and is a parameter here, any ordering of the product ids.
 */
module Catalogue {
  import opened Common
  import opened Strings
  import opened Database

  /** A product with `boostScore` and `_count.transactions` included. */
  datatype Listing = Listing(id: nat, product: Product, boostScore: Option<int>, txCount: nat)

  /** `boostScore?.score || 0`: a product without a boost row counts as 0. */
  function Boost(l: Listing): (b: int)
    ensures l.boostScore.None? ==> b == 0
    ensures l.boostScore.Some? ==> b == l.boostScore.value
  {
    match l.boostScore
    case None => 0
    case Some(score) => score
  }

  /** The boost row of product `id`: the relation is one-to-one, so the first match. */
  function BoostOf(boosts: seq<BoostScore>, id: nat): (r: Option<int>)
    ensures r.None? <==> forall k :: 0 <= k < |boosts| ==> boosts[k].productId != id
    ensures r.Some? ==> exists k :: 0 <= k < |boosts| && boosts[k].productId == id && boosts[k].score == r.value
  {
    if boosts == [] then None
    else if boosts[0].productId == id then Some(boosts[0].score)
    else
      var r := BoostOf(boosts[1..], id);
      assert r.Some? ==> exists k :: 0 <= k < |boosts[1..]| && boosts[1..][k].productId == id && boosts[1..][k].score == r.value;
      r
  }

  /** The transactions of product `id`, in table order. */
  function TxsOf(txs: seq<Transaction>, id: nat): seq<Transaction>
  {
    Filter(txs, (x: Transaction) => x.productId == id)
  }

  /** `_count.transactions`: every transaction of the product, whatever its status. */
  function TransactionCount(txs: seq<Transaction>, id: nat): (n: nat)
    ensures n == |TxsOf(txs, id)|
    ensures n <= |txs|
    ensures n == 0 <==> forall k :: 0 <= k < |txs| ==> txs[k].productId != id
  {
    if txs == [] then 0
    else
      var n := (if txs[0].productId == id then 1 else 0) + TransactionCount(txs[1..], id);
      assert TxsOf(txs, id) == (if txs[0].productId == id then [txs[0]] else []) + TxsOf(txs[1..], id);
      n
  }

  /** The row the query returns for product `id`, with its boost and its sales count attached. */
  function ListingOf(t: Tables, id: nat): (l: Listing)
    requires id < |t.products|
    ensures l.id == id && l.product == t.products[id]
    ensures l.boostScore.None? <==> forall k :: 0 <= k < |t.boosts| ==> t.boosts[k].productId != id
    ensures l.boostScore.Some? ==>
      exists k :: 0 <= k < |t.boosts| && t.boosts[k].productId == id && t.boosts[k].score == l.boostScore.value
    ensures l.txCount == |TxsOf(t.txs, id)|
  {
    Listing(id, t.products[id], BoostOf(t.boosts, id), TransactionCount(t.txs, id))
  }

  /**
   * An order the query's `orderBy` may produce: every product id once.
   * The database chooses it; the model takes it as given.
   */
  predicate IsOrdering(t: Tables, order: seq<nat>)
  {
    && |order| == |t.products|
    && (forall k :: 0 <= k < |order| ==> order[k] < |t.products|)
    && (forall id :: 0 <= id < |t.products| ==> id in order)
  }

  /** The rows of the product table with their includes, in the given order. */
  function Rows(t: Tables, order: seq<nat>): seq<Listing>
    requires IsOrdering(t, order)
  {
    seq(|order|, k requires 0 <= k < |order| => ListingOf(t, order[k]))
  }

  /** The rows are exactly the listings of the store's products, each once per id. */
  lemma RowsAreListings(t: Tables, order: seq<nat>)
    requires IsOrdering(t, order)
    ensures forall k :: 0 <= k < |Rows(t, order)| ==>
      Rows(t, order)[k].id < |t.products| && Rows(t, order)[k] == ListingOf(t, Rows(t, order)[k].id)
    ensures forall id :: 0 <= id < |t.products| ==> ListingOf(t, id) in Rows(t, order)
  {
    var rows := Rows(t, order);
    forall id | 0 <= id < |t.products|
      ensures ListingOf(t, id) in rows
    {
      assert id in order;
      var k :| 0 <= k < |order| && order[k] == id;
      assert rows[k] == ListingOf(t, id);
    }
  }

  /** `contains` with `mode: 'insensitive'` on the title or the description. */
  predicate MatchesText(p: Product, q: string)
  {
    ContainsIgnoringCase(p.title, q) || ContainsIgnoringCase(p.description, q)
  }

  /**
   * `findMany({ where, take })`: the first `take` rows, in row order, of
   * those that satisfy the filter.
   */
  function FindMany(rows: seq<Listing>, keep: Listing -> bool, take: nat): (r: seq<Listing>)
    ensures r <= Filter(rows, keep)
    ensures |r| == if |Filter(rows, keep)| <= take then |Filter(rows, keep)| else take
    ensures forall k :: 0 <= k < |r| ==> keep(r[k]) && r[k] in rows
    ensures |r| == take || forall k :: 0 <= k < |rows| && keep(rows[k]) ==> rows[k] in r
  {
    var all := Filter(rows, keep);
    if |all| <= take then all else all[..take]
  }

  /**
   * A query over the store: every row returned is the listing of a
   * product of the table and passes the filter, and either `take` rows
   * came back or every passing product of the table did.
   */
  lemma FindManyFromStore(t: Tables, order: seq<nat>, keep: Listing -> bool, take: nat)
    requires IsOrdering(t, order)
    ensures var r := FindMany(Rows(t, order), keep, take);
      && (forall k :: 0 <= k < |r| ==> r[k].id < |t.products| && r[k] == ListingOf(t, r[k].id) && keep(r[k]))
      && (|r| == take || forall id :: 0 <= id < |t.products| && keep(ListingOf(t, id)) ==> ListingOf(t, id) in r)
  {
    RowsAreListings(t, order);
  }

  /**
   * Any rearrangement of what a query fetched still consists of listings
   * of the store's products that pass the filter.
   */
  lemma {:induction false} RearrangedFromStore(t: Tables, order: seq<nat>, keep: Listing -> bool, take: nat,
                                               r: seq<Listing>)
    requires IsOrdering(t, order)
    requires multiset(r) == multiset(FindMany(Rows(t, order), keep, take))
    ensures forall k :: 0 <= k < |r| ==> r[k].id < |t.products| && r[k] == ListingOf(t, r[k].id) && keep(r[k])
  {
    var f := FindMany(Rows(t, order), keep, take);
    FindManyFromStore(t, order, keep, take);
    forall k | 0 <= k < |r|
      ensures r[k].id < |t.products| && r[k] == ListingOf(t, r[k].id) && keep(r[k])
    {
      assert r[k] in multiset(f);
      assert r[k] in f;
    }
  }
}

=== FILE: common.dfy ===
/** Small value types shared by every module of the marketplace model. */
module Common {

  /** A value that may be absent: a nullable column, an optional request field. */
  datatype Option<T> = None | Some(value: T)

  /** The outcome of a call that can throw (a gateway call, a parse). */
  datatype Outcome<T> = Ok(value: T) | Threw

  /** JavaScript truthiness of an optional string: present and non-empty. */
  predicate Truthy(s: Option<string>)
  {
    s.Some? && s.value != ""
  }

  /** `a || b` on optional strings: the first if it is truthy, the second otherwise. */
  function OrElse(a: Option<string>, b: string): (r: string)
    ensures Truthy(a) ==> r == a.value
    ensures !Truthy(a) ==> r == b
  {
    if Truthy(a) then a.value else b
  }

  /** Interpolation of a possibly undefined environment value in a template string. */
  function EnvText(v: Option<string>): (r: string)
    ensures v.Some? ==> r == v.value
    ensures v.None? ==> r == "undefined"
  {
    match v
    case Some(s) => s
    case None => "undefined"
  }

  /** The authenticated session of next-auth: the user's id and role. */
  datatype Session = Session(userId: nat, role: string)

  /** An HTTP response: the status code and the JSON message or error text. */
  datatype Response = Response(status: nat, message: string)

  /** `Array.prototype.filter` (and a `where` clause): the elements that satisfy `keep`, in their order. */
  function Filter<T>(s: seq<T>, keep: T -> bool): (r: seq<T>)
    ensures |r| <= |s|
    ensures forall k :: 0 <= k < |r| ==> keep(r[k]) && r[k] in s
    ensures forall k :: 0 <= k < |s| && keep(s[k]) ==> s[k] in r
  {
    if s == [] then [] else (if keep(s[0]) then [s[0]] else []) + Filter(s[1..], keep)
  }

  /** Filtering keeps order: the filter of a concatenation is the concatenation of the filters. */
  lemma {:induction false} FilterConcat<T>(a: seq<T>, b: seq<T>, keep: T -> bool)
    ensures Filter(a + b, keep) == Filter(a, keep) + Filter(b, keep)
  {
    if a != [] {
      var head := if keep(a[0]) then [a[0]] else [];
      assert (a + b)[0] == a[0] && (a + b)[1..] == a[1..] + b;
      assert Filter(a + b, keep) == head + Filter(a[1..] + b, keep);
      FilterConcat(a[1..], b, keep);
      assert Filter(a, keep) == head + Filter(a[1..], keep);
    } else {
      assert a + b == b;
    }
  }

  /** When every element passes, the filter is the whole sequence. */
  lemma {:induction false} FilterKeepsAll<T>(s: seq<T>, keep: T -> bool)
    requires forall k :: 0 <= k < |s| ==> keep(s[k])
    ensures Filter(s, keep) == s
  {
    if s != [] {
      FilterKeepsAll(s[1..], keep);
    }
  }

  /** Two predicates that agree on every element filter alike. */
  lemma {:induction false} FilterSame<T>(s: seq<T>, f: T -> bool, g: T -> bool)
    requires forall k :: 0 <= k < |s| ==> f(s[k]) == g(s[k])
    ensures Filter(s, f) == Filter(s, g)
  {
    if s != [] {
      FilterSame(s[1..], f, g);
    }
  }
}

=== FILE: database.dfy ===
/**
 * The rows the payment, catalogue and moderation routes read and write,
 * and the store that holds them. Every table is a sequence and a row's id
 * is its index, so `findFirst` is the first matching index and a new row's
 * id is the table's length before the insert.
 */
module Database {
  import opened Common

  datatype ProductStatus = Pending | Approved | Rejected
  datatype ProductType = Course | DigitalProduct | Event | Service | Masterclass

  /** The name of a status as the database and the requests spell it. */
  function StatusName(s: ProductStatus): string
  {
    match s
    case Pending => "PENDING"
    case Approved => "APPROVED"
    case Rejected => "REJECTED"
  }

  function TypeName(t: ProductType): string
  {
    match t
    case Course => "COURSE"
    case DigitalProduct => "DIGITAL_PRODUCT"
    case Event => "EVENT"
    case Service => "SERVICE"
    case Masterclass => "MASTERCLASS"
  }

  /** The zod enum check on a product type name. */
  function ParseType(name: string): (t: Option<ProductType>)
    ensures t.Some? ==> TypeName(t.value) == name
    ensures forall u :: TypeName(u) == name ==> t == Some(u)
  {
    if name == "COURSE" then Some(Course)
    else if name == "DIGITAL_PRODUCT" then Some(DigitalProduct)
    else if name == "EVENT" then Some(Event)
    else if name == "SERVICE" then Some(Service)
    else if name == "MASTERCLASS" then Some(Masterclass)
    else None
  }

  /** The enum check on a status name. */
  function ParseStatus(name: string): (s: Option<ProductStatus>)
    ensures s.Some? ==> StatusName(s.value) == name
    ensures forall u :: StatusName(u) == name ==> s == Some(u)
  {
    if name == "PENDING" then Some(Pending)
    else if name == "APPROVED" then Some(Approved)
    else if name == "REJECTED" then Some(Rejected)
    else None
  }

  /** A course, event or service metadata object, carried as it was sent. */
  type Metadata = string

  datatype Product = Product(
    title: string, slug: string, description: string, price: real,
    productType: ProductType, sellerId: nat, status: ProductStatus,
    categoryId: Option<string>, thumbnail: Option<string>,
    courseMetadata: Option<Metadata>, eventMetadata: Option<Metadata>,
    serviceMetadata: Option<Metadata>)

  datatype BoostScore = BoostScore(productId: nat, score: int, ownerId: Option<nat>)

  datatype SellerProfile = SellerProfile(isOwner: bool, mobileMoneyNumber: Option<string>,
                                         mobileMoneyProvider: Option<string>)

  datatype Subscription = Subscription(plan: string, isActive: bool)

  datatype User = User(email: string, name: Option<string>,
                       sellerProfile: Option<SellerProfile>, subscription: Option<Subscription>)

  datatype TxStatus = TxPending | TxCompleted | TxFailed

  datatype PaymentMethod = Card | MobileMoneyMtn | MobileMoneyOrange

  datatype Transaction = Transaction(
    buyerId: nat, sellerId: nat, productId: nat,
    amount: real, commission: real, sellerAmount: real,
    status: TxStatus, flutterwaveRef: string, flutterwaveTxId: Option<string>,
    paymentMethod: PaymentMethod)

  datatype PayoutStatus = PayoutPending | PayoutProcessing | PayoutCompleted | PayoutFailed

  datatype Payout = Payout(
    sellerId: nat, transactionId: nat, amount: real, status: PayoutStatus,
    mobileMoneyNumber: string, mobileMoneyProvider: string,
    flutterwavePayoutId: Option<string>, flutterwaveRef: Option<string>)

  /** A snapshot of every table. */
  datatype Tables = Tables(users: seq<User>, products: seq<Product>, boosts: seq<BoostScore>,
                           txs: seq<Transaction>, payouts: seq<Payout>)

  /**
   * The ledger's invariant: every transaction conserves money, and every
   * payout belongs to an existing transaction, pays that transaction's
   * seller and is worth that transaction's seller amount.
   */
  ghost predicate Ledger(t: Tables)
  {
    && (forall i :: 0 <= i < |t.txs| ==> t.txs[i].commission + t.txs[i].sellerAmount == t.txs[i].amount)
    && (forall j :: 0 <= j < |t.payouts| ==> PayoutMatches(t, t.payouts[j]))
  }

  ghost predicate PayoutMatches(t: Tables, p: Payout)
  {
    && p.transactionId < |t.txs|
    && p.amount == t.txs[p.transactionId].sellerAmount
    && p.sellerId == t.txs[p.transactionId].sellerId
  }

  /** Slugs are unique: the column is declared unique and creation checks it. */
  ghost predicate UniqueSlugs(products: seq<Product>)
  {
    forall i, j :: 0 <= i < j < |products| ==> products[i].slug != products[j].slug
  }

  /** `transaction.findFirst({ where: { flutterwaveRef } })`. */
  function FindByRef(txs: seq<Transaction>, ref: string): (r: Option<nat>)
    ensures r.Some? ==> r.value < |txs| && txs[r.value].flutterwaveRef == ref
    ensures r.Some? ==> forall j :: 0 <= j < r.value ==> txs[j].flutterwaveRef != ref
    ensures r.None? ==> forall j :: 0 <= j < |txs| ==> txs[j].flutterwaveRef != ref
  {
    if txs == [] then None
    else if txs[0].flutterwaveRef == ref then Some(0)
    else match FindByRef(txs[1..], ref)
      case None => None
      case Some(k) => Some(k + 1)
  }

  /**
   * `transaction.findFirst` on buyer, product and status COMPLETED found a
   * row; rows of any other status never count.
   */
  function HasCompletedPurchase(txs: seq<Transaction>, buyerId: nat, productId: nat): (b: bool)
    ensures (forall i :: 0 <= i < |txs| ==> txs[i].status != TxCompleted) ==> !b
  {
    exists i | 0 <= i < |txs| :: txs[i].buyerId == buyerId && txs[i].productId == productId
                                && txs[i].status == TxCompleted
  }

  /** `product.findUnique({ where: { slug } })` found a row. */
  predicate SlugTaken(products: seq<Product>, slug: string)
  {
    exists i | 0 <= i < |products| :: products[i].slug == slug
  }

  /** The store behind the Prisma client. */
  class Db {
    var users: seq<User>
    var products: seq<Product>
    var boosts: seq<BoostScore>
    var txs: seq<Transaction>
    var payouts: seq<Payout>

    function Snapshot(): Tables
      reads this
    {
      Tables(users, products, boosts, txs, payouts)
    }

    constructor (t: Tables)
      ensures Snapshot() == t
    {
      users, products, boosts, txs, payouts := t.users, t.products, t.boosts, t.txs, t.payouts;
    }
  }
}

=== FILE: flutterwave.dfy ===
/**
 * lib/flutterwave.ts: the shapes of the requests sent to the payment
 * gateway and the webhook signature check. The gateway calls themselves
 * are foreign: callers receive their outcome as an `Outcome` parameter,
 * which the wrappers pass on unchanged (a provider error is re-thrown).
 * SHA-256 is foreign too: `digest` stands for the UTF-8 encoding of a
 * string followed by its SHA-256 hash.
 */
module Flutterwave {
  import opened Strings

  /** The settlement currency written into every request. */
  const Currency := "XAF"

  datatype Network = MTN | ORANGE

  /** What the purchase flow asks the gateway to charge. */
  datatype ChargeRequest =
    | CardCharge(txRef: string, amount: real, currency: string, paymentOptions: string,
                 customerEmail: string, customerName: string, description: string,
                 transactionId: nat, productId: nat)
    | MobileMoneyCharge(txRef: string, amount: real, currency: string, network: Network,
                        email: string, phoneNumber: string, fullname: string)

  /** What the webhook asks the gateway to transfer to a seller. */
  datatype PayoutRequest = PayoutRequest(accountBank: string, accountNumber: string, amount: real,
                                         currency: string, narration: string, reference: string,
                                         beneficiaryName: string)

  /** The gateway's answer to a transfer: its id and reference. */
  datatype PayoutHandle = PayoutHandle(id: string, reference: string)

  /** The gateway's answer to `verifyTransaction`. */
  datatype Verification = Verification(status: string, amount: real, currency: string)

  newtype Byte = x: int | 0 <= x < 256

  predicate IsLowerHexDigit(c: char)
  {
    IsDigit(c) || ('a' <= c <= 'f')
  }

  function HexDigit(n: int): (c: char)
    requires 0 <= n < 16
    ensures IsLowerHexDigit(c)
  {
    if n < 10 then ('0' as int + n) as char else ('a' as int + n - 10) as char
  }

  function HexValue(c: char): (n: int)
    requires IsLowerHexDigit(c)
    ensures 0 <= n < 16
  {
    if IsDigit(c) then c as int - '0' as int else c as int - 'a' as int + 10
  }

  /** Node's `digest('hex')`: two lower-case hexadecimal digits per byte. */
  function HexLower(bytes: seq<Byte>): (r: string)
    ensures |r| == 2 * |bytes|
    ensures forall i :: 0 <= i < |r| ==> IsLowerHexDigit(r[i])
  {
    if bytes == [] then []
    else [HexDigit(bytes[0] as int / 16), HexDigit(bytes[0] as int % 16)] + HexLower(bytes[1..])
  }

  /** Reads a lower-case hexadecimal string back into bytes. */
  function HexDecode(s: string): seq<Byte>
    requires |s| % 2 == 0
    requires forall i :: 0 <= i < |s| ==> IsLowerHexDigit(s[i])
  {
    if s == [] then []
    else [(HexValue(s[0]) * 16 + HexValue(s[1])) as Byte] + HexDecode(s[2..])
  }

  /** The hex encoding loses nothing: decoding gives the digest back. */
  lemma {:induction false} HexRoundTrip(bytes: seq<Byte>)
    ensures HexDecode(HexLower(bytes)) == bytes
  {
    if bytes != [] {
      var h := HexLower(bytes);
      assert h[2..] == HexLower(bytes[1..]);
      HexRoundTrip(bytes[1..]);
    }
  }

  /** Every lower-case hex digit is the digit of its own value. */
  lemma HexDigitOfValue(c: char)
    requires IsLowerHexDigit(c)
    ensures HexDigit(HexValue(c)) == c
  {
  }

  /** The other way round: a lower-case hex text is the hex spelling of what it decodes to. */
  lemma {:induction false} HexDecodeRoundTrip(s: string)
    requires |s| % 2 == 0
    requires forall i :: 0 <= i < |s| ==> IsLowerHexDigit(s[i])
    ensures HexLower(HexDecode(s)) == s
  {
    if s != [] {
      var hi, lo := HexValue(s[0]), HexValue(s[1]);
      var b := (hi * 16 + lo) as Byte;
      assert HexDecode(s) == [b] + HexDecode(s[2..]);
      assert b as int / 16 == hi && b as int % 16 == lo;
      HexDigitOfValue(s[0]);
      HexDigitOfValue(s[1]);
      HexDecodeRoundTrip(s[2..]);
      assert ([b] + HexDecode(s[2..]))[1..] == HexDecode(s[2..]);
      assert s == [s[0], s[1]] + s[2..];
    }
  }

  /**
   * `verifyWebhookHash`: the hex digest of the payload followed by the
   * secret must equal the header, character for character. A header is
   * accepted exactly when it is lower-case hex of the right length that
   * decodes to that digest.
   */
  function VerifyWebhookHash(digest: string -> seq<Byte>, secret: string, payload: string, hash: string): (ok: bool)
    ensures ok <==> && |hash| == 2 * |digest(payload + secret)|
                    && (forall i :: 0 <= i < |hash| ==> IsLowerHexDigit(hash[i]))
                    && HexDecode(hash) == digest(payload + secret)
  {
    var d := digest(payload + secret);
    HexSpells(d, hash);
    HexLower(d) == hash
  }

  /** A text is the hex spelling of `d` exactly when it is lower-case hex of the right length decoding to `d`. */
  lemma {:induction false} HexSpells(d: seq<Byte>, hash: string)
    ensures HexLower(d) == hash <==> && |hash| == 2 * |d|
                                      && (forall i :: 0 <= i < |hash| ==> IsLowerHexDigit(hash[i]))
                                      && HexDecode(hash) == d
  {
    HexRoundTrip(d);
    if |hash| == 2 * |d| && (forall i :: 0 <= i < |hash| ==> IsLowerHexDigit(hash[i])) {
      HexDecodeRoundTrip(hash);
    }
  }

  /** ASCII upper-casing, as `toUpperCase()` does to a hex string. */
  function Upper(s: string): (r: string)
    ensures |r| == |s|
    ensures forall i :: 0 <= i < |s| ==> r[i] == (if IsAsciiLower(s[i]) then (s[i] as int - 32) as char else s[i])
  {
    if s == [] then [] else [if IsAsciiLower(s[0]) then (s[0] as int - 32) as char else s[0]] + Upper(s[1..])
  }

  /**
   * The comparison is exact: the upper-case spelling of the right digest is
   * refused as soon as the digest has a hex letter in it.
   */
  lemma {:induction false} UpperCaseDigestRejected(digest: string -> seq<Byte>, secret: string, payload: string, k: nat)
    requires k < 2 * |digest(payload + secret)|
    requires 'a' <= HexLower(digest(payload + secret))[k] <= 'f'
    ensures !VerifyWebhookHash(digest, secret, payload, Upper(HexLower(digest(payload + secret))))
  {
    var h := HexLower(digest(payload + secret));
    assert Upper(h)[k] != h[k];
  }

  /** At most one header value is accepted for a given body and secret. */
  lemma AcceptedHashIsUnique(digest: string -> seq<Byte>, secret: string, payload: string, h1: string, h2: string)
    requires VerifyWebhookHash(digest, secret, payload, h1)
    requires VerifyWebhookHash(digest, secret, payload, h2)
    ensures h1 == h2
  {
  }
}

=== FILE: language_switcher.dfy ===
/**
 * components/language-switcher.tsx: the EN/FR switch. On mount it reads
 * the `lang` cookie out of `document.cookie` and adopts it when it names
 * one of the two languages; a button sets the language, the document's
 * `lang` attribute and the cookie (for a year), then refreshes the page.
 */
module LanguageSwitcher {
  import opened Common
  import opened Strings

  const LangCookie := "lang"

  /** `60 * 60 * 24 * 365`: the cookie's lifetime in seconds. */
  const MaxAge: nat := 60 * 60 * 24 * 365

  predicate IsLanguage(v: string)
  {
    v == "en" || v == "fr"
  }

  /** `rows.find(pred)`: the first row starting with `prefix`. */
  function FindRow(rows: seq<string>, prefix: string): (r: Option<string>)
    ensures r.None? <==> forall k :: 0 <= k < |rows| ==> !StartsWith(rows[k], prefix)
    ensures r.Some? ==> exists k :: 0 <= k < |rows| && rows[k] == r.value && StartsWith(r.value, prefix)
                                    && forall j :: 0 <= j < k ==> !StartsWith(rows[j], prefix)
  {
    if rows == [] then None
    else if StartsWith(rows[0], prefix) then Some(rows[0])
    else
      var r := FindRow(rows[1..], prefix);
      assert r.Some? ==> exists k :: 1 <= k < |rows| && rows[k] == r.value && StartsWith(r.value, prefix)
                                     && forall j :: 0 <= j < k ==> !StartsWith(rows[j], prefix) by {
        if r.Some? {
          var k :| 0 <= k < |rows[1..]| && rows[1..][k] == r.value && StartsWith(r.value, prefix)
                   && forall j :: 0 <= j < k ==> !StartsWith(rows[1..][j], prefix);
          assert rows[k + 1] == r.value;
          assert forall j :: 0 <= j < k + 1 ==> !StartsWith(rows[j], prefix) by {
            forall j | 0 <= j < k + 1 ensures !StartsWith(rows[j], prefix) {
              if j > 0 {
                assert rows[j] == rows[1..][j - 1];
              }
            }
          }
        }
      }
      r
  }

  /**
   * The value the effect reads: the cookie string split on `"; "`, the
   * first row starting with `lang=`, split on `=`, second piece; `None`
   * for `undefined`. A row starting with `lang=` always has that second
   * piece, so the value is undefined exactly when no row starts with
   * `lang=`.
   */
  function CookieLang(cookie: string): (v: Option<string>)
    ensures v.None? ==> forall k :: 0 <= k < |Split(cookie, "; ")| ==> !StartsWith(Split(cookie, "; ")[k], "lang=")
    ensures v.Some? ==> exists k :: 0 <= k < |Split(cookie, "; ")| && StartsWith(Split(cookie, "; ")[k], "lang=")
  {
    var rows := Split(cookie, "; ");
    var found := FindRow(rows, "lang=");
    if found.None? then None
    else
      SecondPieceExists(found.value);
      var pieces := Split(found.value, "=");
      if |pieces| >= 2 then Some(pieces[1]) else None
  }

  /** A row starting with `lang=` splits on `=` into at least two pieces. */
  lemma {:induction false} SecondPieceExists(row: string)
    requires StartsWith(row, "lang=")
    ensures |Split(row, "=")| >= 2
  {
    assert row == "lang" + "=" + row[5..];
    SplitAfterPiece("lang", "=", row[5..]);
  }

  /** The first row found in `before + [row] + after`, when no row of `before` matches, is `row`. */
  lemma {:induction false} FindRowAfter(before: seq<string>, row: string, after: seq<string>, prefix: string)
    requires forall k :: 0 <= k < |before| ==> !StartsWith(before[k], prefix)
    requires StartsWith(row, prefix)
    ensures FindRow(before + [row] + after, prefix) == Some(row)
    decreases |before|
  {
    var rows := before + [row] + after;
    if before != [] {
      assert rows[1..] == before[1..] + [row] + after;
      FindRowAfter(before[1..], row, after, prefix);
    } else {
      assert rows[0] == row;
    }
  }

  /** `(name + "=" + v).split('=')[1]` is `v` when neither holds a `=`. */
  lemma {:induction false} PairValue(name: string, v: string)
    requires Free(name, '=') && Free(v, '=')
    ensures var pieces := Split(name + "=" + v, "=");
      |pieces| == 2 && pieces[1] == v
  {
    SplitAfterPiece(name, "=", v);
    SplitNoSeparator(v, "=");
  }

  /** The pairs of a cookie string come back from `split("; ")` when none holds a `;`. */
  lemma {:induction false} CookieRows(rows: seq<string>)
    requires |rows| >= 1 && forall k :: 0 <= k < |rows| ==> Free(rows[k], ';')
    ensures Split(Join(rows, "; "), "; ") == rows
  {
    SplitJoin(rows, "; ");
  }

  /** The value of the first `name=` pair of a joined cookie string is read back. */
  lemma {:induction false} PairRoundTrip(name: string, before: seq<string>, v: string, after: seq<string>)
    requires Free(name, '=') && Free(name, ';')
    requires forall k :: 0 <= k < |before| ==> !StartsWith(before[k], name + "=") && Free(before[k], ';')
    requires forall k :: 0 <= k < |after| ==> Free(after[k], ';')
    requires Free(v, ';') && Free(v, '=')
    ensures var row := FindRow(Split(Join(before + [name + "=" + v] + after, "; "), "; "), name + "=");
      row == Some(name + "=" + v) && |Split(row.value, "=")| == 2 && Split(row.value, "=")[1] == v
  {
    var row := name + "=" + v;
    var rows := before + [row] + after;
    assert Free(row, ';') by {
      forall i | 0 <= i < |row| ensures row[i] != ';' {
        if i < |name| {
          assert row[i] == name[i];
        } else if i > |name| {
          assert row[i] == v[i - |name| - 1];
        }
      }
    }
    assert forall k :: 0 <= k < |rows| ==> Free(rows[k], ';') by {
      forall k | 0 <= k < |rows| ensures Free(rows[k], ';') {
        if k < |before| {
          assert rows[k] == before[k];
        } else if k > |before| {
          assert rows[k] == after[k - |before| - 1];
        }
      }
    }
    CookieRows(rows);
    assert StartsWith(row, name + "=") by {
      assert row[..|name| + 1] == name + "=";
    }
    FindRowAfter(before, row, after, name + "=");
    PairValue(name, v);
  }

  /**
   * The cookie a switch writes is read back: in a cookie string whose
   * `lang` pair is the first row starting with `lang=`, the effect finds
   * the value written, provided no pair holds a `;` and the value no `=`.
   */
  lemma {:induction false} CookieRoundTrip(before: seq<string>, v: string, after: seq<string>)
    requires forall k :: 0 <= k < |before| ==> !StartsWith(before[k], "lang=") && Free(before[k], ';')
    requires forall k :: 0 <= k < |after| ==> Free(after[k], ';')
    requires Free(v, ';') && Free(v, '=')
    ensures CookieLang(Join(before + ["lang=" + v] + after, "; ")) == Some(v)
  {
    assert LangCookie + "=" == "lang=";
    PairRoundTrip(LangCookie, before, v, after);
  }

  /** A cookie string of one pair that is not `lang` yields nothing; `xlang=fr` is such a pair. */
  lemma {:induction false} OtherPairIgnored(cookie: string)
    requires Free(cookie, ';') && !StartsWith(cookie, "lang=")
    ensures CookieLang(cookie) == None
  {
    SplitNoSeparator(cookie, "; ");
    assert Split(cookie, "; ")[0] == cookie;
  }

  /**
   * What `updateLang` assigns to `document.cookie`: the `lang` pair, for
   * the whole site, for a year of 31536000 seconds.
   */
  function CookieAssignment(next: string): (c: string)
    ensures c == "lang=" + next + "; path=/; max-age=31536000"
  {
    MaxAgeText();
    LangCookie + "=" + next + "; path=/; max-age=" + NatToString(MaxAge)
  }

  /** A year in seconds, written in decimal. */
  lemma {:induction false} MaxAgeText()
    ensures NatToString(MaxAge) == "31536000"
  {
    assert MaxAge == 31536000;
    assert NatToString(3) == "3";
    assert NatToString(31) == "31";
    assert NatToString(315) == "315";
    assert NatToString(3153) == "3153";
    assert NatToString(31536) == "31536";
    assert NatToString(315360) == "315360";
    assert NatToString(3153600) == "3153600";
    assert NatToString(31536000) == "31536000";
  }

  /** The switch's state and the document attributes it writes. */
  class Switcher {
    var lang: string
    var documentLang: Option<string>
    var written: Option<string>    // the last string assigned to `document.cookie`

    predicate Valid()
      reads this
    {
      IsLanguage(lang)
    }

    constructor ()
      ensures Valid() && lang == "en" && documentLang == None && written == None
    {
      lang := "en";
      documentLang := None;
      written := None;
    }

    /** The mount effect: adopt the cookie's language when it is `en` or `fr`, otherwise keep the state. */
    method Mount(cookie: string)
      requires Valid()
      modifies this
      ensures Valid()
      ensures var v := CookieLang(cookie);
        if v.Some? && IsLanguage(v.value) then lang == v.value && documentLang == v
        else lang == old(lang) && documentLang == old(documentLang)
      ensures written == old(written)
    {
      var v := CookieLang(cookie);
      if v == Some("fr") || v == Some("en") {
        lang := v.value;
        documentLang := v;
      }
    }

    /** `updateLang`: returns whether the page is refreshed, which it always is. */
    method UpdateLang(next: string) returns (refreshed: bool)
      requires Valid() && IsLanguage(next)
      modifies this
      ensures Valid()
      ensures lang == next && documentLang == Some(next) && written == Some(CookieAssignment(next))
      ensures refreshed
    {
      lang := next;
      documentLang := Some(next);
      written := Some(CookieAssignment(next));
      refreshed := true;
    }
  }
}

=== FILE: middleware.dfy ===
/**
 * middleware.ts: the request guard in front of `/dashboard` and `/seller`.
 * The `authorized` callback lets a request through when its path is
 * public or it carries a session token; the middleware itself sends a
 * request for a seller page whose token does not carry the SELLER or ADMIN
 * role to `/dashboard`.
 *
 * As written, `/` is one of the public prefixes and every path starts with
 * `/`, so `authorized` lets everything through and its token check is
 * never reached. `AuthorizedAsWritten` models that; `Authorized` is the
 * evident intent (`/` public as a page of its own) and is the one the
 * guard uses.
 */
module Middleware {
  import opened Common
  import opened Strings

  /** The session token next-auth decodes from the cookie; `role` may be absent. */
  datatype Token = Token(role: Option<string>)

  /** What the guard does with a request. */
  datatype Action =
    | Next                  // `NextResponse.next()`
    | Redirect(to: string)  // `NextResponse.redirect`
    | SignIn                // `authorized` refused: next-auth sends the visitor to sign in

  const PublicPaths: seq<string> :=
    ["/", "/auth", "/browse", "/product", "/api/auth", "/admin", "/pricing", "/tips", "/affiliate", "/info"]

  /**
   * `publicPaths.some((path) => pathname.startsWith(path))`: with `/` in
   * the list, any path starting with `/` passes.
   */
  function IsPublicPathAsWritten(path: string): (b: bool)
    ensures StartsWith(path, "/") ==> b
  {
    assert StartsWith(path, "/") ==> StartsWith(path, PublicPaths[0]);
    exists k | 0 <= k < |PublicPaths| :: StartsWith(path, PublicPaths[k])
  }

  /** The `authorized` callback as written: a token or a path starting with `/` is enough. */
  function AuthorizedAsWritten(path: string, token: Option<Token>): (b: bool)
    ensures token.Some? ==> b
    ensures StartsWith(path, "/") ==> b
  {
    IsPublicPathAsWritten(path) || token.Some?
  }

  /**
   * As written, every path Next.js hands the callback (they all start with
   * `/`) is public, so a request without a token is let through.
   */
  lemma EveryPathAuthorizedAsWritten(path: string, token: Option<Token>)
    requires StartsWith(path, "/")
    ensures IsPublicPathAsWritten(path)
    ensures AuthorizedAsWritten(path, token)
  {
    assert StartsWith(path, PublicPaths[0]);
  }

  /** A public entry matches `/` itself only, and every other prefix as a prefix. */
  predicate PublicMatch(prefix: string, path: string)
  {
    if prefix == "/" then path == "/" else StartsWith(path, prefix)
  }

  /** The public test with `/` standing for the home page alone. */
  predicate IsPublicPath(path: string)
  {
    exists k | 0 <= k < |PublicPaths| :: PublicMatch(PublicPaths[k], path)
  }

  /** The `authorized` callback: public paths are open, the rest need a token. */
  predicate Authorized(path: string, token: Option<Token>)
  {
    IsPublicPath(path) || token.Some?
  }

  /** Off the public paths, a request is authorized exactly when it carries a token. */
  lemma ProtectedNeedsToken(path: string, token: Option<Token>)
    requires !IsPublicPath(path)
    ensures Authorized(path, token) <==> token.Some?
  {
  }

  /** The corrected test only narrows the written one: it never opens a path the written one closes. */
  lemma {:induction false} PublicPathNarrows(path: string)
    ensures IsPublicPath(path) ==> IsPublicPathAsWritten(path)
  {
    if IsPublicPath(path) {
      var k :| 0 <= k < |PublicPaths| && PublicMatch(PublicPaths[k], path);
      assert StartsWith(path, PublicPaths[k]);
    }
  }

  /** `/dashboard` is not public: the first character after the slash matches no public entry. */
  lemma {:induction false} DashboardIsProtected()
    ensures !IsPublicPath("/dashboard")
    ensures IsPublicPathAsWritten("/dashboard")
  {
    var path := "/dashboard";
    forall k | 0 <= k < |PublicPaths|
      ensures !PublicMatch(PublicPaths[k], path)
    {
      var p := PublicPaths[k];
      if p != "/" {
        assert |p| >= 2 && p[1] != 'd';
        assert path[1] == 'd';
      }
    }
    EveryPathAuthorizedAsWritten(path, None);
  }

  /** Prefixes do not stop at a segment: `/administrator` counts as under `/admin`. */
  lemma AdministratorIsPublic()
    ensures IsPublicPath("/administrator")
  {
    assert PublicMatch(PublicPaths[5], "/administrator");
  }

  /** The seller-route rule: a `/seller…` path without a SELLER or ADMIN token goes to `/dashboard`. */
  function SellerGuard(path: string, token: Option<Token>): (a: Action)
    ensures a == Next || a == Redirect("/dashboard")
    ensures a == Redirect("/dashboard")
            <==> StartsWith(path, "/seller")
                 && !(token.Some? && token.value.role.Some? && token.value.role.value in {"SELLER", "ADMIN"})
  {
    var role := if token.Some? then token.value.role else None;
    if StartsWith(path, "/seller") && role != Some("SELLER") && role != Some("ADMIN") then Redirect("/dashboard")
    else Next
  }

  /** `/sellers` is caught by the seller rule too. */
  lemma SellersIsGuarded()
    ensures SellerGuard("/sellers", None) == Redirect("/dashboard")
  {
    assert StartsWith("/sellers", "/seller");
  }

  /** `config.matcher`: `/dashboard/:path*` and `/seller/:path*`. */
  predicate Matched(path: string)
  {
    path == "/dashboard" || StartsWith(path, "/dashboard/") || path == "/seller" || StartsWith(path, "/seller/")
  }

  /**
   * The guard as written: `authorized` first, then the middleware, on
   * matched paths only. Every matched path starts with `/`, so nobody is
   * ever sent to sign in.
   */
  function GuardAsWritten(path: string, token: Option<Token>): (a: Action)
    ensures !Matched(path) ==> a == Next
    ensures a != SignIn
  {
    assert Matched(path) ==> StartsWith(path, "/") by {
      if StartsWith(path, "/dashboard/") {
        assert path[..1] == "/dashboard/"[..1];
      } else if StartsWith(path, "/seller/") {
        assert path[..1] == "/seller/"[..1];
      }
    }
    if !Matched(path) then Next
    else if !AuthorizedAsWritten(path, token) then SignIn
    else SellerGuard(path, token)
  }

  /** The guard with the corrected `authorized`. */
  function Guard(path: string, token: Option<Token>): (a: Action)
    ensures !Matched(path) ==> a == Next
    ensures a == SignIn ==> token.None?
  {
    if !Matched(path) then Next
    else if !Authorized(path, token) then SignIn
    else SellerGuard(path, token)
  }

  /**
   * A matched path is never public under the corrected test, so the guard
   * asks a visitor without a token to sign in, and lets a signed-in one
   * through except on seller pages without the role.
   */
  lemma {:induction false} GuardDecides(path: string, token: Option<Token>)
    requires Matched(path)
    ensures token.None? ==> Guard(path, token) == SignIn
    ensures token.Some? ==> Guard(path, token) == SellerGuard(path, token)
  {
    MatchedIsProtected(path);
  }

  /** No matched path is public under the corrected test. */
  lemma {:induction false} MatchedIsProtected(path: string)
    requires Matched(path)
    ensures !IsPublicPath(path)
  {
    assert |path| >= 2 && path[0] == '/' && (path[1] == 'd' || path[1] == 's') by {
      if StartsWith(path, "/dashboard/") {
        assert path[..11][1] == 'd';
      } else if StartsWith(path, "/seller/") {
        assert path[..8][1] == 's';
      }
    }
    forall k | 0 <= k < |PublicPaths|
      ensures !PublicMatch(PublicPaths[k], path)
    {
      var p := PublicPaths[k];
      if p != "/" {
        assert |p| >= 2 && p[1] != 'd' && p[1] != 's';
      }
    }
  }

  /**
   * The written guard lets a visitor without a token onto `/dashboard`,
   * where the corrected one asks them to sign in.
   */
  lemma DashboardOpenAsWritten()
    ensures GuardAsWritten("/dashboard", None) == Next
    ensures Guard("/dashboard", None) == SignIn
  {
    DashboardIsProtected();
    assert !StartsWith("/dashboard", "/seller") by {
      assert "/dashboard"[1] != "/seller"[1];
    }
  }
}

=== FILE: panel_admin.dfy ===
/**
 * app/panel-admin/page.tsx: the lists of the admin panel. The product and
 * user lists are the fetched arrays filtered by a status or role selector
 * and a case-insensitive search text; choosing a view in the side
 * navigation clears the search text. The login form and the data fetching
 * are not part of this model.
 */
module PanelAdmin {
  import opened Common
  import opened Strings

  /** The fields of a fetched product the list filters on. */
  datatype AdminProduct = AdminProduct(title: string, status: string)

  /** The fields of a fetched user the list filters on; `name` may be null. */
  datatype AdminUser = AdminUser(email: string, name: Option<string>, role: string)

  /** `text.toLowerCase().includes(searchTerm.toLowerCase())`. */
  predicate Mentions(text: string, searchTerm: string)
  {
    Contains(Lower(text), Lower(searchTerm))
  }

  /**
   * The predicate inside `filteredProducts`: `ALL` with no search text
   * shows everything; otherwise the status must be the one selected.
   */
  function ProductShown(p: AdminProduct, productFilter: string, searchTerm: string): (b: bool)
    ensures productFilter == "ALL" && searchTerm == "" ==> b
    ensures b ==> productFilter == "ALL" || p.status == productFilter
  {
    && (productFilter == "ALL" || p.status == productFilter)
    && (searchTerm == "" || Mentions(p.title, searchTerm))
  }

  /**
   * The predicate inside `filteredUsers`: the search matches the email, or
   * the name when it is set; a match on the email is enough whatever the name.
   */
  function UserShown(u: AdminUser, userRoleFilter: string, searchTerm: string): (b: bool)
    ensures userRoleFilter == "ALL" && searchTerm == "" ==> b
    ensures (userRoleFilter == "ALL" || u.role == userRoleFilter) && Mentions(u.email, searchTerm) ==> b
    ensures b ==> userRoleFilter == "ALL" || u.role == userRoleFilter
  {
    && (userRoleFilter == "ALL" || u.role == userRoleFilter)
    && (searchTerm == "" || Mentions(u.email, searchTerm) || (Truthy(u.name) && Mentions(u.name.value, searchTerm)))
  }

  /** `filteredProducts`; `None` stands for a fetched value that is not an array. */
  function FilteredProducts(allProducts: Option<seq<AdminProduct>>, productFilter: string, searchTerm: string)
    : (r: seq<AdminProduct>)
    ensures allProducts.None? ==> r == []
    ensures forall k :: 0 <= k < |r| ==> r[k] in allProducts.value && ProductShown(r[k], productFilter, searchTerm)
    ensures allProducts.Some? ==> forall k :: 0 <= k < |allProducts.value| ==>
              (allProducts.value[k] in r <==> ProductShown(allProducts.value[k], productFilter, searchTerm))
  {
    Filter(if allProducts.Some? then allProducts.value else [], p => ProductShown(p, productFilter, searchTerm))
  }

  /** `filteredUsers`. */
  function FilteredUsers(allUsers: Option<seq<AdminUser>>, userRoleFilter: string, searchTerm: string)
    : (r: seq<AdminUser>)
    ensures allUsers.None? ==> r == []
    ensures forall k :: 0 <= k < |r| ==> r[k] in allUsers.value && UserShown(r[k], userRoleFilter, searchTerm)
    ensures allUsers.Some? ==> forall k :: 0 <= k < |allUsers.value| ==>
              (allUsers.value[k] in r <==> UserShown(allUsers.value[k], userRoleFilter, searchTerm))
  {
    Filter(if allUsers.Some? then allUsers.value else [], u => UserShown(u, userRoleFilter, searchTerm))
  }

  /** With the `ALL` selector and no search text, every product is listed, in the fetched order. */
  lemma AllWithoutSearchKeepsEverything(products: seq<AdminProduct>, users: seq<AdminUser>)
    ensures FilteredProducts(Some(products), "ALL", "") == products
    ensures FilteredUsers(Some(users), "ALL", "") == users
  {
    FilterKeepsAll(products, p => ProductShown(p, "ALL", ""));
    FilterKeepsAll(users, u => UserShown(u, "ALL", ""));
  }

  /** The lists keep the fetched order: filtering two halves and joining them is filtering the whole. */
  lemma FilteredProductsKeepOrder(a: seq<AdminProduct>, b: seq<AdminProduct>, productFilter: string,
                                  searchTerm: string)
    ensures FilteredProducts(Some(a + b), productFilter, searchTerm)
            == FilteredProducts(Some(a), productFilter, searchTerm)
               + FilteredProducts(Some(b), productFilter, searchTerm)
  {
    FilterConcat(a, b, p => ProductShown(p, productFilter, searchTerm));
  }

  /** Lower-casing twice is lower-casing once. */
  lemma {:induction false} LowerIdempotent(s: string)
    ensures Lower(Lower(s)) == Lower(s)
  {
    assert forall i :: 0 <= i < |s| ==> Lower(Lower(s))[i] == Lower(s)[i];
  }

  /** The search ignores case on both sides: lower-casing the title or the search text changes nothing. */
  lemma {:induction false} SearchIgnoresCase(p: AdminProduct, productFilter: string, searchTerm: string)
    ensures ProductShown(p, productFilter, searchTerm)
            == ProductShown(p.(title := Lower(p.title)), productFilter, Lower(searchTerm))
  {
    LowerIdempotent(p.title);
    LowerIdempotent(searchTerm);
  }

  /** The panel's view and filter state. */
  class Panel {
    var activeView: string
    var productFilter: string
    var userRoleFilter: string
    var searchTerm: string

    constructor ()
      ensures activeView == "dashboard" && productFilter == "ALL" && userRoleFilter == "ALL" && searchTerm == ""
    {
      activeView := "dashboard";
      productFilter := "ALL";
      userRoleFilter := "ALL";
      searchTerm := "";
    }

    /** The products the products view lists. */
    function Products(allProducts: Option<seq<AdminProduct>>): (r: seq<AdminProduct>)
      reads this
      ensures |r| <= if allProducts.Some? then |allProducts.value| else 0
    {
      FilteredProducts(allProducts, productFilter, searchTerm)
    }

    /** A side-navigation button: switch view and clear the search; the selectors stay. */
    method SelectNav(id: string)
      modifies this
      ensures activeView == id && searchTerm == ""
      ensures productFilter == old(productFilter) && userRoleFilter == old(userRoleFilter)
    {
      activeView := id;
      searchTerm := "";
    }

    /** A dashboard card: switch view only; the search text is kept. */
    method OpenCard(id: string)
      modifies this
      ensures activeView == id
      ensures searchTerm == old(searchTerm)
      ensures productFilter == old(productFilter) && userRoleFilter == old(userRoleFilter)
    {
      activeView := id;
    }

    /** Typing in a search box. */
    method SetSearch(text: string)
      modifies this
      ensures searchTerm == text
      ensures activeView == old(activeView)
      ensures productFilter == old(productFilter) && userRoleFilter == old(userRoleFilter)
    {
      searchTerm := text;
    }
  }

  /**
   * After a navigation click a view lists everything its selector allows:
   * the search text no longer narrows it.
   */
  lemma NavShowsSelectorOnly(allProducts: seq<AdminProduct>, productFilter: string)
    ensures FilteredProducts(Some(allProducts), productFilter, "")
            == Filter(allProducts, (p: AdminProduct) => productFilter == "ALL" || p.status == productFilter)
  {
    FilterSame(allProducts, p => ProductShown(p, productFilter, ""),
               (p: AdminProduct) => productFilter == "ALL" || p.status == productFilter);
  }
}

=== FILE: payments_initialize.dfy ===
/**
 * app/api/payments/initialize/route.ts: a buyer starts a purchase. The
 * route checks the session, the product and earlier purchases, writes a
 * PENDING transaction carrying the commission split, and then asks the
 * gateway to charge by card or by mobile money.
 *
 * `Initialize` is the route as a function of the tables before the call;
 * `Post` is the route as it runs against the store. `txRef` is the value
 * `generateTxRef` produced and `gateway` the outcome of the gateway call.
 */
module PaymentsInitialize {
  import opened Common
  import opened Database
  import opened Flutterwave
  import Utils

  /** The body once zod accepted it. */
  datatype PaymentRequest = PaymentRequest(productId: nat, paymentMethod: PaymentMethod,
                                           phoneNumber: Option<string>)

  /**
   * What reading the body gave: not JSON at all (`request.json()` throws),
   * JSON that the schema refuses (a `ZodError`, answered with its issue
   * list), or a request.
   */
  datatype Body = NotJson | SchemaError | Parsed(req: PaymentRequest)

  /** The text standing for zod's issue list in a 400 answer. */
  const SchemaIssues := "Invalid request"

  datatype InitResponse =
    | Failure(status: nat, error: string)
    | CardStarted(transactionId: nat, paymentLink: string, txRef: string)
    | MobileMoneyStarted(transactionId: nat, paymentData: string, txRef: string)

  /** The tables afterwards, the response, and the charge sent to the gateway if any. */
  datatype InitResult = InitResult(tables: Tables, response: InitResponse, charge: Option<ChargeRequest>)

  /** `product.seller.sellerProfile?.isOwner || false`: a seller without a profile is not the owner. */
  function IsOwner(seller: User): (b: bool)
    ensures seller.sellerProfile.None? ==> !b
  {
    seller.sellerProfile.Some? && seller.sellerProfile.value.isOwner
  }

  /** `subscription?.plan === 'PRO' && subscription?.isActive`: only an active PRO plan counts. */
  function IsPro(seller: User): (b: bool)
    ensures seller.subscription.None? ==> !b
    ensures b ==> seller.subscription.value.isActive && seller.subscription.value.plan == "PRO"
  {
    seller.subscription.Some? && seller.subscription.value.plan == "PRO" && seller.subscription.value.isActive
  }

  /** The mobile-money network: MTN for `mobile_money_mtn`, ORANGE for every other method. */
  function NetworkOf(m: PaymentMethod): (n: Network)
    ensures n == MTN <==> m == MobileMoneyMtn
  {
    if m == MobileMoneyMtn then MTN else ORANGE
  }

  /** `user.name || user.email || 'Customer'`: never empty, the name whenever there is one. */
  function FullName(user: User): (name: string)
    ensures name != ""
    ensures Truthy(user.name) ==> name == user.name.value
    ensures !Truthy(user.name) && user.email != "" ==> name == user.email
  {
    OrElse(user.name, if user.email != "" then user.email else "Customer")
  }

  /** Every check before the transaction is written passes. */
  predicate Admitted(t: Tables, session: Option<Session>, body: Body)
  {
    && session.Some? && body.Parsed?
    && body.req.productId < |t.products|
    && t.products[body.req.productId].status == Approved
    && !HasCompletedPurchase(t.txs, session.value.userId, body.req.productId)
    && t.products[body.req.productId].sellerId < |t.users|
  }

  /** The PENDING row the route writes. */
  function NewTransaction(t: Tables, buyerId: nat, req: PaymentRequest, rates: Utils.Rates, txRef: string): (tx: Transaction)
    requires req.productId < |t.products| && t.products[req.productId].sellerId < |t.users|
    ensures tx.status == TxPending && tx.flutterwaveTxId == None
    ensures tx.buyerId == buyerId && tx.productId == req.productId
    ensures tx.sellerId == t.products[req.productId].sellerId
    ensures tx.flutterwaveRef == txRef && tx.paymentMethod == req.paymentMethod
    ensures tx.amount == t.products[req.productId].price
    ensures tx.commission + tx.sellerAmount == tx.amount
    // the split follows the seller's tier: owner, then active pro, then the default rate
    ensures var seller := t.users[t.products[req.productId].sellerId];
      && (IsOwner(seller) ==> tx.commission == tx.amount * rates.ownerRate)
      && (!IsOwner(seller) && IsPro(seller) ==> tx.commission == tx.amount * rates.proRate)
      && (!IsOwner(seller) && !IsPro(seller) ==> tx.commission == tx.amount * rates.defaultRate)
  {
    var p := t.products[req.productId];
    var seller := t.users[p.sellerId];
    var split := Utils.CalculateCommission(p.price, IsOwner(seller), IsPro(seller), rates);
    Transaction(buyerId, p.sellerId, req.productId, p.price, split.commission, split.sellerAmount,
                TxPending, txRef, None, req.paymentMethod)
  }

  function Initialize(t: Tables, session: Option<Session>, body: Body,
                      rates: Utils.Rates, txRef: string, gateway: Outcome<string>): (r: InitResult)
    // no session: 401 and the store is neither read nor written
    ensures session.None? ==> r == InitResult(t, Failure(401, "Unauthorized"), None)
    // a refused request writes nothing and charges nothing
    ensures !Admitted(t, session, body) ==> r.tables == t && r.response.Failure? && r.charge.None?
    // a body that is not JSON is caught as a failure; one the schema refuses gets the issue list
    ensures session.Some? && body.NotJson? ==> r == InitResult(t, Failure(500, "Failed to initialize payment"), None)
    ensures session.Some? && body.SchemaError? ==> r == InitResult(t, Failure(400, SchemaIssues), None)
    ensures (session.Some? && body.Parsed? && body.req.productId >= |t.products|)
              ==> r.response == Failure(404, "Product not found")
    // the query includes the seller: a product whose seller row is missing throws and is caught
    ensures (session.Some? && body.Parsed? && body.req.productId < |t.products|
             && t.products[body.req.productId].sellerId >= |t.users|)
              ==> r == InitResult(t, Failure(500, "Failed to initialize payment"), None)
    ensures (session.Some? && body.Parsed? && body.req.productId < |t.products|
             && t.products[body.req.productId].sellerId < |t.users|
             && t.products[body.req.productId].status != Approved)
              ==> r.response == Failure(400, "Product is not available for purchase")
    // only a COMPLETED purchase of the same product by the same buyer blocks
    ensures (session.Some? && body.Parsed? && body.req.productId < |t.products|
             && t.products[body.req.productId].sellerId < |t.users|
             && t.products[body.req.productId].status == Approved)
              ==> (r.response == Failure(400, "You already own this product")
                   <==> HasCompletedPurchase(t.txs, session.value.userId, body.req.productId))
    // an admitted request appends exactly one PENDING transaction, whatever follows
    ensures Admitted(t, session, body) ==>
              r.tables == t.(txs := t.txs + [NewTransaction(t, session.value.userId, body.req, rates, txRef)])
    // a started payment names the row that was written and its reference
    ensures r.response.CardStarted? || r.response.MobileMoneyStarted? ==>
              && Admitted(t, session, body)
              && r.response.transactionId == |t.txs|
              && r.response.txRef == txRef == r.tables.txs[|t.txs|].flutterwaveRef
              && r.charge.Some?
    ensures r.response.CardStarted? <==> Admitted(t, session, body) && session.value.userId < |t.users|
                                         && body.req.paymentMethod == Card && gateway.Ok?
    ensures r.response.MobileMoneyStarted? <==>
              (Admitted(t, session, body) && session.value.userId < |t.users|
               && body.req.paymentMethod != Card && Truthy(body.req.phoneNumber) && gateway.Ok?)
    // the buyer is read after the write: an unknown buyer gets 404 with the PENDING row already stored
    ensures (Admitted(t, session, body) && session.value.userId >= |t.users|)
              ==> r.response == Failure(404, "User not found") && |r.tables.txs| == |t.txs| + 1 && r.charge.None?
    // a gateway call that throws: 500, the PENDING row stays and the charge was sent
    ensures (Admitted(t, session, body) && session.value.userId < |t.users| && gateway.Threw?
             && (body.req.paymentMethod == Card || Truthy(body.req.phoneNumber)))
              ==> r.response == Failure(500, "Failed to initialize payment")
                  && |r.tables.txs| == |t.txs| + 1 && r.charge.Some?
    // every charge is in XAF, for the product's price, under the stored reference
    ensures r.charge.Some? ==>
              && Admitted(t, session, body)
              && r.charge.value.currency == Currency && r.charge.value.txRef == txRef
              && r.charge.value.amount == t.products[body.req.productId].price
              && (r.charge.value.CardCharge? <==> body.req.paymentMethod == Card)
              && (r.charge.value.MobileMoneyCharge? ==>
                    (r.charge.value.network == MTN <==> body.req.paymentMethod == MobileMoneyMtn))
    // mobile money without a phone number: 400, but the PENDING row is already stored
    ensures (Admitted(t, session, body) && session.value.userId < |t.users|
             && body.req.paymentMethod != Card && !Truthy(body.req.phoneNumber))
              ==> r.response == Failure(400, "Phone number is required for mobile money")
                  && |r.tables.txs| == |t.txs| + 1 && r.charge.None?
  {
    if session.None? then InitResult(t, Failure(401, "Unauthorized"), None)
    else if body.NotJson? then InitResult(t, Failure(500, "Failed to initialize payment"), None)
    else if body.SchemaError? then InitResult(t, Failure(400, SchemaIssues), None)
    else
      var req := body.req;
      if req.productId >= |t.products| then InitResult(t, Failure(404, "Product not found"), None)
      else
        var product := t.products[req.productId];
        if product.sellerId >= |t.users| then
          // the query includes the seller, a required relation: a missing one throws
          InitResult(t, Failure(500, "Failed to initialize payment"), None)
        else if product.status != Approved then
          InitResult(t, Failure(400, "Product is not available for purchase"), None)
        else if HasCompletedPurchase(t.txs, session.value.userId, req.productId) then
          InitResult(t, Failure(400, "You already own this product"), None)
        else
          var id := |t.txs|;
          var written := t.(txs := t.txs + [NewTransaction(t, session.value.userId, req, rates, txRef)]);
          if session.value.userId >= |t.users| then
            InitResult(written, Failure(404, "User not found"), None)
          else
            var user := t.users[session.value.userId];
            if req.paymentMethod == Card then
              var charge := CardCharge(txRef, product.price, Currency, "card", user.email,
                                       OrElse(user.name, user.email), product.title, id, req.productId);
              match gateway
              case Threw => InitResult(written, Failure(500, "Failed to initialize payment"), Some(charge))
              case Ok(link) => InitResult(written, CardStarted(id, link, txRef), Some(charge))
            else if !Truthy(req.phoneNumber) then
              InitResult(written, Failure(400, "Phone number is required for mobile money"), None)
            else
              var charge := MobileMoneyCharge(txRef, product.price, Currency, NetworkOf(req.paymentMethod),
                                              user.email, req.phoneNumber.value, FullName(user));
              match gateway
              case Threw => InitResult(written, Failure(500, "Failed to initialize payment"), Some(charge))
              case Ok(data) => InitResult(written, MobileMoneyStarted(id, data, txRef), Some(charge))
  }

  /** The route keeps the ledger invariant: the new row conserves money, payouts are untouched. */
  lemma {:induction false} InitializeKeepsLedger(t: Tables, session: Option<Session>, body: Body,
                                                 rates: Utils.Rates, txRef: string, gateway: Outcome<string>)
    requires Ledger(t)
    ensures Ledger(Initialize(t, session, body, rates, txRef, gateway).tables)
  {
    var r := Initialize(t, session, body, rates, txRef, gateway);
    if Admitted(t, session, body) {
      var tx := NewTransaction(t, session.value.userId, body.req, rates, txRef);
      assert r.tables.txs == t.txs + [tx];
      forall j | 0 <= j < |r.tables.payouts|
        ensures PayoutMatches(r.tables, r.tables.payouts[j])
      {
        assert PayoutMatches(t, t.payouts[j]);
      }
    }
  }

  /**
   * A PENDING attempt never blocks a retry: after an admitted request, the
   * same buyer asking again for the same product is admitted again and gets
   * a second PENDING row.
   */
  lemma {:induction false} PendingAttemptDoesNotBlock(t: Tables, session: Option<Session>, body: Body,
                                                      rates: Utils.Rates, ref1: string, ref2: string,
                                                      g1: Outcome<string>, g2: Outcome<string>)
    requires Admitted(t, session, body)
    ensures var t1 := Initialize(t, session, body, rates, ref1, g1).tables;
      Admitted(t1, session, body)
      && |Initialize(t1, session, body, rates, ref2, g2).tables.txs| == |t.txs| + 2
  {
    var t1 := Initialize(t, session, body, rates, ref1, g1).tables;
    var tx := NewTransaction(t, session.value.userId, body.req, rates, ref1);
    assert t1.txs == t.txs + [tx];
    forall i | 0 <= i < |t1.txs|
      ensures !(t1.txs[i].buyerId == session.value.userId && t1.txs[i].productId == body.req.productId
                && t1.txs[i].status == TxCompleted)
    {
      if i == |t.txs| {
        assert t1.txs[i] == tx;
      }
    }
  }

  /** `POST /api/payments/initialize` against the store. */
  method Post(db: Db, session: Option<Session>, body: Body,
              rates: Utils.Rates, txRef: string, gateway: Outcome<string>)
    returns (response: InitResponse, charge: Option<ChargeRequest>)
    modifies db
    ensures var r := Initialize(old(db.Snapshot()), session, body, rates, txRef, gateway);
      db.Snapshot() == r.tables && response == r.response && charge == r.charge
  {
    ghost var t := db.Snapshot();
    if session.None? {
      return Failure(401, "Unauthorized"), None;
    }
    if body.NotJson? {
      return Failure(500, "Failed to initialize payment"), None;
    }
    if body.SchemaError? {
      return Failure(400, SchemaIssues), None;
    }
    var req := body.req;
    if req.productId >= |db.products| {
      return Failure(404, "Product not found"), None;
    }
    var product := db.products[req.productId];
    if product.sellerId >= |db.users| {
      return Failure(500, "Failed to initialize payment"), None;
    }
    if product.status != Approved {
      return Failure(400, "Product is not available for purchase"), None;
    }
    if HasCompletedPurchase(db.txs, session.value.userId, req.productId) {
      return Failure(400, "You already own this product"), None;
    }
    var seller := db.users[product.sellerId];
    var split := Utils.CalculateCommission(product.price, IsOwner(seller), IsPro(seller), rates);
    var id := |db.txs|;
    db.txs := db.txs + [Transaction(session.value.userId, product.sellerId, req.productId, product.price,
                                    split.commission, split.sellerAmount, TxPending, txRef, None,
                                    req.paymentMethod)];
    assert db.Snapshot() == t.(txs := t.txs + [NewTransaction(t, session.value.userId, req, rates, txRef)]);
    if session.value.userId >= |db.users| {
      return Failure(404, "User not found"), None;
    }
    var user := db.users[session.value.userId];
    if req.paymentMethod == Card {
      charge := Some(CardCharge(txRef, product.price, Currency, "card", user.email,
                                OrElse(user.name, user.email), product.title, id, req.productId));
      if gateway.Threw? {
        response := Failure(500, "Failed to initialize payment");
      } else {
        response := CardStarted(id, gateway.value, txRef);
      }
    } else {
      if !Truthy(req.phoneNumber) {
        return Failure(400, "Phone number is required for mobile money"), None;
      }
      charge := Some(MobileMoneyCharge(txRef, product.price, Currency, NetworkOf(req.paymentMethod),
                                       user.email, req.phoneNumber.value, FullName(user)));
      if gateway.Threw? {
        response := Failure(500, "Failed to initialize payment");
      } else {
        response := MobileMoneyStarted(id, gateway.value, txRef);
      }
    }
  }
}

=== FILE: product_actions.dfy ===
/**
 * app/admin/products/product-actions.tsx: the moderation buttons of one
 * product row. Which buttons show is a function of the product's status;
 * pressing one sends `PATCH /api/products/{id}` with the new status while
 * the buttons are disabled, and refreshes the page when the answer is ok.
 */
module ProductActions {
  import opened Common

  /** The statuses the row offers to move to, in the order the buttons appear. */
  function OfferedTargets(status: string): (targets: seq<string>)
    ensures status == "PENDING" ==> targets == ["APPROVED", "REJECTED"]
    ensures status == "APPROVED" ==> targets == ["REJECTED"]
    ensures status == "REJECTED" ==> targets == ["APPROVED"]
    ensures status !in {"PENDING", "APPROVED", "REJECTED"} ==> targets == []
  {
    (if status == "PENDING" then ["APPROVED", "REJECTED"] else [])
    + (if status == "APPROVED" then ["REJECTED"] else [])
    + (if status == "REJECTED" then ["APPROVED"] else [])
  }

  /**
   * A button never offers the status the product already has, never sends
   * a product back to PENDING, and only offers the two moderation outcomes.
   */
  lemma OfferedTargetsMove(status: string)
    ensures forall k :: 0 <= k < |OfferedTargets(status)| ==>
              && OfferedTargets(status)[k] != status
              && OfferedTargets(status)[k] != "PENDING"
              && OfferedTargets(status)[k] in {"APPROVED", "REJECTED"}
  {
  }

  /** The request a button sends. */
  datatype PatchRequest = PatchRequest(url: string, status: string)

  /**
   * One row's buttons: `loading` disables them (`disabled={loading}`)
   * while a request is out; `inFlight` is that request, awaiting its
   * answer.
   */
  class Row {
    const productId: string
    var loading: bool
    var inFlight: Option<PatchRequest>

    /** The buttons are disabled exactly while a request is out. */
    predicate Valid()
      reads this
    {
      loading <==> inFlight.Some?
    }

    constructor (productId: string)
      ensures Valid()
      ensures this.productId == productId && !loading && inFlight == None
    {
      this.productId := productId;
      loading := false;
      inFlight := None;
    }

    /**
     * A press of an enabled button starts `updateStatus`: the buttons are
     * disabled and the PATCH with the new status is sent to the product's
     * URL.
     */
    method UpdateStatus(newStatus: string) returns (request: PatchRequest)
      requires Valid() && !loading
      modifies this
      ensures Valid()
      ensures request == PatchRequest("/api/products/" + productId, newStatus)
      ensures loading && inFlight == Some(request)
    {
      loading := true;
      request := PatchRequest("/api/products/" + productId, newStatus);
      inFlight := Some(request);
    }

    /**
     * The request's end: `answer` is the outcome of `fetch`, `Ok(response.ok)`
     * or `Threw`. The page refreshes exactly on an ok answer, and the
     * `finally` enables the buttons again whatever the answer.
     */
    method Answered(answer: Outcome<bool>) returns (refreshed: bool)
      requires Valid() && loading
      modifies this
      ensures Valid()
      ensures refreshed <==> answer == Ok(true)
      ensures !loading && inFlight == None
    {
      refreshed := answer.Ok? && answer.value;
      loading := false;
      inFlight := None;
    }
  }
}

=== FILE: product_grid.dfy ===
/**
 * app/browse/product-grid.tsx: the browse page's `getProducts` fetches up to
 * 50 approved products matching an optional search text and sorts them in
 * place, the owners' tier first and then by boost. Products with equal
 * boosts keep the order the query returned. A product shows the
 * "featured" badge when its boost reaches the owners' tier.
 */
module ProductGrid {
  import opened Common
  import opened Database
  import opened Catalogue
  import opened Sorting

  const OwnerBoost := 1000

  /** `where.OR` is set only for a truthy search text. */
  predicate Matches(searchQuery: Option<string>, l: Listing)
  {
    l.product.status == Approved && (Truthy(searchQuery) ==> MatchesText(l.product, searchQuery.value))
  }

  /**
   * The comparator passed to `products.sort`: negative exactly when `a`
   * has the higher boost, zero exactly at equal boosts; no tie-break after
   * the boost.
   */
  function GridCompare(a: Listing, b: Listing): (c: int)
    ensures c < 0 <==> Boost(a) > Boost(b)
    ensures c == 0 <==> Boost(a) == Boost(b)
    ensures Boost(a) >= OwnerBoost && Boost(b) < OwnerBoost ==> c < 0
  {
    var aBoost := Boost(a);
    var bBoost := Boost(b);
    if aBoost >= OwnerBoost && bBoost < OwnerBoost then -1
    else if aBoost < OwnerBoost && bBoost >= OwnerBoost then 1
    else bBoost - aBoost
  }

  function GridRank(l: Listing): Rank
  {
    Rank(Boost(l), 0)
  }

  /** The comparator orders by boost alone, highest first. */
  lemma GridCompareRanks()
    ensures RankedBy(GridCompare, GridRank)
  {
  }

  /** The rows fetched: at most 50 matching ones, in the query's order. */
  function Fetched(t: Tables, order: seq<nat>, searchQuery: Option<string>): seq<Listing>
    requires IsOrdering(t, order)
  {
    FindMany(Rows(t, order), l => Matches(searchQuery, l), 50)
  }

  /** What `getProducts` returns: the fetched rows, no more than the query took. */
  function Products(t: Tables, order: seq<nat>, searchQuery: Option<string>): (r: seq<Listing>)
    requires IsOrdering(t, order)
    ensures |r| == |Fetched(t, order, searchQuery)| <= 50
  {
    InsertionSort(Fetched(t, order, searchQuery), GridCompare)
  }

  /**
   * Listings of the store's approved products matching the text, at most
   * 50, exactly the fetched rows rearranged, the owners' tier first,
   * boosts not increasing, and products with equal boosts in the order the
   * query returned them.
   */
  lemma {:induction false} ProductsRanking(t: Tables, order: seq<nat>, searchQuery: Option<string>)
    requires IsOrdering(t, order)
    ensures var r := Products(t, order, searchQuery);
      && |r| <= 50
      && multiset(r) == multiset(Fetched(t, order, searchQuery))
      && (forall k :: 0 <= k < |r| ==> r[k].id < |t.products| && r[k] == ListingOf(t, r[k].id))
      && (forall k :: 0 <= k < |r| ==> Matches(searchQuery, r[k]))
      && (forall i, j :: 0 <= i < j < |r| && Boost(r[j]) >= OwnerBoost ==> Boost(r[i]) >= OwnerBoost)
      && (forall i, j :: 0 <= i < j < |r| ==> Boost(r[i]) >= Boost(r[j]))
      && (forall x :: Tied(r, x, GridCompare) == Tied(Fetched(t, order, searchQuery), x, GridCompare))
  {
    var f := Fetched(t, order, searchQuery);
    var r := Products(t, order, searchQuery);
    SortPermutes(f, GridCompare);
    RearrangedFromStore(t, order, l => Matches(searchQuery, l), 50, r);
    GridCompareRanks();
    SortIsSorted(f, GridCompare, GridRank);
    forall x {
      SortIsStable(f, x, GridCompare, GridRank);
    }
  }

  /** Unless the 50-row limit was reached, every approved product matching the text is shown. */
  lemma {:induction false} GridShowsEveryMatch(t: Tables, order: seq<nat>, searchQuery: Option<string>, id: nat)
    requires IsOrdering(t, order)
    requires id < |t.products| && Matches(searchQuery, ListingOf(t, id))
    ensures var r := Products(t, order, searchQuery);
      |r| == 50 || ListingOf(t, id) in r
  {
    var f := Fetched(t, order, searchQuery);
    FindManyFromStore(t, order, l => Matches(searchQuery, l), 50);
    SortPermutes(f, GridCompare);
    if |f| != 50 {
      assert ListingOf(t, id) in f;
      assert ListingOf(t, id) in multiset(f);
    }
  }

  /** The rows tied with `x` under the grid comparator are those of equal boost. */
  lemma {:induction false} TiedMeansEqualBoost(s: seq<Listing>, x: Listing)
    ensures forall k :: 0 <= k < |Tied(s, x, GridCompare)| ==> Boost(Tied(s, x, GridCompare)[k]) == Boost(x)
    decreases |s|
  {
    if s != [] {
      TiedMeansEqualBoost(s[1..], x);
    }
  }

  /**
   * `product.boostScore && product.boostScore.score >= 1000`: the badge
   * marks exactly the owners' tier, the one the sort puts first.
   */
  function Featured(l: Listing): (b: bool)
    ensures b <==> Boost(l) >= OwnerBoost
  {
    l.boostScore.Some? && l.boostScore.value >= OwnerBoost
  }

  /** `getProducts`: the query reads the store, then the fetched array is sorted in place. */
  method GetProducts(db: Db, order: seq<nat>, searchQuery: Option<string>) returns (products: seq<Listing>)
    requires IsOrdering(db.Snapshot(), order)
    ensures products == Products(db.Snapshot(), order, searchQuery)
  {
    ghost var t := db.Snapshot();
    var fetched := Fetched(db.Snapshot(), order, searchQuery);
    var a := new Listing[|fetched|](k requires 0 <= k < |fetched| => fetched[k]);
    assert a[..] == fetched;
    SortInPlace(a, GridCompare);
    products := a[..];
    assert db.Snapshot() == t;
  }
}

=== FILE: products_route.dfy ===
/**
 * app/api/products/route.ts: sellers and admins create products; anyone
 * lists them. Creation derives the slug from the title, refuses a taken
 * slug, approves an admin's product at once, attaches the metadata that
 * belongs to the product's type and gives the product a boost row, 1000
 * for the platform owner's products and 0 otherwise. Listing filters by
 * status (APPROVED unless given) and by the optional type, category and
 * seller, and returns at most 50 rows.
 */
module Products {
  import opened Common
  import opened Strings
  import opened Database
  import opened Catalogue
  import Utils

  /** The JSON body; zod's `url()` and `datetime()` format checks are not modelled. */
  datatype ProductInput = ProductInput(
    title: string, description: string, price: real, typeName: string,
    categoryId: Option<string>, thumbnail: Option<string>,
    courseMetadata: Option<Metadata>, eventMetadata: Option<Metadata>, serviceMetadata: Option<Metadata>)

  /** The body: not JSON at all (`request.json()` throws), or a JSON object. */
  datatype CreateBody = NotJson | Json(input: ProductInput)

  datatype CreateResponse = CreateFailed(status: nat, error: string) | Created(productId: nat)

  datatype CreateResult = CreateResult(tables: Tables, response: CreateResponse)

  /** The text standing for zod's issue list in a 400 answer. */
  const SchemaIssues := "Invalid request"

  /** Boost of the platform owner's products. */
  const OwnerBoost := 1000

  /** The session may create products. */
  predicate MayCreate(session: Option<Session>)
  {
    session.Some? && (session.value.role == "SELLER" || session.value.role == "ADMIN")
  }

  /** `productSchema`: non-empty title and description, positive price, a known type. */
  predicate Valid(input: ProductInput)
  {
    |input.title| >= 1 && |input.description| >= 1 && input.price > 0.0 && ParseType(input.typeName).Some?
  }

  /** `sellerProfile?.isOwner` of the creating user. */
  predicate IsOwner(t: Tables, userId: nat)
  {
    userId < |t.users| && t.users[userId].sellerProfile.Some? && t.users[userId].sellerProfile.value.isOwner
  }

  /** `productData`: the row the route creates. */
  function NewProduct(input: ProductInput, session: Session): (p: Product)
    requires Valid(input)
    ensures p.title == input.title && p.description == input.description && p.price == input.price
    ensures TypeName(p.productType) == input.typeName
    ensures Utils.IsSlug(p.slug) && p.slug == Utils.GenerateSlug(input.title)
    ensures p.sellerId == session.userId
    ensures p.status == Approved <==> session.role == "ADMIN"
    ensures p.status == Pending <==> session.role != "ADMIN"
    ensures p.categoryId == input.categoryId && p.thumbnail == input.thumbnail
    ensures p.courseMetadata.Some? <==> p.productType == Course && input.courseMetadata.Some?
    ensures p.eventMetadata.Some? <==> p.productType == Event && input.eventMetadata.Some?
    ensures p.serviceMetadata.Some? <==> p.productType == Service && input.serviceMetadata.Some?
    ensures p.courseMetadata.Some? ==> p.courseMetadata == input.courseMetadata
    ensures p.eventMetadata.Some? ==> p.eventMetadata == input.eventMetadata
    ensures p.serviceMetadata.Some? ==> p.serviceMetadata == input.serviceMetadata
  {
    var kind := ParseType(input.typeName).value;
    Product(input.title, Utils.GenerateSlug(input.title), input.description, input.price, kind,
            session.userId, if session.role == "ADMIN" then Approved else Pending,
            input.categoryId, input.thumbnail,
            if kind == Course then input.courseMetadata else None,
            if kind == Event then input.eventMetadata else None,
            if kind == Service then input.serviceMetadata else None)
  }

  /** The boost row of the new product. */
  function NewBoost(t: Tables, productId: nat, userId: nat): (b: BoostScore)
    ensures b.productId == productId
    ensures b.score == OwnerBoost <==> IsOwner(t, userId)
    ensures b.score == 0 <==> !IsOwner(t, userId)
    ensures b.ownerId.Some? <==> IsOwner(t, userId)
    ensures b.ownerId.Some? ==> b.ownerId.value == userId
  {
    if IsOwner(t, userId) then BoostScore(productId, OwnerBoost, Some(userId))
    else BoostScore(productId, 0, None)
  }

  /** Every check passes and the product is created. */
  predicate Creates(t: Tables, session: Option<Session>, body: CreateBody)
  {
    && MayCreate(session) && body.Json? && Valid(body.input)
    && !SlugTaken(t.products, Utils.GenerateSlug(body.input.title))
    && session.value.userId < |t.users|
  }

  function Create(t: Tables, session: Option<Session>, body: CreateBody): (r: CreateResult)
    ensures !MayCreate(session) ==> r == CreateResult(t, CreateFailed(401, "Unauthorized"))
    // a body that is not JSON is caught as a failure; one the schema refuses gets the issue list
    ensures MayCreate(session) && body.NotJson? ==> r == CreateResult(t, CreateFailed(500, "Failed to create product"))
    ensures MayCreate(session) && body.Json? && !Valid(body.input) ==> r == CreateResult(t, CreateFailed(400, SchemaIssues))
    // the seller is a required relation: creating for an unknown user throws and is caught
    ensures MayCreate(session) && body.Json? && Valid(body.input)
              && !SlugTaken(t.products, Utils.GenerateSlug(body.input.title)) && session.value.userId >= |t.users|
            ==> r == CreateResult(t, CreateFailed(500, "Failed to create product"))
    ensures MayCreate(session) && body.Json? && Valid(body.input)
              && SlugTaken(t.products, Utils.GenerateSlug(body.input.title))
            ==> r == CreateResult(t, CreateFailed(400, "Product with this title already exists"))
    ensures r.response.Created? <==> Creates(t, session, body)
    ensures !Creates(t, session, body) ==> r.tables == t
    ensures Creates(t, session, body) ==>
              && r.response.productId == |t.products|
              && r.tables == t.(products := t.products + [NewProduct(body.input, session.value)],
                                boosts := t.boosts + [NewBoost(t, |t.products|, session.value.userId)])
  {
    if !MayCreate(session) then CreateResult(t, CreateFailed(401, "Unauthorized"))
    else if body.NotJson? then CreateResult(t, CreateFailed(500, "Failed to create product"))
    else if !Valid(body.input) then CreateResult(t, CreateFailed(400, SchemaIssues))
    else
      var slug := Utils.GenerateSlug(body.input.title);
      if SlugTaken(t.products, slug) then
        CreateResult(t, CreateFailed(400, "Product with this title already exists"))
      // the seller is a required relation: creating for an unknown user fails
      else if session.value.userId >= |t.users| then
        CreateResult(t, CreateFailed(500, "Failed to create product"))
      else
        var id := |t.products|;
        var t1 := t.(products := t.products + [NewProduct(body.input, session.value)]);
        CreateResult(t1.(boosts := t.boosts + [NewBoost(t, id, session.value.userId)]), Created(id))
  }

  /** Creation keeps slugs unique, so the slug identifies the product. */
  lemma {:induction false} CreateKeepsSlugsUnique(t: Tables, session: Option<Session>, body: CreateBody)
    requires UniqueSlugs(t.products)
    ensures UniqueSlugs(Create(t, session, body).tables.products)
  {
    if Creates(t, session, body) {
      var ps := Create(t, session, body).tables.products;
      var n := |t.products|;
      forall i, j | 0 <= i < j < |ps|
        ensures ps[i].slug != ps[j].slug
      {
        if j == n {
          assert ps[i] == t.products[i];
          assert ps[j].slug == Utils.GenerateSlug(body.input.title);
        } else {
          assert ps[i] == t.products[i] && ps[j] == t.products[j];
        }
      }
    }
  }

  /**
   * Titles with the same slug cannot both be created: once a product is
   * created, any later request whose title gives the same slug is refused.
   */
  lemma {:induction false} SameSlugRefused(t: Tables, s1: Option<Session>, b1: CreateBody,
                                           s2: Option<Session>, b2: CreateBody)
    requires Creates(t, s1, b1)
    requires MayCreate(s2) && b2.Json? && Valid(b2.input)
    requires Utils.GenerateSlug(b2.input.title) == Utils.GenerateSlug(b1.input.title)
    ensures Create(Create(t, s1, b1).tables, s2, b2).response
            == CreateFailed(400, "Product with this title already exists")
  {
    var t1 := Create(t, s1, b1).tables;
    var slug := Utils.GenerateSlug(b1.input.title);
    assert t1.products == t.products + [NewProduct(b1.input, s1.value)];
    assert t1.products[|t.products|].slug == slug;
    assert SlugTaken(t1.products, slug);
  }

  /** `POST /api/products` against the store. */
  method Post(db: Db, session: Option<Session>, body: CreateBody) returns (response: CreateResponse)
    modifies db
    ensures var r := Create(old(db.Snapshot()), session, body);
      db.Snapshot() == r.tables && response == r.response
  {
    ghost var t := db.Snapshot();
    if !MayCreate(session) {
      return CreateFailed(401, "Unauthorized");
    }
    if body.NotJson? {
      return CreateFailed(500, "Failed to create product");
    }
    if !Valid(body.input) {
      return CreateFailed(400, SchemaIssues);
    }
    var slug := Utils.GenerateSlug(body.input.title);
    if SlugTaken(db.products, slug) {
      return CreateFailed(400, "Product with this title already exists");
    }
    if session.value.userId >= |db.users| {
      return CreateFailed(500, "Failed to create product");
    }
    var owner := IsOwner(db.Snapshot(), session.value.userId);
    var id := |db.products|;
    db.products := db.products + [NewProduct(body.input, session.value)];
    var boost := if owner then BoostScore(id, OwnerBoost, Some(session.value.userId)) else BoostScore(id, 0, None);
    db.boosts := db.boosts + [boost];
    response := Created(id);
    assert boost == NewBoost(t, id, session.value.userId);
    assert Creates(t, session, body);
  }

  // ---------------------------------------------------------------------
  // Listing
  // ---------------------------------------------------------------------

  /** The `where` of the listing: a status, and the other filters when given. */
  datatype ListWhere = ListWhere(status: string, productType: Option<string>, categoryId: Option<string>,
                                 sellerId: Option<string>)

  datatype ListResponse = Listed(products: seq<Listing>) | ListFailed

  /** `status || 'APPROVED'`; `type`, `categoryId` and `sellerId` only when truthy. */
  function BuildWhere(status: Option<string>, productType: Option<string>, categoryId: Option<string>,
                      sellerId: Option<string>): (w: ListWhere)
    ensures Truthy(status) ==> w.status == status.value
    ensures !Truthy(status) ==> w.status == "APPROVED"
    ensures w.productType.Some? <==> Truthy(productType)
    ensures w.categoryId.Some? <==> Truthy(categoryId)
    ensures w.sellerId.Some? <==> Truthy(sellerId)
    ensures w.productType.Some? ==> w.productType == productType
    ensures w.categoryId.Some? ==> w.categoryId == categoryId
    ensures w.sellerId.Some? ==> w.sellerId == sellerId
  {
    ListWhere(OrElse(status, "APPROVED"),
              if Truthy(productType) then productType else None,
              if Truthy(categoryId) then categoryId else None,
              if Truthy(sellerId) then sellerId else None)
  }

  /** A row passes every filter of `w`; ids are compared as the strings they are. */
  predicate ListMatches(w: ListWhere, l: Listing)
  {
    && StatusName(l.product.status) == w.status
    && (w.productType.Some? ==> TypeName(l.product.productType) == w.productType.value)
    && (w.categoryId.Some? ==> l.product.categoryId == w.categoryId)
    && (w.sellerId.Some? ==> NatToString(l.product.sellerId) == w.sellerId.value)
  }

  /**
   * `GET /api/products`: a status or type outside its enum fails the
   * query; otherwise the first 50 matching rows in the query's order.
   */
  function List(t: Tables, order: seq<nat>, status: Option<string>, productType: Option<string>,
                categoryId: Option<string>, sellerId: Option<string>): (r: ListResponse)
    requires IsOrdering(t, order)
    ensures r.ListFailed? <==> ParseStatus(OrElse(status, "APPROVED")).None?
                               || (Truthy(productType) && ParseType(productType.value).None?)
  {
    var w := BuildWhere(status, productType, categoryId, sellerId);
    if ParseStatus(w.status).None? then ListFailed
    else if w.productType.Some? && ParseType(w.productType.value).None? then ListFailed
    else Listed(FindMany(Rows(t, order), l => ListMatches(w, l), 50))
  }

  /**
   * A listing holds at most 50 listings of the store's products, all with
   * the requested status (APPROVED when none is given) and passing every
   * supplied filter; unless 50 came back, every product of the store that
   * passes the filters is there.
   */
  lemma {:induction false} ListShowsRequested(t: Tables, order: seq<nat>, status: Option<string>,
                                              productType: Option<string>, categoryId: Option<string>,
                                              sellerId: Option<string>)
    requires IsOrdering(t, order)
    requires List(t, order, status, productType, categoryId, sellerId).Listed?
    ensures var r := List(t, order, status, productType, categoryId, sellerId).products;
      && |r| <= 50
      && (forall k :: 0 <= k < |r| ==> r[k].id < |t.products| && r[k] == ListingOf(t, r[k].id))
      && (!Truthy(status) ==> forall k :: 0 <= k < |r| ==> r[k].product.status == Approved)
      && (Truthy(status) ==> forall k :: 0 <= k < |r| ==> StatusName(r[k].product.status) == status.value)
      && (Truthy(productType) ==> forall k :: 0 <= k < |r| ==> TypeName(r[k].product.productType) == productType.value)
      && (Truthy(categoryId) ==> forall k :: 0 <= k < |r| ==> r[k].product.categoryId == categoryId)
      && (Truthy(sellerId) ==> forall k :: 0 <= k < |r| ==> NatToString(r[k].product.sellerId) == sellerId.value)
      && (|r| == 50 || forall id :: 0 <= id < |t.products|
                         && ListMatches(BuildWhere(status, productType, categoryId, sellerId), ListingOf(t, id))
                         ==> ListingOf(t, id) in r)
  {
    var w := BuildWhere(status, productType, categoryId, sellerId);
    var r := FindMany(Rows(t, order), l => ListMatches(w, l), 50);
    FindManyFromStore(t, order, l => ListMatches(w, l), 50);
    if !Truthy(status) {
      forall k | 0 <= k < |r|
        ensures r[k].product.status == Approved
      {
        assert StatusName(r[k].product.status) == "APPROVED";
      }
    }
  }
}

=== FILE: s3.dfy ===
/**
 * lib/s3.ts: the object key of an upload and the public URL of a key. The
 * clock reading of `generateS3Key` is a parameter; signing URLs is foreign
 * and left to the caller.
 */
module S3 {
  import opened Common
  import opened Strings

  /** The characters a file name keeps: `[a-zA-Z0-9.-]`. */
  predicate IsKeyChar(c: char)
  {
    IsAsciiLetter(c) || IsDigit(c) || c == '.' || c == '-'
  }

  /**
   * JavaScript strings are UTF-16: a character beyond the Basic
   * Multilingual Plane is a surrogate pair, two code units.
   */
  function Utf16Units(c: char): nat
  {
    if c as int >= 0x1_0000 then 2 else 1
  }

  /** `length` of a JavaScript string: its number of UTF-16 code units. */
  function Utf16Length(s: string): (n: nat)
    ensures n >= |s|
  {
    if s == [] then 0 else Utf16Units(s[0]) + Utf16Length(s[1..])
  }

  /**
   * `replace(/[^a-zA-Z0-9.-]/g, '_')`. The pattern has no `u` flag, so it
   * matches code units: a key character stays, any other character becomes
   * one underscore per code unit, two for a surrogate pair.
   */
  function Sanitize(fileName: string): (r: string)
    ensures |r| == Utf16Length(fileName)
    ensures forall i :: 0 <= i < |r| ==> IsKeyChar(r[i]) || r[i] == '_'
  {
    if fileName == [] then []
    else
      var head := if IsKeyChar(fileName[0]) then [fileName[0]] else if Utf16Units(fileName[0]) == 2 then "__" else "_";
      head + Sanitize(fileName[1..])
  }

  /**
   * For a name within the Basic Multilingual Plane, code units and
   * characters coincide: each character is kept or becomes one underscore
   * in its place.
   */
  lemma {:induction false} SanitizeInPlace(fileName: string)
    requires forall i :: 0 <= i < |fileName| ==> Utf16Units(fileName[i]) == 1
    ensures |Sanitize(fileName)| == |fileName|
    ensures forall i :: 0 <= i < |fileName| ==>
              Sanitize(fileName)[i] == (if IsKeyChar(fileName[i]) then fileName[i] else '_')
  {
    if fileName != [] {
      SanitizeInPlace(fileName[1..]);
      var r := Sanitize(fileName);
      assert r == [r[0]] + Sanitize(fileName[1..]);
      forall i | 0 < i < |fileName|
        ensures r[i] == (if IsKeyChar(fileName[i]) then fileName[i] else '_')
      {
        assert fileName[i] == fileName[1..][i - 1];
      }
    }
  }

  /** An astral character, an emoji say, becomes two underscores: `😀.png` gives `__.png`. */
  lemma {:induction false} AstralCharacterGivesTwoUnderscores(name: string)
    requires forall i :: 0 <= i < |name| ==> IsKeyChar(name[i])
    ensures Sanitize("\U{1F600}" + name) == "__" + name
  {
    KeyTextUnchanged(name);
    assert ("\U{1F600}" + name)[1..] == name;
  }

  /** A text of key characters and underscores is left as it is. */
  lemma {:induction false} KeyTextUnchanged(s: string)
    requires forall i :: 0 <= i < |s| ==> IsKeyChar(s[i]) || s[i] == '_'
    ensures Sanitize(s) == s
  {
    if s != [] {
      KeyTextUnchanged(s[1..]);
      assert s == [s[0]] + s[1..];
    }
  }

  /** A sanitized name holds only `[a-zA-Z0-9._-]`, so in particular no slash. */
  lemma SanitizedCharacters(fileName: string)
    ensures forall i :: 0 <= i < |Sanitize(fileName)| ==> IsKeyChar(Sanitize(fileName)[i]) || Sanitize(fileName)[i] == '_'
    ensures Free(Sanitize(fileName), '/')
  {
  }

  /** Sanitizing a sanitized name changes nothing. */
  lemma {:induction false} SanitizeIdempotent(fileName: string)
    ensures Sanitize(Sanitize(fileName)) == Sanitize(fileName)
  {
    KeyTextUnchanged(Sanitize(fileName));
  }

  /** The last segment of a key: the time stamp, a dash and the sanitized name. */
  function FileSegment(fileName: string, timestamp: nat): string
  {
    NatToString(timestamp) + "-" + Sanitize(fileName)
  }

  /** `generateS3Key`: `uploads/{userId}/{productId}/{timestamp}-{name}`; the ids go in unchanged. */
  function GenerateS3Key(userId: string, productId: string, fileName: string, timestamp: nat): (key: string)
    ensures StartsWith(key, "uploads/")
  {
    "uploads/" + userId + "/" + productId + "/" + FileSegment(fileName, timestamp)
  }

  /**
   * The key can be taken apart again: when neither id holds a slash,
   * splitting the key on `/` gives back the prefix, the two ids and the
   * file segment.
   */
  lemma {:induction false} KeySegments(userId: string, productId: string, fileName: string, timestamp: nat)
    requires Free(userId, '/') && Free(productId, '/')
    ensures Split(GenerateS3Key(userId, productId, fileName, timestamp), "/")
            == ["uploads", userId, productId, FileSegment(fileName, timestamp)]
  {
    var seg := FileSegment(fileName, timestamp);
    var parts := ["uploads", userId, productId, seg];
    var digits := NatToString(timestamp);
    SanitizedCharacters(fileName);
    assert Free(seg, '/') by {
      forall i | 0 <= i < |seg|
        ensures seg[i] != '/'
      {
        if i < |digits| {
          assert seg[i] == digits[i];
        } else if i > |digits| {
          assert seg[i] == Sanitize(fileName)[i - |digits| - 1];
        }
      }
    }
    assert Join(parts, "/") == GenerateS3Key(userId, productId, fileName, timestamp) by {
      assert parts[1..] == [userId, productId, seg];
      assert parts[1..][1..] == [productId, seg];
      assert parts[1..][1..][1..] == [seg];
      assert Join([productId, seg], "/") == productId + "/" + seg;
      assert Join([userId, productId, seg], "/") == userId + "/" + (productId + "/" + seg);
    }
    SplitJoin(parts, "/");
  }

  /** `getFileUrl`: interpolates the bucket and region variables, `undefined` when unset. */
  function GetFileUrl(bucket: Option<string>, region: Option<string>, key: string): (url: string)
    ensures StartsWith(url, "https://")
  {
    "https://" + EnvText(bucket) + ".s3." + EnvText(region) + ".amazonaws.com/" + key
  }

  /** The key is the tail of its URL: the URL names exactly the object stored under the key. */
  lemma FileUrlEndsWithKey(bucket: Option<string>, region: Option<string>, key: string)
    ensures var url := GetFileUrl(bucket, region, key);
      |url| >= |key| && url[|url| - |key|..] == key
  {
  }

  /**
   * Unlike the client, which falls back to `us-east-1`, the URL takes the
   * region variable as it is: with no region set it names the host
   * `s3.undefined.amazonaws.com`.
   */
  lemma UnsetRegionInUrl(bucket: string, key: string)
    ensures GetFileUrl(Some(bucket), None, key) == "https://" + bucket + ".s3.undefined.amazonaws.com/" + key
  {
  }
}

=== FILE: search_route.dfy ===
/**
 * app/api/search/route.ts: approved products matching an optional text,
 * type and category, fetched up to 100 and then ranked in place: the
 * owners' tier (boost of at least 1000) first, then by boost, then by
 * number of sales.
 */
module Search {
  import opened Common
  import opened Strings
  import opened Database
  import opened Catalogue
  import opened Sorting

  /** The filter the route builds from its query parameters. */
  datatype SearchWhere = SearchWhere(text: Option<string>, productType: Option<string>, categoryId: Option<string>)

  datatype SearchResponse = Found(products: seq<Listing>) | SearchFailed

  /** Boost of the owners' tier. */
  const OwnerBoost := 1000

  /** Only truthy parameters become filters; `q` defaults to the empty string, which filters nothing. */
  function BuildWhere(q: Option<string>, productType: Option<string>, categoryId: Option<string>): (w: SearchWhere)
    ensures w.text.Some? <==> Truthy(q)
    ensures w.productType.Some? <==> Truthy(productType)
    ensures w.categoryId.Some? <==> Truthy(categoryId)
    ensures w.text.Some? ==> w.text == q
    ensures w.productType.Some? ==> w.productType == productType
    ensures w.categoryId.Some? ==> w.categoryId == categoryId
  {
    SearchWhere(if Truthy(q) then q else None,
                if Truthy(productType) then productType else None,
                if Truthy(categoryId) then categoryId else None)
  }

  /** A row passes the filter: APPROVED, and every present filter holds. */
  predicate Matches(w: SearchWhere, l: Listing)
  {
    && l.product.status == Approved
    && (w.text.Some? ==> MatchesText(l.product, w.text.value))
    && (w.productType.Some? ==> TypeName(l.product.productType) == w.productType.value)
    && (w.categoryId.Some? ==> l.product.categoryId == w.categoryId)
  }

  /**
   * The comparator passed to `products.sort`: negative exactly when `a`
   * ranks first, by a higher boost or, at equal boosts, by more sales, and
   * zero exactly when both agree.
   */
  function SearchCompare(a: Listing, b: Listing): (c: int)
    ensures c < 0 <==> Boost(a) > Boost(b) || (Boost(a) == Boost(b) && a.txCount > b.txCount)
    ensures c == 0 <==> Boost(a) == Boost(b) && a.txCount == b.txCount
    ensures Boost(a) >= OwnerBoost && Boost(b) < OwnerBoost ==> c < 0
  {
    var aBoost := Boost(a);
    var bBoost := Boost(b);
    if aBoost >= OwnerBoost && bBoost < OwnerBoost then -1
    else if aBoost < OwnerBoost && bBoost >= OwnerBoost then 1
    else if aBoost != bBoost then bBoost - aBoost
    else b.txCount - a.txCount
  }

  /** What the comparator ranks by: the boost, then the number of sales. */
  function SearchRank(l: Listing): Rank
  {
    Rank(Boost(l), l.txCount)
  }

  /**
   * The comparator is consistent: it orders by boost, highest first, and
   * by sales among equal boosts. The tier test agrees with that order, so
   * it never contradicts the boost comparison.
   */
  lemma SearchCompareRanks()
    ensures RankedBy(SearchCompare, SearchRank)
  {
  }

  /** The rows fetched for the given parameters: at most 100 matching ones, in the query's order. */
  function Fetched(t: Tables, order: seq<nat>, w: SearchWhere): seq<Listing>
    requires IsOrdering(t, order)
  {
    FindMany(Rows(t, order), l => Matches(w, l), 100)
  }

  /** The route: an unknown type name fails the query, otherwise the fetched rows ranked. */
  function SearchSpec(t: Tables, order: seq<nat>, q: Option<string>, productType: Option<string>,
                      categoryId: Option<string>): (r: SearchResponse)
    requires IsOrdering(t, order)
    ensures r.SearchFailed? <==> Truthy(productType) && ParseType(productType.value).None?
  {
    if Truthy(productType) && ParseType(productType.value).None? then SearchFailed
    else Found(InsertionSort(Fetched(t, order, BuildWhere(q, productType, categoryId)), SearchCompare))
  }

  /**
   * What a search returns: listings of the store's approved products, at
   * most 100, matching the text in the title or the description, and
   * exactly the fetched rows rearranged.
   */
  lemma {:induction false} SearchResults(t: Tables, order: seq<nat>, q: Option<string>, productType: Option<string>,
                                         categoryId: Option<string>)
    requires IsOrdering(t, order)
    requires SearchSpec(t, order, q, productType, categoryId).Found?
    ensures var r := SearchSpec(t, order, q, productType, categoryId).products;
      && |r| <= 100
      && multiset(r) == multiset(Fetched(t, order, BuildWhere(q, productType, categoryId)))
      && (forall k :: 0 <= k < |r| ==> r[k].id < |t.products| && r[k] == ListingOf(t, r[k].id))
      && (forall k :: 0 <= k < |r| ==> r[k].product.status == Approved)
      && (Truthy(q) ==> forall k :: 0 <= k < |r| ==> MatchesText(r[k].product, q.value))
  {
    var w := BuildWhere(q, productType, categoryId);
    var f := Fetched(t, order, w);
    SortPermutes(f, SearchCompare);
    var r := InsertionSort(f, SearchCompare);
    RearrangedFromStore(t, order, l => Matches(w, l), 100, r);
    assert forall k :: 0 <= k < |r| ==> Matches(w, r[k]);
  }

  /**
   * Nothing that passes the filter is missed: unless the 100-row limit
   * was reached, every product of the store that passes is in the answer.
   */
  lemma {:induction false} SearchFindsEveryMatch(t: Tables, order: seq<nat>, q: Option<string>,
                                                 productType: Option<string>, categoryId: Option<string>, id: nat)
    requires IsOrdering(t, order)
    requires SearchSpec(t, order, q, productType, categoryId).Found?
    requires id < |t.products| && Matches(BuildWhere(q, productType, categoryId), ListingOf(t, id))
    ensures var r := SearchSpec(t, order, q, productType, categoryId).products;
      |r| == 100 || ListingOf(t, id) in r
  {
    var w := BuildWhere(q, productType, categoryId);
    var f := Fetched(t, order, w);
    FindManyFromStore(t, order, l => Matches(w, l), 100);
    SortPermutes(f, SearchCompare);
    if |f| != 100 {
      assert ListingOf(t, id) in f;
      assert ListingOf(t, id) in multiset(f);
    }
  }

  /**
   * The ranking: the owners' tier comes first, then higher boosts, then
   * more sales; products ranked equal keep the order the query returned.
   */
  lemma {:induction false} SearchRanking(t: Tables, order: seq<nat>, q: Option<string>, productType: Option<string>,
                                         categoryId: Option<string>)
    requires IsOrdering(t, order)
    requires SearchSpec(t, order, q, productType, categoryId).Found?
    ensures var r := SearchSpec(t, order, q, productType, categoryId).products;
      && (forall i, j :: 0 <= i < j < |r| && Boost(r[j]) >= OwnerBoost ==> Boost(r[i]) >= OwnerBoost)
      && (forall i, j :: 0 <= i < j < |r| ==> Boost(r[i]) >= Boost(r[j]))
      && (forall i, j :: 0 <= i < j < |r| && Boost(r[i]) == Boost(r[j]) ==> r[i].txCount >= r[j].txCount)
      && (forall x :: Tied(r, x, SearchCompare)
                      == Tied(Fetched(t, order, BuildWhere(q, productType, categoryId)), x, SearchCompare))
  {
    var f := Fetched(t, order, BuildWhere(q, productType, categoryId));
    SearchCompareRanks();
    SortIsSorted(f, SearchCompare, SearchRank);
    forall x {
      SortIsStable(f, x, SearchCompare, SearchRank);
    }
  }

  /** `GET /api/search`: the query reads the store, and the fetched rows are sorted in place. */
  method Get(db: Db, order: seq<nat>, q: Option<string>, productType: Option<string>, categoryId: Option<string>)
    returns (response: SearchResponse)
    requires IsOrdering(db.Snapshot(), order)
    ensures response == SearchSpec(db.Snapshot(), order, q, productType, categoryId)
  {
    if Truthy(productType) && ParseType(productType.value).None? {
      return SearchFailed;
    }
    var fetched := Fetched(db.Snapshot(), order, BuildWhere(q, productType, categoryId));
    var a := new Listing[|fetched|](k requires 0 <= k < |fetched| => fetched[k]);
    assert a[..] == fetched;
    SortInPlace(a, SearchCompare);
    response := Found(a[..]);
  }
}

=== FILE: site_header.dfy ===
/**
 * components/site-header.tsx: the sticky header hides itself while the
 * page scrolls down past 100 pixels and shows itself again near the top or
 * as soon as the page scrolls up; its mobile menu opens and closes on a
 * button. The scroll position is a real number of pixels.
 */
module SiteHeader {

  /** The header's visibility after a scroll event at `current`, having been at `last`. */
  function NextVisible(visible: bool, last: real, current: real): (v: bool)
    ensures current < 10.0 ==> v
    ensures 10.0 <= current && current > last && current > 100.0 ==> !v
    ensures 10.0 <= current && current < last ==> v
    ensures 10.0 <= current && current == last ==> v == visible
    ensures 10.0 <= current && last < current <= 100.0 ==> v == visible
  {
    if current < 10.0 then true
    else if current > last && current > 100.0 then false
    else if current < last then true
    else visible
  }

  /** The header only becomes hidden on a downward scroll past 100 pixels. */
  lemma HidesOnlyScrollingDownFar(visible: bool, last: real, current: real)
    ensures visible && !NextVisible(visible, last, current) ==> current > last && current > 100.0
  {
  }

  /** Once hidden, it stays hidden until the page scrolls up or gets within 10 pixels of the top. */
  lemma StaysHiddenUntilUpOrTop(last: real, current: real)
    ensures !NextVisible(false, last, current) <==> current >= 10.0 && current >= last
  {
  }

  /** The header component's state. */
  class Header {
    var isOpen: bool
    var isVisible: bool
    var lastScrollY: real

    /** A hidden header was last seen at least 10 pixels down. */
    predicate Valid()
      reads this
    {
      !isVisible ==> lastScrollY >= 10.0
    }

    constructor ()
      ensures Valid()
      ensures !isOpen && isVisible && lastScrollY == 0.0
    {
      isOpen := false;
      isVisible := true;
      lastScrollY := 0.0;
    }

    /** `handleScroll`: update the visibility, then remember the position. */
    method HandleScroll(currentScrollY: real)
      requires Valid()
      modifies this
      ensures Valid()
      ensures isVisible == NextVisible(old(isVisible), old(lastScrollY), currentScrollY)
      ensures lastScrollY == currentScrollY
      ensures isOpen == old(isOpen)
    {
      if currentScrollY < 10.0 {
        isVisible := true;
      } else if currentScrollY > lastScrollY && currentScrollY > 100.0 {
        isVisible := false;
      } else if currentScrollY < lastScrollY {
        isVisible := true;
      }
      lastScrollY := currentScrollY;
    }

    /** `toggleMenu`. */
    method ToggleMenu()
      modifies this
      ensures isOpen == !old(isOpen)
      ensures isVisible == old(isVisible) && lastScrollY == old(lastScrollY)
    {
      isOpen := !isOpen;
    }

    /** A menu link: `setIsOpen(false)`. */
    method CloseMenu()
      modifies this
      ensures !isOpen
      ensures isVisible == old(isVisible) && lastScrollY == old(lastScrollY)
    {
      isOpen := false;
    }
  }

  /** Opening and closing the menu brings the header back to where it was. */
  method ToggleTwice(h: Header)
    modifies h
    ensures h.isOpen == old(h.isOpen)
    ensures h.isVisible == old(h.isVisible) && h.lastScrollY == old(h.lastScrollY)
  {
    h.ToggleMenu();
    h.ToggleMenu();
  }
}

=== FILE: sorting.dfy ===
/**
 * `Array.prototype.sort` with a comparator, as the catalogue routes use it.
 * The engine's sort is stable, so it is modelled by a stable insertion
 * sort: the function `InsertionSort` is the specification, `SortInPlace`
 * the in-place algorithm proved to produce it, and the lemmas say what the
 * result is: a permutation, in comparator order, with tied elements kept in
 * their original order.
 */
module Sorting {

  /** A rank with a major and a minor component; a higher rank comes first. */
  datatype Rank = Rank(major: int, minor: int)

  predicate Ahead(r1: Rank, r2: Rank)
  {
    r1.major > r2.major || (r1.major == r2.major && r1.minor > r2.minor)
  }

  /**
   * `cmp` orders by `rank`, highest first: negative when the first argument
   * ranks higher, zero on equal ranks. Every comparator of the catalogue is
   * of this kind.
   */
  ghost predicate RankedBy<T(!new)>(cmp: (T, T) -> int, rank: T -> Rank)
  {
    forall a, b :: (cmp(a, b) < 0 <==> Ahead(rank(a), rank(b))) && (cmp(a, b) == 0 <==> rank(a) == rank(b))
  }

  ghost predicate Sorted<T>(s: seq<T>, cmp: (T, T) -> int)
  {
    forall i, j :: 0 <= i < j < |s| ==> cmp(s[i], s[j]) <= 0
  }

  /** The elements of `s` that the comparator ties with `x`, in their order in `s`. */
  function Tied<T>(s: seq<T>, x: T, cmp: (T, T) -> int): seq<T>
  {
    if s == [] then []
    else (if cmp(s[0], x) == 0 then [s[0]] else []) + Tied(s[1..], x, cmp)
  }

  /** The first position whose element `x` must precede; `|s|` if none. */
  function FirstAfter<T>(s: seq<T>, x: T, cmp: (T, T) -> int): (p: nat)
    ensures p <= |s|
    ensures forall k :: 0 <= k < p ==> cmp(x, s[k]) >= 0
    ensures p < |s| ==> cmp(x, s[p]) < 0
  {
    if s == [] then 0
    else if cmp(x, s[0]) < 0 then 0
    else 1 + FirstAfter(s[1..], x, cmp)
  }

  /** `x` placed after every element it does not precede. */
  function Insert<T>(s: seq<T>, x: T, cmp: (T, T) -> int): (r: seq<T>)
    ensures |r| == |s| + 1
  {
    var p := FirstAfter(s, x, cmp);
    s[..p] + [x] + s[p..]
  }

  /** Stable insertion sort: each element in turn is inserted into the sorted prefix. */
  function InsertionSort<T>(s: seq<T>, cmp: (T, T) -> int): (r: seq<T>)
    ensures |r| == |s|
    decreases |s|
  {
    if s == [] then [] else Insert(InsertionSort(s[..|s| - 1], cmp), s[|s| - 1], cmp)
  }

  /** `FirstAfter` is the only position with its two properties. */
  lemma {:induction false} FirstAfterUnique<T>(s: seq<T>, x: T, cmp: (T, T) -> int, p: nat)
    requires p <= |s|
    requires forall k :: 0 <= k < p ==> cmp(x, s[k]) >= 0
    requires p < |s| ==> cmp(x, s[p]) < 0
    ensures p == FirstAfter(s, x, cmp)
  {
  }

  // ---------------------------------------------------------------------
  // Permutation
  // ---------------------------------------------------------------------

  lemma {:induction false} InsertPermutes<T>(s: seq<T>, x: T, cmp: (T, T) -> int)
    ensures multiset(Insert(s, x, cmp)) == multiset(s) + multiset{x}
  {
    var p := FirstAfter(s, x, cmp);
    assert s == s[..p] + s[p..];
  }

  /** The sort rearranges its input: nothing is lost, duplicated or added. */
  lemma {:induction false} SortPermutes<T>(s: seq<T>, cmp: (T, T) -> int)
    ensures multiset(InsertionSort(s, cmp)) == multiset(s)
    decreases |s|
  {
    if s != [] {
      var init, x := s[..|s| - 1], s[|s| - 1];
      var sorted := InsertionSort(init, cmp);
      calc {
        multiset(InsertionSort(s, cmp));
        multiset(Insert(sorted, x, cmp));
        { InsertPermutes(sorted, x, cmp); }
        multiset(sorted) + multiset{x};
        { SortPermutes(init, cmp); }
        multiset(init) + multiset{x};
        multiset(init + [x]);
        { assert init + [x] == s; }
        multiset(s);
      }
    }
  }

  // ---------------------------------------------------------------------
  // Order
  // ---------------------------------------------------------------------

  /** In a sorted sequence, everything from the insertion point on ranks below `x`. */
  lemma {:induction false} AfterInsertionPoint<T(!new)>(s: seq<T>, x: T, cmp: (T, T) -> int, rank: T -> Rank)
    requires RankedBy(cmp, rank) && Sorted(s, cmp)
    ensures forall k :: FirstAfter(s, x, cmp) <= k < |s| ==> Ahead(rank(x), rank(s[k]))
  {
    var p := FirstAfter(s, x, cmp);
    forall k | p <= k < |s|
      ensures Ahead(rank(x), rank(s[k]))
    {
      assert Ahead(rank(x), rank(s[p]));
      assert cmp(s[p], s[k]) <= 0;
      assert Ahead(rank(s[p]), rank(s[k])) || rank(s[p]) == rank(s[k]);
    }
  }

  lemma {:induction false} InsertKeepsSorted<T(!new)>(s: seq<T>, x: T, cmp: (T, T) -> int, rank: T -> Rank)
    requires RankedBy(cmp, rank) && Sorted(s, cmp)
    ensures Sorted(Insert(s, x, cmp), cmp)
  {
    var p := FirstAfter(s, x, cmp);
    var r := Insert(s, x, cmp);
    AfterInsertionPoint(s, x, cmp, rank);
    forall i, j | 0 <= i < j < |r|
      ensures cmp(r[i], r[j]) <= 0
    {
      if j < p {
        assert cmp(s[i], s[j]) <= 0;
      } else if j == p {
        assert cmp(x, s[i]) >= 0;
      } else if i < p {
        assert r[j] == s[j - 1];
        assert cmp(s[i], s[j - 1]) <= 0;
      } else if i == p {
        assert r[j] == s[j - 1];
      } else {
        assert r[i] == s[i - 1] && r[j] == s[j - 1];
        assert cmp(s[i - 1], s[j - 1]) <= 0;
      }
    }
  }

  /** The result is in comparator order. */
  lemma {:induction false} SortIsSorted<T(!new)>(s: seq<T>, cmp: (T, T) -> int, rank: T -> Rank)
    requires RankedBy(cmp, rank)
    ensures Sorted(InsertionSort(s, cmp), cmp)
    decreases |s|
  {
    if s != [] {
      SortIsSorted(s[..|s| - 1], cmp, rank);
      InsertKeepsSorted(InsertionSort(s[..|s| - 1], cmp), s[|s| - 1], cmp, rank);
    }
  }

  // ---------------------------------------------------------------------
  // Stability
  // ---------------------------------------------------------------------

  lemma {:induction false} TiedConcat<T>(a: seq<T>, b: seq<T>, x: T, cmp: (T, T) -> int)
    ensures Tied(a + b, x, cmp) == Tied(a, x, cmp) + Tied(b, x, cmp)
    decreases |a|
  {
    if a != [] {
      var head := if cmp(a[0], x) == 0 then [a[0]] else [];
      assert (a + b)[0] == a[0];
      assert (a + b)[1..] == a[1..] + b;
      TiedConcat(a[1..], b, x, cmp);
      calc {
        Tied(a + b, x, cmp);
        head + Tied(a[1..] + b, x, cmp);
        head + (Tied(a[1..], x, cmp) + Tied(b, x, cmp));
        (head + Tied(a[1..], x, cmp)) + Tied(b, x, cmp);
      }
    } else {
      assert a + b == b;
    }
  }

  /** No element of `s` ties with `x`. */
  lemma {:induction false} TiedNone<T>(s: seq<T>, x: T, cmp: (T, T) -> int)
    requires forall k :: 0 <= k < |s| ==> cmp(s[k], x) != 0
    ensures Tied(s, x, cmp) == []
    decreases |s|
  {
    if s != [] {
      TiedNone(s[1..], x, cmp);
    }
  }

  /** In a sorted sequence, nothing from the insertion point of `y` on ties with `y`'s peers. */
  lemma {:induction false} NoTieAfterInsertionPoint<T(!new)>(s: seq<T>, y: T, x: T, cmp: (T, T) -> int, rank: T -> Rank)
    requires RankedBy(cmp, rank) && Sorted(s, cmp) && cmp(y, x) == 0
    ensures Tied(s[FirstAfter(s, y, cmp)..], x, cmp) == []
  {
    var p := FirstAfter(s, y, cmp);
    AfterInsertionPoint(s, y, cmp, rank);
    forall k | 0 <= k < |s[p..]|
      ensures cmp(s[p..][k], x) != 0
    {
      assert Ahead(rank(y), rank(s[p + k]));
    }
    TiedNone(s[p..], x, cmp);
  }

  /** Inserting `y` adds it to the end of its tie group, and leaves other groups alone. */
  lemma {:induction false} InsertTied<T(!new)>(s: seq<T>, y: T, x: T, cmp: (T, T) -> int, rank: T -> Rank)
    requires RankedBy(cmp, rank) && Sorted(s, cmp)
    ensures Tied(Insert(s, y, cmp), x, cmp) == Tied(s, x, cmp) + Tied([y], x, cmp)
  {
    var p := FirstAfter(s, y, cmp);
    var lo, hi := s[..p], s[p..];
    assert Insert(s, y, cmp) == (lo + [y]) + hi;
    assert s == lo + hi;
    TiedConcat(lo + [y], hi, x, cmp);
    TiedConcat(lo, [y], x, cmp);
    TiedConcat(lo, hi, x, cmp);
    if cmp(y, x) == 0 {
      NoTieAfterInsertionPoint(s, y, x, cmp, rank);
    }
  }

  /**
   * Stability: the elements tied with any `x` appear in the result in the
   * order they had in the input.
   */
  lemma {:induction false} SortIsStable<T(!new)>(s: seq<T>, x: T, cmp: (T, T) -> int, rank: T -> Rank)
    requires RankedBy(cmp, rank)
    ensures Tied(InsertionSort(s, cmp), x, cmp) == Tied(s, x, cmp)
    decreases |s|
  {
    if s != [] {
      var init := s[..|s| - 1];
      SortIsStable(init, x, cmp, rank);
      SortIsSorted(init, cmp, rank);
      InsertTied(InsertionSort(init, cmp), s[|s| - 1], x, cmp, rank);
      assert s == init + [s[|s| - 1]];
      TiedConcat(init, [s[|s| - 1]], x, cmp);
    }
  }

  // ---------------------------------------------------------------------
  // In place
  // ---------------------------------------------------------------------

  /** The insertion point of `x` in the prefix `a[..n]`. */
  method FindInsertionPoint<T>(a: array<T>, n: nat, x: T, cmp: (T, T) -> int) returns (p: nat)
    requires n <= a.Length
    ensures p == FirstAfter(a[..n], x, cmp)
  {
    p := 0;
    while p < n && cmp(x, a[p]) >= 0
      invariant p <= n
      invariant forall k :: 0 <= k < p ==> cmp(x, a[..n][k]) >= 0
    {
      p := p + 1;
    }
    FirstAfterUnique(a[..n], x, cmp, p);
  }

  /** Moves `a[p..n]` one place right, leaving `a[p]` as it was. */
  method ShiftRight<T>(a: array<T>, p: nat, n: nat)
    requires p <= n < a.Length
    modifies a
    ensures a[..p] == old(a[..p])
    ensures a[p + 1..n + 1] == old(a[p..n])
    ensures a[n + 1..] == old(a[n + 1..])
  {
    var j := n;
    while j > p
      invariant p <= j <= n
      invariant a[..j] == old(a[..j])
      invariant a[j + 1..n + 1] == old(a[j..n])
      invariant a[n + 1..] == old(a[n + 1..])
    {
      a[j] := a[j - 1];
      j := j - 1;
    }
  }

  lemma {:induction false} SortStep<T>(s: seq<T>, i: nat, cmp: (T, T) -> int)
    requires i < |s|
    ensures InsertionSort(s[..i + 1], cmp) == Insert(InsertionSort(s[..i], cmp), s[i], cmp)
  {
    assert s[..i + 1][..i] == s[..i];
  }

  /** One step of the sort: `a[i]` moves to its insertion point in `a[..i]`. */
  method InsertInPlace<T>(a: array<T>, i: nat, cmp: (T, T) -> int)
    requires i < a.Length
    modifies a
    ensures a[..i + 1] == Insert(old(a[..i]), old(a[i]), cmp)
    ensures a[i + 1..] == old(a[i + 1..])
  {
    ghost var pre := a[..i];
    var x := a[i];
    var p := FindInsertionPoint(a, i, x, cmp);
    ShiftRight(a, p, i);
    a[p] := x;
    assert a[..p] == pre[..p];
    assert a[p + 1..i + 1] == pre[p..];
    assert a[..i + 1] == pre[..p] + [x] + pre[p..];
  }

  /** The sort as the engine runs it: in place on the array. */
  method SortInPlace<T>(a: array<T>, cmp: (T, T) -> int)
    modifies a
    ensures a[..] == InsertionSort(old(a[..]), cmp)
  {
    ghost var s := a[..];
    var i := 0;
    while i < a.Length
      invariant 0 <= i <= a.Length
      invariant a[..i] == InsertionSort(s[..i], cmp)
      invariant a[i..] == s[i..]
    {
      assert a[i] == s[i] by {
        assert a[i..][0] == s[i..][0];
      }
      InsertInPlace(a, i, cmp);
      assert a[i + 1..] == s[i + 1..] by {
        assert s[i + 1..] == s[i..][1..];
      }
      SortStep(s, i, cmp);
      i := i + 1;
    }
    assert s[..a.Length] == s;
  }
}

=== FILE: strings.dfy ===
/**
 * String operations of the JavaScript runtime that the marketplace code
 * relies on: ASCII case mapping, prefix and substring tests, `split` on a
 * separator and decimal rendering of a number.
 */
module Strings {

  predicate IsAsciiUpper(c: char) { 'A' <= c <= 'Z' }
  predicate IsAsciiLower(c: char) { 'a' <= c <= 'z' }
  predicate IsDigit(c: char) { '0' <= c <= '9' }
  predicate IsAsciiLetter(c: char) { IsAsciiUpper(c) || IsAsciiLower(c) }

  /** ASCII lower-casing of one character. */
  function LowerChar(c: char): (r: char)
    ensures !IsAsciiUpper(r)
    ensures !IsAsciiUpper(c) ==> r == c
    ensures IsAsciiUpper(c) ==> IsAsciiLower(r)
  {
    if IsAsciiUpper(c) then (c as int + 32) as char else c
  }

  /** `toLowerCase()` restricted to the ASCII letters. */
  function Lower(s: string): (r: string)
    ensures |r| == |s|
    ensures forall i :: 0 <= i < |s| ==> r[i] == LowerChar(s[i])
  {
    if s == [] then [] else [LowerChar(s[0])] + Lower(s[1..])
  }

  /** `s.startsWith(p)`. */
  predicate StartsWith(s: string, p: string)
  {
    |p| <= |s| && s[..|p|] == p
  }

  /** `sub` occurs in `s` starting at index `i`. */
  predicate OccursAt(s: string, sub: string, i: int)
  {
    0 <= i && i + |sub| <= |s| && s[i..i + |sub|] == sub
  }

  /** `s.includes(sub)`: `sub` occurs somewhere in `s`. */
  predicate Contains(s: string, sub: string)
  {
    exists i | 0 <= i <= |s| - |sub| :: OccursAt(s, sub, i)
  }

  /** Case-insensitive substring test, both sides lower-cased. */
  predicate ContainsIgnoringCase(s: string, sub: string)
  {
    Contains(Lower(s), Lower(sub))
  }

  lemma {:induction false} ContainsEmpty(s: string)
    ensures Contains(s, "")
  {
    assert OccursAt(s, "", 0);
  }

  /** Index of the first occurrence of `sep` in `s`, if any. */
  function IndexOf(s: string, sep: string): (r: int)
    requires |sep| > 0
    ensures r >= -1
    ensures r >= 0 ==> OccursAt(s, sep, r)
    ensures r >= 0 ==> forall j :: 0 <= j < r ==> !OccursAt(s, sep, j)
    ensures r < 0 ==> forall j :: !OccursAt(s, sep, j)
    decreases |s|
  {
    if |s| < |sep| then -1
    else if s[..|sep|] == sep then 0
    else
      var k := IndexOf(s[1..], sep);
      OccursAtTail(s, sep);
      if k < 0 then -1 else k + 1
  }

  lemma OccursAtTail(s: string, sep: string)
    requires |s| >= 1
    ensures forall j :: 1 <= j ==> (OccursAt(s, sep, j) <==> OccursAt(s[1..], sep, j - 1))
  {
    forall j | 1 <= j
      ensures OccursAt(s, sep, j) <==> OccursAt(s[1..], sep, j - 1)
    {
      if j + |sep| <= |s| {
        assert s[1..][j - 1..j - 1 + |sep|] == s[j..j + |sep|];
      }
    }
  }

  /** `s.split(sep)` for a non-empty separator: the pieces between non-overlapping occurrences. */
  function Split(s: string, sep: string): (r: seq<string>)
    requires |sep| > 0
    ensures |r| >= 1
    decreases |s|
  {
    var i := IndexOf(s, sep);
    if i < 0 then [s] else [s[..i]] + Split(s[i + |sep|..], sep)
  }

  /** `parts.join(sep)`. */
  function Join(parts: seq<string>, sep: string): string
  {
    if |parts| == 0 then ""
    else if |parts| == 1 then parts[0]
    else parts[0] + sep + Join(parts[1..], sep)
  }

  /** `c` does not occur in `s`. */
  predicate Free(s: string, c: char)
  {
    forall i :: 0 <= i < |s| ==> s[i] != c
  }

  /** A string without the first character of `sep` is one piece of `split`. */
  lemma {:induction false} SplitNoSeparator(s: string, sep: string)
    requires |sep| > 0 && Free(s, sep[0])
    ensures Split(s, sep) == [s]
  {
    var i := IndexOf(s, sep);
    if i >= 0 {
      assert false;
    }
  }

  /** Cutting `a + sep + b` at its first separator gives back `a`. */
  lemma {:induction false} SplitAfterPiece(a: string, sep: string, b: string)
    requires |sep| > 0 && Free(a, sep[0])
    ensures Split(a + sep + b, sep) == [a] + Split(b, sep)
  {
    var s := a + sep + b;
    assert s[|a|..|a| + |sep|] == sep;
    assert OccursAt(s, sep, |a|);
    var i := IndexOf(s, sep);
    assert 0 <= i <= |a|;
    if i < |a| {
      assert false;
    }
    assert s[..i] == a;
    assert s[i + |sep|..] == b;
  }

  /** `split` undoes `join` when no piece holds the separator's first character. */
  lemma {:induction false} SplitJoin(parts: seq<string>, sep: string)
    requires |sep| > 0 && |parts| >= 1
    requires forall k :: 0 <= k < |parts| ==> Free(parts[k], sep[0])
    ensures Split(Join(parts, sep), sep) == parts
    decreases |parts|
  {
    if |parts| == 1 {
      SplitNoSeparator(parts[0], sep);
    } else {
      SplitAfterPiece(parts[0], sep, Join(parts[1..], sep));
      SplitJoin(parts[1..], sep);
    }
  }

  function DigitChar(d: nat): (c: char)
    requires d < 10
    ensures IsDigit(c)
  {
    ('0' as int + d) as char
  }

  /** The number a string of decimal digits denotes, most significant digit first. */
  function DecimalValue(s: string): nat
    requires forall i :: 0 <= i < |s| ==> IsDigit(s[i])
  {
    if s == [] then 0
    else
      assert IsDigit(s[|s| - 1]);
      10 * DecimalValue(s[..|s| - 1]) + (s[|s| - 1] as int - '0' as int)
  }

  /**
   * The decimal rendering of a natural number, as `${n}` produces it: digits
   * denoting `n`, with no leading zero. Distinct numbers get distinct texts.
   */
  function NatToString(n: nat): (r: string)
    ensures |r| >= 1
    ensures forall i :: 0 <= i < |r| ==> IsDigit(r[i])
    ensures DecimalValue(r) == n
    ensures r[0] == '0' <==> n == 0
  {
    if n < 10 then [DigitChar(n)]
    else
      var front := NatToString(n / 10);
      assert (front + [DigitChar(n % 10)])[..|front|] == front;
      front + [DigitChar(n % 10)]
  }
}

=== FILE: upload_route.dfy ===
/**
 * app/api/upload/route.ts: a signed-in user asks for a URL to upload a
 * file to. The body is checked (a file name, and a content type of an
 * accepted family), the object key is built, and the signed upload URL,
 * the key and the file's public URL are returned. Signing is foreign: its
 * outcome is a parameter, and the route's request to the signer is part of
 * the result.
 */
module Upload {
  import opened Common
  import opened Strings
  import S3

  const AllowedMimeTypes: seq<string> := [
    "application/pdf",
    "application/zip",
    "application/x-zip-compressed",
    "application/" + "vnd.openxmlformats-officedocument.wordprocessingml.document",
    "image/png",
    "image/jpeg",
    "video/mp4"
  ]

  /** The signed URL's lifetime in seconds. */
  const Expiry := 3600

  /** The part of `s` before the first `c`, or all of `s` when there is none. */
  function Before(s: string, c: char): (r: string)
    ensures |r| <= |s| && r == s[..|r|]
    ensures Free(r, c)
    ensures |r| < |s| ==> s[|r|] == c
  {
    if s == [] || s[0] == c then [] else [s[0]] + Before(s[1..], c)
  }

  /** `type.split('/')[0]`: the family of a MIME type. */
  function Family(mimeType: string): string
  {
    Before(mimeType, '/')
  }

  /** `Family` is the first piece `split` gives. */
  lemma {:induction false} FamilyIsFirstPiece(mimeType: string)
    ensures Family(mimeType) == Split(mimeType, "/")[0]
  {
    var i := IndexOf(mimeType, "/");
    var r := Family(mimeType);
    if i < 0 {
      if |r| < |mimeType| {
        assert OccursAt(mimeType, "/", |r|);
      }
    } else {
      assert mimeType[i] == '/' by { assert OccursAt(mimeType, "/", i); }
      if |r| < i {
        assert OccursAt(mimeType, "/", |r|);
      }
    }
  }

  /** The MIME test: equal to an allowed type, or starting with the family of one; every listed type passes. */
  function MimeAllowed(contentType: string): (b: bool)
    ensures contentType in AllowedMimeTypes ==> b
  {
    exists k | 0 <= k < |AllowedMimeTypes| ::
      contentType == AllowedMimeTypes[k] || StartsWith(contentType, Family(AllowedMimeTypes[k]))
  }

  /** A type that starts with `family/` is of that family. */
  lemma {:induction false} FamilyOfPrefix(family: string, mimeType: string)
    requires Free(family, '/') && StartsWith(mimeType, family + "/")
    ensures Family(mimeType) == family
  {
    assert mimeType[|family|] == (family + "/")[|family|];
    assert mimeType[..|family|] == (family + "/")[..|family|];
  }

  /** The families of the allowed types: four `application`, two `image`, one `video`. */
  lemma {:induction false} FamilyAt(k: nat)
    requires k < |AllowedMimeTypes|
    ensures Family(AllowedMimeTypes[k]) == (if k < 4 then "application" else if k < 6 then "image" else "video")
    ensures StartsWith(AllowedMimeTypes[k], Family(AllowedMimeTypes[k]))
  {
    if k < 4 {
      FamilyOfPrefix("application", AllowedMimeTypes[k]);
    } else if k < 6 {
      FamilyOfPrefix("image", AllowedMimeTypes[k]);
    } else {
      FamilyOfPrefix("video", AllowedMimeTypes[k]);
    }
  }

  /** A content type of one of the three families is accepted. */
  lemma {:induction false} FamilyAccepted(contentType: string)
    requires StartsWith(contentType, "application") || StartsWith(contentType, "image")
             || StartsWith(contentType, "video")
    ensures MimeAllowed(contentType)
  {
    var k := if StartsWith(contentType, "application") then 0
             else if StartsWith(contentType, "image") then 4 else 6;
    FamilyAt(k);
  }

  /** An accepted content type is of one of the three families. */
  lemma {:induction false} AcceptedHasFamily(contentType: string)
    requires MimeAllowed(contentType)
    ensures StartsWith(contentType, "application") || StartsWith(contentType, "image")
            || StartsWith(contentType, "video")
  {
    var k :| 0 <= k < |AllowedMimeTypes| &&
      (contentType == AllowedMimeTypes[k] || StartsWith(contentType, Family(AllowedMimeTypes[k])));
    FamilyAt(k);
  }

  /**
   * The test only looks at families: a content type is accepted exactly
   * when it starts with `application`, `image` or `video`, so an exact
   * match in the list adds nothing.
   */
  lemma MimeAllowedByFamily(contentType: string)
    ensures MimeAllowed(contentType)
            <==> StartsWith(contentType, "application") || StartsWith(contentType, "image")
                 || StartsWith(contentType, "video")
  {
    if MimeAllowed(contentType) {
      AcceptedHasFamily(contentType);
    } else if StartsWith(contentType, "application") || StartsWith(contentType, "image")
              || StartsWith(contentType, "video") {
      FamilyAccepted(contentType);
    }
  }

  /** `image/gif` is not in the list but is accepted; `text/plain` is refused. */
  lemma {:induction false} FamilyExamples()
    ensures MimeAllowed("image/gif")
    ensures !MimeAllowed("text/plain")
  {
    MimeAllowedByFamily("image/gif");
    assert "image/gif"[..5] == "image";
    MimeAllowedByFamily("text/plain");
    var text := "text/plain";
    assert text[0] == 't';
    DiffersAtStart(text, "application");
    DiffersAtStart(text, "image");
    DiffersAtStart(text, "video");
  }

  /** A text does not start with a prefix whose first character it does not share. */
  lemma DiffersAtStart(s: string, prefix: string)
    requires |s| > 0 && |prefix| > 0 && s[0] != prefix[0]
    ensures !StartsWith(s, prefix)
  {
  }

  /** An optional field of the body: missing, a string, or some other JSON value (a number, `null`, an object). */
  datatype OptionalField = Absent | Text(value: string) | NotText

  /** The string an optional field holds, if any. */
  function TextOf(f: OptionalField): Option<string>
  {
    if f.Text? then Some(f.value) else None
  }

  /**
   * The JSON body. The two required fields are `None` when missing or not
   * a string, which the schema refuses alike; `productId` may be missing
   * but, when present, must be a string.
   */
  datatype UploadInput = UploadInput(fileName: Option<string>, contentType: Option<string>, productId: OptionalField)

  datatype UploadBody = NotJson | Json(input: UploadInput)

  /**
   * `uploadSchema`: a non-empty file name, a non-empty accepted content
   * type, and a `productId` that is missing or a string.
   */
  function Valid(input: UploadInput): (b: bool)
    ensures input.productId.NotText? ==> !b
  {
    && input.fileName.Some? && |input.fileName.value| >= 1
    && input.contentType.Some? && |input.contentType.value| >= 1
    && MimeAllowed(input.contentType.value)
    && !input.productId.NotText?
  }

  /** What the route asks the signer for. */
  datatype SignRequest = SignRequest(key: string, contentType: string, expiresIn: nat)

  datatype UploadResponse =
    | UploadFailed(status: nat, error: string)
    | Granted(signedUrl: string, s3Key: string, url: string)

  datatype UploadResult = UploadResult(response: UploadResponse, signRequest: Option<SignRequest>)

  /** The text standing for zod's issue list in a 400 answer. */
  const SchemaIssues := "Invalid request"

  /**
   * `POST /api/upload`. `timestamp` is the clock reading of the key,
   * `signed` the signer's outcome, `bucket` and `region` the environment.
   */
  function UploadSpec(session: Option<Session>, body: UploadBody, timestamp: nat, signed: Outcome<string>,
                      bucket: Option<string>, region: Option<string>): (r: UploadResult)
    ensures session.None? ==> r == UploadResult(UploadFailed(401, "Unauthorized"), None)
    // a body that is not JSON is caught as a failure, before anything is signed
    ensures session.Some? && body.NotJson? ==> r == UploadResult(UploadFailed(500, "Failed to generate upload URL"), None)
    // a signer that throws: 500, after the sign request was sent
    ensures (session.Some? && body.Json? && Valid(body.input) && signed.Threw?)
              ==> r.response == UploadFailed(500, "Failed to generate upload URL") && r.signRequest.Some?
    ensures session.Some? && body.Json? && !Valid(body.input) ==> r == UploadResult(UploadFailed(400, SchemaIssues), None)
    // a `productId` that is not a string fails `z.string().optional()`
    ensures (session.Some? && body.Json? && body.input.productId.NotText?)
              ==> r == UploadResult(UploadFailed(400, SchemaIssues), None)
    ensures r.response.Granted? <==> session.Some? && body.Json? && Valid(body.input) && signed.Ok?
    ensures r.signRequest.Some? <==> session.Some? && body.Json? && Valid(body.input)
    ensures r.signRequest.Some? ==>
              && r.signRequest.value.expiresIn == Expiry
              && r.signRequest.value.contentType == body.input.contentType.value
              && r.signRequest.value.key
                 == S3.GenerateS3Key(NatToString(session.value.userId), OrElse(TextOf(body.input.productId), "temp"),
                                     body.input.fileName.value, timestamp)
    ensures r.response.Granted? ==>
              && r.response.s3Key == r.signRequest.value.key
              && r.response.url == S3.GetFileUrl(bucket, region, r.response.s3Key)
              && r.response.signedUrl == signed.value
  {
    if session.None? then UploadResult(UploadFailed(401, "Unauthorized"), None)
    else if body.NotJson? then UploadResult(UploadFailed(500, "Failed to generate upload URL"), None)
    else if !Valid(body.input) then UploadResult(UploadFailed(400, SchemaIssues), None)
    else
      var input := body.input;
      var productId := OrElse(TextOf(input.productId), "temp");
      var key := S3.GenerateS3Key(NatToString(session.value.userId), productId, input.fileName.value, timestamp);
      var request := SignRequest(key, input.contentType.value, Expiry);
      match signed
      case Threw => UploadResult(UploadFailed(500, "Failed to generate upload URL"), Some(request))
      case Ok(signedUrl) =>
        var url := "https://" + EnvText(bucket) + ".s3." + EnvText(region) + ".amazonaws.com/" + key;
        UploadResult(Granted(signedUrl, key, url), Some(request))
  }

  /**
   * Without a product id the file goes under `temp`: the key's third
   * segment is `temp` (for a user id, which is all digits, has no slash).
   */
  lemma {:induction false} DefaultProductFolder(session: Session, fileName: string, contentType: string,
                                                timestamp: nat, signed: Outcome<string>,
                                                bucket: Option<string>, region: Option<string>)
    requires |fileName| >= 1 && |contentType| >= 1 && MimeAllowed(contentType)
    ensures var r := UploadSpec(Some(session), Json(UploadInput(Some(fileName), Some(contentType), Absent)),
                                timestamp, signed, bucket, region);
      r.signRequest.Some? && |Split(r.signRequest.value.key, "/")| == 4 && Split(r.signRequest.value.key, "/")[2] == "temp"
  {
    var id := NatToString(session.userId);
    assert Free(id, '/') by {
      forall i | 0 <= i < |id| ensures id[i] != '/' {
        assert IsDigit(id[i]);
      }
    }
    S3.KeySegments(id, "temp", fileName, timestamp);
  }
}

=== FILE: utils.dfy ===
/**
 * lib/utils.ts: the commission split of a sale and the slug of a product
 * title. Amounts are exact reals, so the split conserves money exactly.
 */
module Utils {
  import opened Strings

  // ---------------------------------------------------------------------
  // Commission
  // ---------------------------------------------------------------------

  /** The three commission rates, read from the environment in the source. */
  datatype Rates = Rates(ownerRate: real, defaultRate: real, proRate: real)

  /** The fallbacks used when the environment sets no rate. */
  const DefaultRates := Rates(0.0, 0.10, 0.05)

  /** The platform's commission and what the seller keeps. */
  datatype Split = Split(commission: real, sellerAmount: real)

  /** Tier precedence: owner first, then pro, then the default rate; an owner's pro plan does not matter. */
  function SelectRate(isOwner: bool, isPro: bool, rates: Rates): (r: real)
    ensures r == rates.ownerRate || r == rates.proRate || r == rates.defaultRate
    ensures isOwner ==> r == rates.ownerRate
    ensures !isOwner && isPro ==> r == rates.proRate
    ensures !isOwner && !isPro ==> r == rates.defaultRate
  {
    if isOwner then rates.ownerRate
    else if isPro then rates.proRate
    else rates.defaultRate
  }

  /** `calculateCommission`: commission is `amount * rate`, the seller keeps the rest. */
  function CalculateCommission(amount: real, isOwner: bool, isPro: bool, rates: Rates): (r: Split)
    ensures r.commission + r.sellerAmount == amount
    ensures isOwner ==> r.commission == amount * rates.ownerRate
    ensures !isOwner && isPro ==> r.commission == amount * rates.proRate
    ensures !isOwner && !isPro ==> r.commission == amount * rates.defaultRate
  {
    var commission := amount * SelectRate(isOwner, isPro, rates);
    Split(commission, amount - commission)
  }

  /** With a rate between 0 and 1 and a non-negative amount, both parts lie in [0, amount]. */
  lemma {:induction false} CommissionBounds(amount: real, isOwner: bool, isPro: bool, rates: Rates)
    requires amount >= 0.0
    requires 0.0 <= SelectRate(isOwner, isPro, rates) <= 1.0
    ensures var r := CalculateCommission(amount, isOwner, isPro, rates);
      0.0 <= r.commission <= amount && 0.0 <= r.sellerAmount <= amount
  {
    var rate := SelectRate(isOwner, isPro, rates);
    var r := CalculateCommission(amount, isOwner, isPro, rates);
    assert r.commission == amount * rate;
    ScaledBetween(amount, rate);
  }

  /** A non-negative amount scaled by a factor in [0, 1] stays between 0 and the amount. */
  lemma {:induction false} ScaledBetween(a: real, x: real)
    requires a >= 0.0 && 0.0 <= x <= 1.0
    ensures 0.0 <= a * x <= a
  {
    assert a * (1.0 - x) == a - a * x;
  }

  /** With the fallback rates an owner sale pays no commission at all. */
  lemma OwnerSaleKeepsEverything(amount: real, isPro: bool)
    ensures CalculateCommission(amount, true, isPro, DefaultRates) == Split(0.0, amount)
  {
  }

  /** With the fallback rates a pro seller never pays more than a default seller. */
  lemma {:induction false} ProRateIsCheaper(amount: real)
    requires amount >= 0.0
    ensures CalculateCommission(amount, false, true, DefaultRates).commission
         <= CalculateCommission(amount, false, false, DefaultRates).commission
  {
    assert amount * 0.05 <= amount * 0.10 by {
      assert amount * 0.10 - amount * 0.05 == amount * 0.05;
    }
  }

  // ---------------------------------------------------------------------
  // Slug
  // ---------------------------------------------------------------------

  /** The JavaScript `\s` class (and the set that `trim()` removes). */
  predicate IsSpace(c: char)
  {
    c == ' ' || c == '\t' || c == '\n' || c == '\r' || c == '\U{000B}' || c == '\U{000C}'
    || c == '\U{00A0}' || c == '\U{1680}' || ('\U{2000}' <= c <= '\U{200A}')
    || c == '\U{2028}' || c == '\U{2029}' || c == '\U{202F}' || c == '\U{205F}'
    || c == '\U{3000}' || c == '\U{FEFF}'
  }

  /** The JavaScript `\w` class: ASCII letters, digits and underscore. */
  predicate IsWordChar(c: char)
  {
    IsAsciiLetter(c) || IsDigit(c) || c == '_'
  }

  /** The class `[\s_-]` whose runs become a single dash. */
  predicate IsSeparator(c: char)
  {
    IsSpace(c) || c == '_' || c == '-'
  }

  /** The characters a slug may hold: `[a-z0-9-]`. */
  predicate IsSlugChar(c: char)
  {
    IsAsciiLower(c) || IsDigit(c) || c == '-'
  }

  predicate NoDoubleDash(s: string)
  {
    forall i :: 0 <= i < |s| - 1 ==> !(s[i] == '-' && s[i + 1] == '-')
  }

  predicate AllSlugChars(s: string)
  {
    forall i :: 0 <= i < |s| ==> IsSlugChar(s[i])
  }

  /** A well-formed slug: `[a-z0-9-]` only, no dash at either end, no two dashes in a row. */
  predicate IsSlug(s: string)
  {
    && AllSlugChars(s)
    && (|s| > 0 ==> s[0] != '-' && s[|s| - 1] != '-')
    && NoDoubleDash(s)
  }

  function TrimStart(s: string): (r: string)
    ensures |r| <= |s| && r == s[|s| - |r|..]
    ensures r == [] || !IsSpace(r[0])
  {
    if s != [] && IsSpace(s[0]) then TrimStart(s[1..]) else s
  }

  function TrimEnd(s: string): (r: string)
    ensures |r| <= |s| && r == s[..|r|]
    ensures r == [] || !IsSpace(r[|r| - 1])
  {
    if s != [] && IsSpace(s[|s| - 1]) then TrimEnd(s[..|s| - 1]) else s
  }

  /** `trim()`. */
  function Trim(s: string): string
  {
    TrimEnd(TrimStart(s))
  }

  /**
   * What `trim()` does: the result is a piece of the text with no space at
   * either end, and a text without space at either end is left as it is.
   */
  lemma TrimShape(s: string)
    ensures |Trim(s)| <= |s|
    ensures Trim(s) == [] || (!IsSpace(Trim(s)[0]) && !IsSpace(Trim(s)[|Trim(s)| - 1]))
    ensures s == [] || (!IsSpace(s[0]) && !IsSpace(s[|s| - 1])) ==> Trim(s) == s
  {
  }

  /** The characters `[\w\s-]` that the removal keeps. */
  predicate Allowed(c: char)
  {
    IsWordChar(c) || IsSpace(c) || c == '-'
  }

  /**
   * `replace(/[^\w\s-]/g, '')`: keep word characters, white space and dashes.
   * Every allowed character of the input stays, as often as it occurs there.
   */
  function RemoveDisallowed(s: string): (r: string)
    ensures forall i :: 0 <= i < |r| ==> Allowed(r[i])
    ensures forall i :: 0 <= i < |r| ==> r[i] in s
    ensures forall c :: Allowed(c) ==> multiset(r)[c] == multiset(s)[c]
  {
    if s == [] then []
    else
      assert multiset(s) == multiset{s[0]} + multiset(s[1..]) by { assert s == [s[0]] + s[1..]; }
      if Allowed(s[0]) then [s[0]] + RemoveDisallowed(s[1..])
      else RemoveDisallowed(s[1..])
  }

  /** Drops the leading run of separators. */
  function SkipSeparators(s: string): (r: string)
    ensures |r| <= |s| && r == s[|s| - |r|..]
    ensures r == [] || !IsSeparator(r[0])
  {
    if s != [] && IsSeparator(s[0]) then SkipSeparators(s[1..]) else s
  }

  /** Only separators are skipped: every other character keeps its count. */
  lemma {:induction false} SkipKeepsOthers(s: string)
    ensures forall c :: !IsSeparator(c) ==> multiset(SkipSeparators(s))[c] == multiset(s)[c]
    decreases |s|
  {
    if s != [] && IsSeparator(s[0]) {
      SkipKeepsOthers(s[1..]);
      assert multiset(s) == multiset{s[0]} + multiset(s[1..]) by { assert s == [s[0]] + s[1..]; }
    }
  }

  /** `replace(/[\s_-]+/g, '-')`: every maximal run of separators becomes one dash. */
  function CollapseSeparators(s: string): (r: string)
    ensures |r| == 0 <==> |s| == 0
    ensures |r| > 0 ==> (r[0] == '-' <==> IsSeparator(s[0]))
    ensures forall i :: 0 <= i < |r| ==> r[i] == '-' || (r[i] in s && !IsSeparator(r[i]))
    ensures NoDoubleDash(r)
    decreases |s|
  {
    if s == [] then []
    else if IsSeparator(s[0]) then
      var rest := SkipSeparators(s[1..]);
      ['-'] + CollapseSeparators(rest)
    else [s[0]] + CollapseSeparators(s[1..])
  }

  /** Collapsing keeps every character that is not a separator, as often as it occurs. */
  lemma {:induction false} CollapseKeepsOthers(s: string)
    ensures forall c :: !IsSeparator(c) ==> multiset(CollapseSeparators(s))[c] == multiset(s)[c]
    decreases |s|
  {
    if s != [] {
      assert multiset(s) == multiset{s[0]} + multiset(s[1..]) by { assert s == [s[0]] + s[1..]; }
      if IsSeparator(s[0]) {
        var rest := SkipSeparators(s[1..]);
        SkipKeepsOthers(s[1..]);
        CollapseKeepsOthers(rest);
        var tail := CollapseSeparators(rest);
        assert CollapseSeparators(s) == ['-'] + tail;
        assert multiset(['-'] + tail) == multiset{'-'} + multiset(tail);
      } else {
        CollapseKeepsOthers(s[1..]);
        var tail := CollapseSeparators(s[1..]);
        assert CollapseSeparators(s) == [s[0]] + tail;
        assert multiset([s[0]] + tail) == multiset{s[0]} + multiset(tail);
      }
    }
  }

  function DropLeadingDashes(s: string): (r: string)
    ensures |r| <= |s| && r == s[|s| - |r|..]
    ensures r == [] || r[0] != '-'
  {
    if s != [] && s[0] == '-' then DropLeadingDashes(s[1..]) else s
  }

  function DropTrailingDashes(s: string): (r: string)
    ensures |r| <= |s| && r == s[..|r|]
    ensures r == [] || r[|r| - 1] != '-'
  {
    if s != [] && s[|s| - 1] == '-' then DropTrailingDashes(s[..|s| - 1]) else s
  }

  /** `replace(/^-+|-+$/g, '')`. */
  function StripDashes(s: string): string
  {
    DropTrailingDashes(DropLeadingDashes(s))
  }

  /** `a` and `b` hold the same lower-case ASCII letters and digits, each as often. */
  predicate SameLettersAndDigits(a: string, b: string)
  {
    forall c :: IsAsciiLower(c) || IsDigit(c) ==> multiset(a)[c] == multiset(b)[c]
  }

  /** `generateSlug`: lower-case, trim, drop disallowed characters, collapse separators, strip dashes. */
  function GenerateSlug(text: string): (slug: string)
    ensures IsSlug(slug)
  {
    var lowered := Lower(text);
    var kept := RemoveDisallowed(Trim(lowered));
    KeptAreLowerCase(Trim(lowered), lowered);
    var collapsed := CollapseSeparators(kept);
    var stripped := StripDashes(collapsed);
    InfixKeepsShape(collapsed, DropLeadingDashes(collapsed), stripped);
    stripped
  }

  /** The slug holds every ASCII letter and digit of the title, lower-cased, as often as the title does. */
  lemma SlugKeepsLettersAndDigits(text: string)
    ensures SameLettersAndDigits(GenerateSlug(text), Lower(text))
  {
    StagesKeepLettersAndDigits(Lower(text));
  }

  /** Trimming drops only white space: every other character keeps its count. */
  lemma {:induction false} TrimStartKeepsOthers(s: string)
    ensures forall c :: !IsSpace(c) ==> multiset(TrimStart(s))[c] == multiset(s)[c]
    decreases |s|
  {
    if s != [] && IsSpace(s[0]) {
      TrimStartKeepsOthers(s[1..]);
      assert multiset(s) == multiset{s[0]} + multiset(s[1..]) by { assert s == [s[0]] + s[1..]; }
    }
  }

  lemma {:induction false} TrimEndKeepsOthers(s: string)
    ensures forall c :: !IsSpace(c) ==> multiset(TrimEnd(s))[c] == multiset(s)[c]
    decreases |s|
  {
    if s != [] && IsSpace(s[|s| - 1]) {
      TrimEndKeepsOthers(s[..|s| - 1]);
      assert multiset(s) == multiset(s[..|s| - 1]) + multiset{s[|s| - 1]} by {
        assert s == s[..|s| - 1] + [s[|s| - 1]];
      }
    }
  }

  /** Stripping dashes drops only dashes. */
  lemma {:induction false} DropLeadingKeepsOthers(s: string)
    ensures forall c :: c != '-' ==> multiset(DropLeadingDashes(s))[c] == multiset(s)[c]
    decreases |s|
  {
    if s != [] && s[0] == '-' {
      DropLeadingKeepsOthers(s[1..]);
      assert multiset(s) == multiset{s[0]} + multiset(s[1..]) by { assert s == [s[0]] + s[1..]; }
    }
  }

  lemma {:induction false} DropTrailingKeepsOthers(s: string)
    ensures forall c :: c != '-' ==> multiset(DropTrailingDashes(s))[c] == multiset(s)[c]
    decreases |s|
  {
    if s != [] && s[|s| - 1] == '-' {
      DropTrailingKeepsOthers(s[..|s| - 1]);
      assert multiset(s) == multiset(s[..|s| - 1]) + multiset{s[|s| - 1]} by {
        assert s == s[..|s| - 1] + [s[|s| - 1]];
      }
    }
  }

  /** No stage of `generateSlug` after lower-casing loses or adds a letter or digit. */
  lemma StagesKeepLettersAndDigits(lowered: string)
    ensures SameLettersAndDigits(StripDashes(CollapseSeparators(RemoveDisallowed(Trim(lowered)))), lowered)
  {
    TrimStartKeepsOthers(lowered);
    TrimEndKeepsOthers(TrimStart(lowered));
    CollapseKeepsOthers(RemoveDisallowed(Trim(lowered)));
    var collapsed := CollapseSeparators(RemoveDisallowed(Trim(lowered)));
    DropLeadingKeepsOthers(collapsed);
    DropTrailingKeepsOthers(DropLeadingDashes(collapsed));
  }

  /** After lower-casing and trimming, the kept characters are `[a-z0-9_]`, white space or dashes. */
  lemma KeptAreLowerCase(trimmed: string, lowered: string)
    requires forall i :: 0 <= i < |lowered| ==> !IsAsciiUpper(lowered[i])
    requires trimmed == Trim(lowered)
    ensures forall c :: c in RemoveDisallowed(trimmed) ==> IsSlugChar(c) || IsSeparator(c)
  {
    var t1 := TrimStart(lowered);
    assert forall c :: c in trimmed ==> c in t1;
    assert forall c :: c in t1 ==> c in lowered;
  }

  /** A suffix of a prefix keeps the slug characters and the absence of double dashes. */
  lemma InfixKeepsShape(s: string, mid: string, r: string)
    requires AllSlugChars(s) && NoDoubleDash(s)
    requires |mid| <= |s| && mid == s[|s| - |mid|..]
    requires |r| <= |mid| && r == mid[..|r|]
    ensures AllSlugChars(r) && NoDoubleDash(r)
  {
    var off := |s| - |mid|;
    assert forall i :: 0 <= i < |r| ==> r[i] == s[off + i];
  }

  // Each stage leaves an existing slug alone; together they make the slug a fixpoint.

  lemma {:induction false} LowerKeepsSlugChars(s: string)
    requires AllSlugChars(s)
    ensures Lower(s) == s
  {
  }

  lemma {:induction false} RemoveDisallowedKeepsSlugChars(s: string)
    requires AllSlugChars(s)
    ensures RemoveDisallowed(s) == s
    decreases |s|
  {
    if s != [] {
      RemoveDisallowedKeepsSlugChars(s[1..]);
    }
  }

  lemma TailKeepsShape(s: string)
    requires s != [] && AllSlugChars(s) && NoDoubleDash(s)
    ensures AllSlugChars(s[1..]) && NoDoubleDash(s[1..])
  {
  }

  lemma {:induction false} CollapseKeepsSlug(s: string)
    requires AllSlugChars(s) && NoDoubleDash(s)
    ensures CollapseSeparators(s) == s
    decreases |s|
  {
    if s != [] {
      var tail := s[1..];
      TailKeepsShape(s);
      CollapseKeepsSlug(tail);
      if IsSeparator(s[0]) {
        assert s[0] == '-';
        if tail != [] {
          assert tail[0] == s[1];
          assert !IsSeparator(tail[0]);
        }
        assert SkipSeparators(tail) == tail;
        assert CollapseSeparators(s) == ['-'] + CollapseSeparators(tail);
      } else {
        assert CollapseSeparators(s) == [s[0]] + CollapseSeparators(tail);
      }
      assert s == [s[0]] + tail;
    }
  }

  /** An existing slug is a fixpoint of `generateSlug`. */
  lemma {:induction false} SlugIsFixpoint(s: string)
    requires IsSlug(s)
    ensures GenerateSlug(s) == s
  {
    LowerKeepsSlugChars(s);
    SlugIsTrimmed(s);
    RemoveDisallowedKeepsSlugChars(s);
    CollapseKeepsSlug(s);
    SlugHasNoOuterDash(s);
    assert GenerateSlug(s) == StripDashes(CollapseSeparators(RemoveDisallowed(Trim(Lower(s)))));
  }

  /** A slug has no dash to strip at either end. */
  lemma {:induction false} SlugHasNoOuterDash(s: string)
    requires IsSlug(s)
    ensures StripDashes(s) == s
  {
    assert DropLeadingDashes(s) == s;
    assert DropTrailingDashes(s) == s;
  }

  /** A slug has no white space at either end. */
  lemma {:induction false} SlugIsTrimmed(s: string)
    requires IsSlug(s)
    ensures Trim(s) == s
  {
    if s != [] {
      SlugCharIsNotSpace(s[0]);
      SlugCharIsNotSpace(s[|s| - 1]);
    }
    assert TrimStart(s) == s;
    assert TrimEnd(s) == s;
  }

  lemma SlugCharIsNotSpace(c: char)
    requires IsSlugChar(c)
    ensures !IsSpace(c)
  {
  }

  /** `generateSlug` is idempotent. */
  lemma SlugIdempotent(text: string)
    ensures GenerateSlug(GenerateSlug(text)) == GenerateSlug(text)
  {
    SlugIsFixpoint(GenerateSlug(text));
  }
}

=== FILE: webhook.dfy ===
/**
 * app/api/webhooks/flutterwave/route.ts: the gateway reports the end of a
 * charge. A signed `charge.completed` event for a known reference either
 * completes the transaction (after asking the gateway to confirm it) and
 * starts the seller's payout, or marks it failed.
 *
 * Parameters stand for what the route receives from outside: the raw body
 * and its signature header, the `FLW_WEBHOOK_HASH` variable, the hash
 * function, the parsed body (`None` when `JSON.parse` throws) and the
 * outcomes of the two gateway calls.
 */
module FlutterwaveWebhook {
  import opened Common
  import opened Strings
  import opened Database
  import opened Flutterwave

  /** `data` of the event; a field missing from the JSON is `None`. */
  datatype EventData = EventData(txRef: Option<string>, status: Option<string>, id: Option<string>)

  datatype WebhookPayload = WebhookPayload(event: string, data: Option<EventData>)

  /** The tables afterwards, the answer, and the transfer asked of the gateway if any. */
  datatype WebhookResult = WebhookResult(tables: Tables, response: Response, payoutRequest: Option<PayoutRequest>)

  const Processed := Response(200, "Webhook processed")
  const Failed := Response(500, "Webhook processing failed")

  /**
   * `transaction.findFirst({ where: { flutterwaveRef: txRef } })`. Prisma
   * drops a filter whose value is `undefined`, so an event without
   * `tx_ref` finds the first transaction of all.
   */
  function FindTx(txs: seq<Transaction>, txRef: Option<string>): (r: Option<nat>)
    ensures r.Some? ==> r.value < |txs|
    ensures txRef.Some? ==> r == FindByRef(txs, txRef.value)
    ensures txRef.None? ==> (r.Some? <==> txs != [])
  {
    match txRef
    case None => if txs == [] then None else Some(0)
    case Some(ref) => FindByRef(txs, ref)
  }

  /**
   * `sellerProfile?.mobileMoneyNumber && sellerProfile?.mobileMoneyProvider`:
   * a payable seller has a profile with a non-empty number and provider.
   */
  function CanBePaid(seller: User): (b: bool)
    ensures seller.sellerProfile.None? ==> !b
    ensures b ==> seller.sellerProfile.value.mobileMoneyNumber.Some? && seller.sellerProfile.value.mobileMoneyNumber.value != ""
  {
    seller.sellerProfile.Some?
    && Truthy(seller.sellerProfile.value.mobileMoneyNumber)
    && Truthy(seller.sellerProfile.value.mobileMoneyProvider)
  }

  /** The transfer sent for payout `payoutId` of transaction `tx`. */
  function TransferFor(tx: Transaction, seller: User, product: Product, payoutId: nat): (req: PayoutRequest)
    requires CanBePaid(seller)
    ensures req.amount == tx.sellerAmount && req.currency == Currency
    ensures req.accountBank == "MTN" <==> seller.sellerProfile.value.mobileMoneyProvider.value == "MTN"
    ensures req.accountBank == "MTN" || req.accountBank == "ORANGE"
    ensures req.accountNumber == seller.sellerProfile.value.mobileMoneyNumber.value
  {
    var profile := seller.sellerProfile.value;
    PayoutRequest(if profile.mobileMoneyProvider.value == "MTN" then "MTN" else "ORANGE",
                  profile.mobileMoneyNumber.value, tx.sellerAmount, Currency,
                  "Payout for " + product.title, "PAYOUT-" + NatToString(payoutId),
                  OrElse(seller.name, seller.email))
  }

  /**
   * A confirmed payment: transaction `i` becomes COMPLETED with the
   * gateway's id; a seller who can be paid gets a PENDING payout, which
   * becomes PROCESSING when the gateway accepts the transfer. A refused
   * transfer is swallowed and the payout stays PENDING.
   */
  function Settle(t: Tables, i: nat, id: string, payoutResult: Outcome<PayoutHandle>): (r: WebhookResult)
    requires i < |t.txs| && t.txs[i].sellerId < |t.users| && t.txs[i].productId < |t.products|
    ensures r.response == Processed
    ensures r.tables.txs == t.txs[i := t.txs[i].(status := TxCompleted, flutterwaveTxId := Some(id))]
    ensures r.payoutRequest.Some? <==> CanBePaid(t.users[t.txs[i].sellerId])
    ensures r.payoutRequest.None? ==> r.tables.payouts == t.payouts
    ensures r.payoutRequest.Some? ==>
              && |r.tables.payouts| == |t.payouts| + 1
              && r.tables.payouts[..|t.payouts|] == t.payouts
              && var p := r.tables.payouts[|t.payouts|];
                 && p.transactionId == i && p.sellerId == t.txs[i].sellerId
                 && p.amount == t.txs[i].sellerAmount == r.payoutRequest.value.amount
                 && r.payoutRequest.value.reference == "PAYOUT-" + NatToString(|t.payouts|)
                 && (p.status == PayoutProcessing <==> payoutResult.Ok?)
                 && (p.status == PayoutPending <==> payoutResult.Threw?)
  {
    var tx := t.txs[i];
    var t1 := t.(txs := t.txs[i := tx.(status := TxCompleted, flutterwaveTxId := Some(id))]);
    var seller := t.users[tx.sellerId];
    if !CanBePaid(seller) then WebhookResult(t1, Processed, None)
    else
      var profile := seller.sellerProfile.value;
      var pid := |t.payouts|;
      var payout := Payout(tx.sellerId, i, tx.sellerAmount, PayoutPending,
                           profile.mobileMoneyNumber.value, profile.mobileMoneyProvider.value, None, None);
      var t2 := t1.(payouts := t.payouts + [payout]);
      var req := TransferFor(tx, seller, t.products[tx.productId], pid);
      match payoutResult
      case Threw => WebhookResult(t2, Processed, Some(req))
      case Ok(h) =>
        var started := payout.(status := PayoutProcessing, flutterwavePayoutId := Some(h.id),
                               flutterwaveRef := Some(h.reference));
        WebhookResult(t2.(payouts := t2.payouts[pid := started]), Processed, Some(req))
  }

  /** The signature header is present and matches the body. */
  predicate Authentic(digest: string -> seq<Byte>, secretEnv: Option<string>, body: string, signature: Option<string>)
  {
    Truthy(signature) && VerifyWebhookHash(digest, EnvText(secretEnv), body, signature.value)
  }

  /** Only the status and the gateway id of a transaction ever change. */
  predicate OnlyStatusChanged(before: seq<Transaction>, after: seq<Transaction>)
  {
    |after| == |before|
    && forall j :: 0 <= j < |before| ==>
         after[j] == before[j].(status := after[j].status, flutterwaveTxId := after[j].flutterwaveTxId)
  }

  /**
   * Processing a signed request throws, and the route answers 500: the body
   * is not JSON, a `charge.completed` event has no `data`, the transaction
   * found lacks its seller or product row, the event it acts on has no `id`,
   * or the confirmation call throws.
   */
  predicate ProcessingThrows(t: Tables, payload: Option<WebhookPayload>, verification: Outcome<Verification>)
  {
    || payload.None?
    || (&& payload.value.event == "charge.completed"
        && (|| payload.value.data.None?
            || (var data := payload.value.data.value;
                var found := FindTx(t.txs, data.txRef);
                && found.Some?
                && (|| t.txs[found.value].sellerId >= |t.users| || t.txs[found.value].productId >= |t.products|
                    || (data.status == Some("successful") && (data.id.None? || verification.Threw?))
                    || (data.status == Some("failed") && data.id.None?)))))
  }

  /**
   * A signed `charge.completed` event whose reference found transaction `i`:
   * only row `i` can change, to COMPLETED or FAILED with the event's id.
   */
  function HandleFound(t: Tables, i: nat, data: EventData, verification: Outcome<Verification>,
                       payoutResult: Outcome<PayoutHandle>): (r: WebhookResult)
    requires i < |t.txs|
    ensures r.tables.users == t.users && r.tables.products == t.products && r.tables.boosts == t.boosts
    ensures |r.tables.txs| == |t.txs|
    ensures forall j :: 0 <= j < |t.txs| && j != i ==> r.tables.txs[j] == t.txs[j]
    ensures r.tables.txs[i] != t.txs[i] ==>
              && data.id.Some?
              && (|| (data.status == Some("failed")
                      && r.tables.txs[i] == t.txs[i].(status := TxFailed, flutterwaveTxId := data.id))
                  || (&& data.status == Some("successful")
                      && verification.Ok? && verification.value.status == "successful"
                      && r.tables.txs[i] == t.txs[i].(status := TxCompleted, flutterwaveTxId := data.id)))
    ensures r.response == Failed <==>
              || t.txs[i].sellerId >= |t.users| || t.txs[i].productId >= |t.products|
              || (data.status == Some("successful") && (data.id.None? || verification.Threw?))
              || (data.status == Some("failed") && data.id.None?)
    ensures r.response == Failed ==> r == WebhookResult(t, Failed, None)
    ensures r.response != Failed ==> r.response == Processed
    ensures |t.payouts| <= |r.tables.payouts| <= |t.payouts| + 1
    ensures r.tables.payouts[..|t.payouts|] == t.payouts
    ensures |r.tables.payouts| > |t.payouts| ==>
              && r.payoutRequest.Some?
              && PayoutMatches(r.tables, r.tables.payouts[|t.payouts|])
              && r.tables.txs[r.tables.payouts[|t.payouts|].transactionId].status == TxCompleted
              && r.payoutRequest.value.amount == r.tables.payouts[|t.payouts|].amount
    ensures r.payoutRequest.Some? ==> |r.tables.payouts| == |t.payouts| + 1 && r.payoutRequest.value.currency == Currency
  {
    var tx := t.txs[i];
    // the query includes the seller and the product, both required relations
    if tx.sellerId >= |t.users| || tx.productId >= |t.products| then WebhookResult(t, Failed, None)
    else if data.status == Some("successful") then
      // `eventData.id.toString()` of a missing id throws
      if data.id.None? then WebhookResult(t, Failed, None)
      else match verification
        case Threw => WebhookResult(t, Failed, None)
        case Ok(v) =>
          if v.status == "successful" then Settle(t, i, data.id.value, payoutResult)
          else WebhookResult(t, Processed, None)
    else if data.status == Some("failed") then
      if data.id.None? then WebhookResult(t, Failed, None)
      else
        var failed := tx.(status := TxFailed, flutterwaveTxId := Some(data.id.value));
        WebhookResult(t.(txs := t.txs[i := failed]), Processed, None)
    else WebhookResult(t, Processed, None)
  }

  function Webhook(t: Tables, body: string, signature: Option<string>, secretEnv: Option<string>,
                   digest: string -> seq<Byte>, payload: Option<WebhookPayload>,
                   verification: Outcome<Verification>, payoutResult: Outcome<PayoutHandle>): (r: WebhookResult)
    // an unsigned or wrongly signed request changes nothing and is refused
    ensures !Truthy(signature) ==> r == WebhookResult(t, Response(401, "Missing signature"), None)
    ensures (Truthy(signature) && !Authentic(digest, secretEnv, body, signature))
              ==> r == WebhookResult(t, Response(401, "Invalid signature"), None)
    ensures r.tables != t || r.payoutRequest.Some? ==> Authentic(digest, secretEnv, body, signature)
    // users, products and boosts are never touched; transactions keep their amounts
    ensures r.tables.users == t.users && r.tables.products == t.products && r.tables.boosts == t.boosts
    ensures OnlyStatusChanged(t.txs, r.tables.txs)
    // only the transaction that the event's reference finds can change
    ensures forall j :: 0 <= j < |t.txs| && r.tables.txs[j] != t.txs[j] ==>
              && payload.Some? && payload.value.event == "charge.completed" && payload.value.data.Some?
              && FindTx(t.txs, payload.value.data.value.txRef) == Some(j)
    // a transaction turns FAILED only for a `failed` event, and takes the event's id
    ensures forall j :: 0 <= j < |t.txs| && r.tables.txs[j].status == TxFailed && t.txs[j].status != TxFailed ==>
              && payload.Some? && payload.value.data.Some?
              && payload.value.data.value.status == Some("failed")
              && r.tables.txs[j].flutterwaveTxId == payload.value.data.value.id
    // a changed row is either failed or completed, with the event's id, and nothing else of it moves
    ensures forall j :: 0 <= j < |t.txs| && r.tables.txs[j] != t.txs[j] ==>
              && payload.Some? && payload.value.data.Some? && payload.value.data.value.id.Some?
              && (|| (&& payload.value.data.value.status == Some("failed")
                      && r.tables.txs[j] == t.txs[j].(status := TxFailed, flutterwaveTxId := payload.value.data.value.id))
                  || (&& payload.value.data.value.status == Some("successful")
                      && verification.Ok? && verification.value.status == "successful"
                      && r.tables.txs[j] == t.txs[j].(status := TxCompleted, flutterwaveTxId := payload.value.data.value.id)))
    // a signed request whose processing throws is answered 500 and changes nothing; no other request gets 500
    ensures r.response == Failed <==>
              (Authentic(digest, secretEnv, body, signature) && ProcessingThrows(t, payload, verification))
    ensures r.response == Failed ==> r.tables == t && r.payoutRequest.None?
    // existing payouts are kept as they were; at most one is added
    ensures |t.payouts| <= |r.tables.payouts| <= |t.payouts| + 1
    ensures r.tables.payouts[..|t.payouts|] == t.payouts
    // a transaction is completed only for a `successful` event that the gateway confirms, with the event's id
    ensures forall j :: 0 <= j < |t.txs| && r.tables.txs[j].status == TxCompleted && t.txs[j].status != TxCompleted
              ==> && verification.Ok? && verification.value.status == "successful"
                  && payload.Some? && payload.value.data.Some?
                  && payload.value.data.value.status == Some("successful")
                  && r.tables.txs[j].flutterwaveTxId == payload.value.data.value.id
    // a new payout pays a transaction that is now COMPLETED, for its seller amount
    ensures |r.tables.payouts| > |t.payouts| ==>
              && r.payoutRequest.Some?
              && PayoutMatches(r.tables, r.tables.payouts[|t.payouts|])
              && r.tables.txs[r.tables.payouts[|t.payouts|].transactionId].status == TxCompleted
              && r.payoutRequest.value.amount == r.tables.payouts[|t.payouts|].amount
    ensures r.payoutRequest.Some? ==> |r.tables.payouts| == |t.payouts| + 1 && r.payoutRequest.value.currency == Currency
  {
    if !Truthy(signature) then WebhookResult(t, Response(401, "Missing signature"), None)
    else if !VerifyWebhookHash(digest, EnvText(secretEnv), body, signature.value) then
      WebhookResult(t, Response(401, "Invalid signature"), None)
    else if payload.None? then WebhookResult(t, Failed, None)
    else if payload.value.event != "charge.completed" then WebhookResult(t, Processed, None)
    // `eventData.tx_ref` of a missing `data` throws
    else if payload.value.data.None? then WebhookResult(t, Failed, None)
    else
      var data := payload.value.data.value;
      match FindTx(t.txs, data.txRef)
      case None => WebhookResult(t, Response(200, "Transaction not found"), None)
      case Some(i) => HandleFound(t, i, data, verification, payoutResult)
  }

  /** A signed event about transaction `i`: `charge.completed`, with data, whose reference finds row `i`. */
  predicate EventFor(t: Tables, body: string, signature: Option<string>, secretEnv: Option<string>,
                     digest: string -> seq<Byte>, payload: Option<WebhookPayload>, i: nat)
  {
    && Authentic(digest, secretEnv, body, signature)
    && payload.Some? && payload.value.event == "charge.completed" && payload.value.data.Some?
    && FindTx(t.txs, payload.value.data.value.txRef) == Some(i)
    && i < |t.txs| && t.txs[i].sellerId < |t.users| && t.txs[i].productId < |t.products|
  }

  /** A signed event of any other kind is acknowledged and changes nothing. */
  lemma OtherEventsIgnored(t: Tables, body: string, signature: Option<string>, secretEnv: Option<string>,
                           digest: string -> seq<Byte>, payload: Option<WebhookPayload>,
                           verification: Outcome<Verification>, payoutResult: Outcome<PayoutHandle>)
    requires Authentic(digest, secretEnv, body, signature)
    requires payload.Some? && payload.value.event != "charge.completed"
    ensures Webhook(t, body, signature, secretEnv, digest, payload, verification, payoutResult)
         == WebhookResult(t, Processed, None)
  {
  }

  /** A signed `charge.completed` event whose reference matches no row is answered 200 and changes nothing. */
  lemma UnknownReferenceAnswered(t: Tables, body: string, signature: Option<string>, secretEnv: Option<string>,
                                 digest: string -> seq<Byte>, payload: Option<WebhookPayload>,
                                 verification: Outcome<Verification>, payoutResult: Outcome<PayoutHandle>)
    requires Authentic(digest, secretEnv, body, signature)
    requires payload.Some? && payload.value.event == "charge.completed" && payload.value.data.Some?
    requires FindTx(t.txs, payload.value.data.value.txRef).None?
    ensures Webhook(t, body, signature, secretEnv, digest, payload, verification, payoutResult)
         == WebhookResult(t, Response(200, "Transaction not found"), None)
  {
  }

  /**
   * A `successful` event that the gateway does not confirm is acknowledged
   * and changes nothing: the transaction is neither completed nor failed.
   */
  lemma UnconfirmedSuccessChangesNothing(t: Tables, body: string, signature: Option<string>, secretEnv: Option<string>,
                                         digest: string -> seq<Byte>, payload: Option<WebhookPayload>,
                                         verification: Outcome<Verification>, payoutResult: Outcome<PayoutHandle>,
                                         i: nat)
    requires EventFor(t, body, signature, secretEnv, digest, payload, i)
    requires payload.value.data.value.status == Some("successful") && payload.value.data.value.id.Some?
    requires verification.Ok? && verification.value.status != "successful"
    ensures Webhook(t, body, signature, secretEnv, digest, payload, verification, payoutResult)
         == WebhookResult(t, Processed, None)
  {
  }

  /** A `successful` event that the gateway confirms completes its transaction with the event's id. */
  lemma ConfirmedSuccessCompletes(t: Tables, body: string, signature: Option<string>, secretEnv: Option<string>,
                                  digest: string -> seq<Byte>, payload: Option<WebhookPayload>,
                                  verification: Outcome<Verification>, payoutResult: Outcome<PayoutHandle>,
                                  i: nat)
    requires EventFor(t, body, signature, secretEnv, digest, payload, i)
    requires payload.value.data.value.status == Some("successful") && payload.value.data.value.id.Some?
    requires verification.Ok? && verification.value.status == "successful"
    ensures var r := Webhook(t, body, signature, secretEnv, digest, payload, verification, payoutResult);
      && r == Settle(t, i, payload.value.data.value.id.value, payoutResult)
      && r.response == Processed
      && r.tables.txs[i].status == TxCompleted
      && r.tables.txs[i].flutterwaveTxId == payload.value.data.value.id
  {
  }

  /**
   * A `failed` event marks its transaction FAILED with the event's id,
   * whatever the transaction's status; nothing else changes and no payout is asked.
   */
  lemma FailedEventFails(t: Tables, body: string, signature: Option<string>, secretEnv: Option<string>,
                         digest: string -> seq<Byte>, payload: Option<WebhookPayload>,
                         verification: Outcome<Verification>, payoutResult: Outcome<PayoutHandle>, i: nat)
    requires EventFor(t, body, signature, secretEnv, digest, payload, i)
    requires payload.value.data.value.status == Some("failed") && payload.value.data.value.id.Some?
    ensures Webhook(t, body, signature, secretEnv, digest, payload, verification, payoutResult)
         == WebhookResult(t.(txs := t.txs[i := t.txs[i].(status := TxFailed, flutterwaveTxId := payload.value.data.value.id)]),
                          Processed, None)
  {
  }

  /** The webhook keeps the ledger invariant. */
  lemma {:induction false} WebhookKeepsLedger(t: Tables, body: string, signature: Option<string>, secretEnv: Option<string>,
                                              digest: string -> seq<Byte>, payload: Option<WebhookPayload>,
                                              verification: Outcome<Verification>, payoutResult: Outcome<PayoutHandle>)
    requires Ledger(t)
    ensures Ledger(Webhook(t, body, signature, secretEnv, digest, payload, verification, payoutResult).tables)
  {
    var r := Webhook(t, body, signature, secretEnv, digest, payload, verification, payoutResult);
    var u := r.tables;
    forall i | 0 <= i < |u.txs|
      ensures u.txs[i].commission + u.txs[i].sellerAmount == u.txs[i].amount
    {
      assert u.txs[i] == t.txs[i].(status := u.txs[i].status, flutterwaveTxId := u.txs[i].flutterwaveTxId);
    }
    forall j | 0 <= j < |u.payouts|
      ensures PayoutMatches(u, u.payouts[j])
    {
      if j < |t.payouts| {
        assert u.payouts[j] == u.payouts[..|t.payouts|][j] == t.payouts[j];
        assert PayoutMatches(t, t.payouts[j]);
        var k := t.payouts[j].transactionId;
        assert u.txs[k] == t.txs[k].(status := u.txs[k].status, flutterwaveTxId := u.txs[k].flutterwaveTxId);
      }
    }
  }

  /** The verified amount and currency play no part: only the verified status is read. */
  lemma VerifiedAmountIgnored(t: Tables, body: string, signature: Option<string>, secretEnv: Option<string>,
                              digest: string -> seq<Byte>, payload: Option<WebhookPayload>,
                              status: string, a1: real, c1: string, a2: real, c2: string,
                              payoutResult: Outcome<PayoutHandle>)
    ensures Webhook(t, body, signature, secretEnv, digest, payload, Ok(Verification(status, a1, c1)), payoutResult)
         == Webhook(t, body, signature, secretEnv, digest, payload, Ok(Verification(status, a2, c2)), payoutResult)
  {
  }

  /** The conditions under which a delivery confirms transaction `i` and pays its seller. */
  predicate PaysOut(t: Tables, body: string, signature: Option<string>, secretEnv: Option<string>,
                    digest: string -> seq<Byte>, payload: Option<WebhookPayload>,
                    verification: Outcome<Verification>, i: nat)
  {
    && Authentic(digest, secretEnv, body, signature)
    && payload.Some? && payload.value.event == "charge.completed" && payload.value.data.Some?
    && payload.value.data.value.status == Some("successful") && payload.value.data.value.id.Some?
    && verification.Ok? && verification.value.status == "successful"
    && FindTx(t.txs, payload.value.data.value.txRef) == Some(i)
    && t.txs[i].sellerId < |t.users| && t.txs[i].productId < |t.products|
    && CanBePaid(t.users[t.txs[i].sellerId])
  }

  /**
   * Nothing guards against a repeated delivery: the same successful event
   * delivered twice creates two payouts for one transaction.
   */
  lemma {:induction false} RedeliveryPaysTwice(t: Tables, body: string, signature: Option<string>, secretEnv: Option<string>,
                                               digest: string -> seq<Byte>, payload: Option<WebhookPayload>,
                                               verification: Outcome<Verification>, i: nat,
                                               p1: Outcome<PayoutHandle>, p2: Outcome<PayoutHandle>)
    requires PaysOut(t, body, signature, secretEnv, digest, payload, verification, i)
    ensures var t1 := Webhook(t, body, signature, secretEnv, digest, payload, verification, p1).tables;
            var t2 := Webhook(t1, body, signature, secretEnv, digest, payload, verification, p2).tables;
            && |t2.payouts| == |t.payouts| + 2
            && t2.payouts[|t.payouts|].transactionId == i
            && t2.payouts[|t.payouts| + 1].transactionId == i
  {
    var t1 := Webhook(t, body, signature, secretEnv, digest, payload, verification, p1).tables;
    var ref := payload.value.data.value.txRef;
    assert t1.txs == t.txs[i := t.txs[i].(status := TxCompleted, flutterwaveTxId := payload.value.data.value.id)];
    assert FindTx(t1.txs, ref) == Some(i) by {
      if ref.Some? {
        FindByRefKeptByStatusChange(t.txs, t1.txs, ref.value);
      }
    }
    assert PaysOut(t1, body, signature, secretEnv, digest, payload, verification, i);
    var t2 := Webhook(t1, body, signature, secretEnv, digest, payload, verification, p2).tables;
    assert t2.payouts[..|t1.payouts|] == t1.payouts;
    assert t2.payouts[|t.payouts|] == t1.payouts[|t.payouts|];
  }

  /** Changing statuses does not move a reference lookup. */
  lemma {:induction false} FindByRefKeptByStatusChange(before: seq<Transaction>, after: seq<Transaction>, ref: string)
    requires OnlyStatusChanged(before, after)
    ensures FindByRef(after, ref) == FindByRef(before, ref)
    decreases |before|
  {
    if before != [] {
      assert after[0].flutterwaveRef == before[0].flutterwaveRef;
      FindByRefKeptByStatusChange(before[1..], after[1..], ref);
    }
  }

  /**
   * A `failed` event overrides a completion: a transaction already COMPLETED
   * and paid out ends FAILED, while the payout that pays it stays recorded.
   */
  lemma FailedOverridesCompleted(t: Tables, body: string, signature: Option<string>, secretEnv: Option<string>,
                                 digest: string -> seq<Byte>, payload: Option<WebhookPayload>,
                                 verification: Outcome<Verification>, payoutResult: Outcome<PayoutHandle>,
                                 i: nat, k: nat)
    requires EventFor(t, body, signature, secretEnv, digest, payload, i)
    requires payload.value.data.value.status == Some("failed") && payload.value.data.value.id.Some?
    requires t.txs[i].status == TxCompleted
    requires k < |t.payouts| && t.payouts[k].transactionId == i
    ensures var r := Webhook(t, body, signature, secretEnv, digest, payload, verification, payoutResult);
            && r.response == Processed && r.payoutRequest.None?
            && r.tables.txs == t.txs[i := t.txs[i].(status := TxFailed, flutterwaveTxId := payload.value.data.value.id)]
            && r.tables.payouts == t.payouts && r.tables.payouts[k].transactionId == i
  {
    FailedEventFails(t, body, signature, secretEnv, digest, payload, verification, payoutResult, i);
  }

  /** A confirmed payment on the store: complete the transaction and, when the seller can be paid, record the payout. */
  method SettleOnStore(db: Db, i: nat, id: string, payoutResult: Outcome<PayoutHandle>)
    returns (payoutRequest: Option<PayoutRequest>)
    requires i < |db.txs| && db.txs[i].sellerId < |db.users| && db.txs[i].productId < |db.products|
    modifies db
    ensures var r := Settle(old(db.Snapshot()), i, id, payoutResult);
      db.Snapshot() == r.tables && payoutRequest == r.payoutRequest
  {
    var tx := db.txs[i];
    db.txs := db.txs[i := tx.(status := TxCompleted, flutterwaveTxId := Some(id))];
    var seller := db.users[tx.sellerId];
    payoutRequest := None;
    if CanBePaid(seller) {
      var profile := seller.sellerProfile.value;
      var pid := |db.payouts|;
      var payout := Payout(tx.sellerId, i, tx.sellerAmount, PayoutPending,
                           profile.mobileMoneyNumber.value, profile.mobileMoneyProvider.value, None, None);
      db.payouts := db.payouts + [payout];
      payoutRequest := Some(TransferFor(tx, seller, db.products[tx.productId], pid));
      if payoutResult.Ok? {
        var h := payoutResult.value;
        db.payouts := db.payouts[pid := payout.(status := PayoutProcessing, flutterwavePayoutId := Some(h.id),
                                                flutterwaveRef := Some(h.reference))];
      }
    }
  }

  /** The event for transaction `i` against the store. */
  method HandleFoundOnStore(db: Db, i: nat, data: EventData, verification: Outcome<Verification>,
                            payoutResult: Outcome<PayoutHandle>)
    returns (response: Response, payoutRequest: Option<PayoutRequest>)
    requires i < |db.txs|
    modifies db
    ensures var r := HandleFound(old(db.Snapshot()), i, data, verification, payoutResult);
      db.Snapshot() == r.tables && response == r.response && payoutRequest == r.payoutRequest
  {
    payoutRequest := None;
    var tx := db.txs[i];
    if tx.sellerId >= |db.users| || tx.productId >= |db.products| {
      return Failed, None;
    }
    if data.status == Some("successful") {
      if data.id.None? || verification.Threw? {
        return Failed, None;
      }
      if verification.value.status == "successful" {
        payoutRequest := SettleOnStore(db, i, data.id.value, payoutResult);
      }
    } else if data.status == Some("failed") {
      if data.id.None? {
        return Failed, None;
      }
      db.txs := db.txs[i := tx.(status := TxFailed, flutterwaveTxId := Some(data.id.value))];
    }
    response := Processed;
  }

  /** `POST /api/webhooks/flutterwave` against the store. */
  method Post(db: Db, body: string, signature: Option<string>, secretEnv: Option<string>,
              digest: string -> seq<Byte>, payload: Option<WebhookPayload>,
              verification: Outcome<Verification>, payoutResult: Outcome<PayoutHandle>)
    returns (response: Response, payoutRequest: Option<PayoutRequest>)
    modifies db
    ensures var r := Webhook(old(db.Snapshot()), body, signature, secretEnv, digest, payload, verification, payoutResult);
      db.Snapshot() == r.tables && response == r.response && payoutRequest == r.payoutRequest
  {
    ghost var t := db.Snapshot();
    payoutRequest := None;
    if !Truthy(signature) {
      return Response(401, "Missing signature"), None;
    }
    if !VerifyWebhookHash(digest, EnvText(secretEnv), body, signature.value) {
      return Response(401, "Invalid signature"), None;
    }
    if payload.None? {
      return Failed, None;
    }
    if payload.value.event != "charge.completed" {
      return Processed, None;
    }
    if payload.value.data.None? {
      return Failed, None;
    }
    var data := payload.value.data.value;
    var found := FindTx(db.txs, data.txRef);
    if found.None? {
      return Response(200, "Transaction not found"), None;
    }
    response, payoutRequest := HandleFoundOnStore(db, found.value, data, verification, payoutResult);
  }
}
